=== FILE: README.md ===
# Swing-trading scorer: indicators, patterns and the ten-factor score

This project models the per-instrument core of a swing-trading stock
screener. The core is made of two parts:

- **`services/technicalAnalysis.js`** turns a daily OHLCV series into a set
  of indicator readings:
  - RSI, MACD, the EMA stack, ADX, volume, Bollinger Bands and ATR;
  - candlestick patterns, the 20-session trend and support/resistance;
  - four swing chart patterns (flag, triangle, double top/bottom and
    consolidation);
  - a four-category confluence checklist.
- **`services/scoringEngine.js`** scores those readings. It grades ten
  factors, adds them to a total of at most 9.5, and rounds the total to a
  tenth. It classifies the total into a signal, picks the reasons to show,
  and places a trade setup (stop and targets). `screenStocks` ranks many
  instruments by score.

How the source's conventions appear in the model:

- **Indicator library.** The raw indicator series (RSI(14), MACD(12,26,9),
  EMA 9/20/21/50/200, ADX(14), Bollinger(20,2) and ATR(14)) come from an
  external library. Here they are an input record, `Bars.LibrarySeries`,
  carried next to the candles. Everything the source derives from them is
  modelled.
- **Reals and `undefined`.**
  - Numbers are `real`.
  - JavaScript's `undefined` is `Option.None`, and a comparison with it is
    false (`Common.Gt`/`Ge`/`Lt`/`Le`).
  - `x || y` on numbers treats 0 as missing (`Common.Truthy`).
  - A division that gives NaN or Infinity is `None` where the value is kept
    or shown. Where the value only feeds a comparison, it becomes the guard
    the comparison amounts to.
- **Rounding.**
  - `toFixed(2)` read back as a number is `Common.Round2`: the nearest
    hundredth, to within 0.005.
  - `Math.round(x * 10) / 10` is `Common.RoundTenth`.
- **Data contract.** The candles satisfy `Bars.WellFormedBar`:
  - `0 <= low <= close <= high`;
  - `close > 0`;
  - `volume >= 0`.

  The operations that read prices ask for it.
- **Display text.** Reason and check lines are tag constructors carrying
  the numbers they show, not strings.
- **The risk/reward ratio.** The trade setup computes its ratio from the
  unrounded stop and far target, then rounds it. The ratio therefore
  agrees with reward / risk on the exact figures
  (`Setup.RatioFromExactFigures`). It does not always agree with the
  two-decimal figures the setup shows: `Setup.ShownFiguresLoseSmallRisk`
  gives a setup that shows entry and stop both as 100, that is zero risk,
  next to a ratio of 1.5. The model follows the code.

Modules follow the source's structure:

| Module | Contents |
|---|---|
| `Common` | Option, rounding, ratios, sums |
| `Bars` | candles and library series |
| `Indicators` | RSI, MACD, EMAs, ADX, volume, bands, ATR |
| `Candles` | candlestick detector |
| `Sorting` | the stable sort behind `Array.prototype.sort` |
| `Swings` | swing-point scans |
| `Levels` | support and resistance |
| `TrendAnalysis` | the 20-session trend |
| `Poles` | the flagpole search |
| `SwingPatterns` | the four chart patterns |
| `Confluence` | the four-category checklist |
| `Analysis` | `calculateIndicators` |
| `Factors` | the ten factors |
| `Setup` | the trade setup |
| `Signals` | the signal and its reasons |
| `Scoring` | `calculateScore` and `screenStocks` |

## Model

| member | source | states |
|---|---|---|
| Common.Round2 | services/scoringEngine.js:458-464 | `toFixed(2)` read back lies within 0.005 of the number and keeps a non-negative number non-negative |
| Common.RoundTenth | services/scoringEngine.js:101 | the displayed score lies within 0.05 of the total and is a whole number of tenths |
| Common.Round2Monotone | services/scoringEngine.js:458-461 | rounding to two decimals preserves order, so rounded stops and targets keep the order of the exact ones |
| Common.Percent | services/technicalAnalysis.js:199-202 | a percentage times its whole is a hundred times its part, and it is non-negative exactly when the part is |
| Common.At | services/technicalAnalysis.js:163-164 | an index outside the array reads `undefined`, an index inside reads the element |
| Common.TakeLast | services/technicalAnalysis.js:240 | `slice(-n)` is the last `min(n, length)` elements |
| Common.Take | services/scoringEngine.js:501-515 | `slice(0, n)` is a prefix of length `min(n, length)` |
| Common.Mean | services/technicalAnalysis.js:241 | the average of an array times its length is its sum |
| Common.SeqMax | services/technicalAnalysis.js:533 | `Math.max(...xs)` is an element of `xs` and bounds every element |
| Common.SeqMin | services/technicalAnalysis.js:534 | `Math.min(...xs)` is an element of `xs` and bounded by every element |
| Bars.Closes | services/technicalAnalysis.js:26 | the close series is the candles' closes, position by position |
| Bars.Highs | services/technicalAnalysis.js:27 | the high series is the candles' highs, position by position |
| Bars.Lows | services/technicalAnalysis.js:28 | the low series is the candles' lows, position by position |
| Bars.Volumes | services/technicalAnalysis.js:29 | the volume series is the candles' volumes, position by position |
| Bars.ClosesPositive | services/technicalAnalysis.js:26 | under the data contract every close is positive |
| Indicators.CalculateRsi | services/technicalAnalysis.js:75-93 | the flags as if-and-only-if conditions on the last two RSI values (swing zone 40..60, recovering across 40, oversold under 30, overbought over 70), and that oversold and overbought exclude each other |
| Indicators.RsiFortyAfterThirtyNine | services/technicalAnalysis.js:87-90 | an RSI of 40 right after 39 is both in the swing zone and recovering |
| Indicators.CalculateMacd | services/technicalAnalysis.js:98-136 | bullish, the fresh bull and bear crosses and the rising histogram as if-and-only-if conditions on the last one or two points; the recent bullish crossover holds exactly when one of the last two steps crosses up; the two crosses exclude each other; the values are the last point's, with no data reading as zeros |
| Indicators.DistancePercent | services/technicalAnalysis.js:199-202 | the distance exists exactly when the EMA is truthy, then lies within 0.005 of (price - EMA) / EMA * 100, and a price above a positive EMA gives a non-negative distance |
| Indicators.RecentEmaCrossNeedsAlignedLengths | services/technicalAnalysis.js:160-170 | the recent EMA-9/21 scan indexes both series by the EMA-9 length, so with an EMA-21 series three or more shorter it never fires |
| Indicators.RecentEmaCross | services/technicalAnalysis.js:160-170 | the recent 9/21 cross holds exactly when one of the three steps before the last EMA-9 index has the 9 at or under the 21 and then above it |
| Indicators.PriceAbove | services/technicalAnalysis.js:180-184 | the price is above an EMA exactly when the series is non-empty and its last value is below the price (an undefined EMA compares false) |
| Indicators.EmaAbove | services/technicalAnalysis.js:192-195 | one EMA is above another exactly when both series are non-empty and the last fast value exceeds the last slow value |
| Indicators.EmaCrossUp | services/technicalAnalysis.js:157 | a bullish 9/21 cross exactly when both series have two values, the previous fast is at or under the previous slow, and the last fast is above the last slow |
| Indicators.EmaCrossDown | services/technicalAnalysis.js:158 | a bearish 9/21 cross exactly when both series have two values, the previous fast is at or over the previous slow, and the last fast is under the last slow |
| Indicators.CalculateEmas | services/technicalAnalysis.js:141-210 | the EMA values are the last of each series (none for an empty 200-EMA series); every above-EMA and alignment flag and both 9/21 crosses as if-and-only-if conditions on the last one or two values; the recent cross holds exactly when one of the three scanned steps crosses up; each distance is the shown percentage from the last close |
| Indicators.CalculateAdx | services/technicalAnalysis.js:215-234 | ADX, +DI and -DI are the last point's (zeros without data); trending exactly when the last ADX is over 25, strong exactly when it is over 40, bullish exactly when +DI is over -DI; the strength label agrees with the flags |
| Indicators.Average20 | services/technicalAnalysis.js:240-241 | the average is defined exactly on a non-empty series, equals the mean of the last twenty volumes, is non-negative, and is zero only with a zero last volume |
| Indicators.RatioToAverage | services/technicalAnalysis.js:245 | `current / average` is defined exactly for a positive average, and then it is the non-negative quotient |
| Indicators.ExactVolumeRatio | services/technicalAnalysis.js:242-245 | the volume ratio is the last volume over a positive average, and it is missing (NaN) only for an empty series or a zero last volume |
| Indicators.AnalyzeVolume | services/technicalAnalysis.js:239-257 | the above-average, high and very-high flags are exactly ratio > 1.2, 1.5, 2.0, so they are nested; the signal agrees with them |
| Indicators.PercentWithinBands | services/technicalAnalysis.js:277 | a price inside the bands has a %B between 0 and 100 |
| Indicators.PercentShown | services/technicalAnalysis.js:276-279 | a shown percentage exists exactly for a non-zero whole and then lies within 0.005 of part / whole * 100 |
| Indicators.CalculateBands | services/technicalAnalysis.js:262-281 | the bands are the last point's (none without data); near-lower and near-upper exactly when the close is within 2% of the band; bandwidth and %B are the shown percentages of the last point; a price inside non-degenerate bands gets a %B in 0..100 |
| Indicators.CalculateAtr | services/technicalAnalysis.js:286-303 | with an ATR value, the stop is the close minus twice the ATR, the target the close plus three times it, and the percent is the shown ATR-to-close percentage; without one, neither stop nor target exists; a positive ATR brackets the price |
| Candles.RangeIsWicksPlusBody | services/technicalAnalysis.js:315-319 | a bar's range is its upper wick plus its body plus its lower wick |
| Candles.EveryNameTested | services/technicalAnalysis.js:321-355 | the detector tests each of the six shapes |
| Candles.Select | services/technicalAnalysis.js:321-355 | a shape is reported with its catalogue entry exactly when it is tested and holds |
| Candles.Catalog | services/technicalAnalysis.js:326-355 | every pattern is bullish except the Doji; the strong bullish ones are the Engulfing, the Morning Star and the Marubozu |
| Candles.SelectOrdered | services/technicalAnalysis.js:321-355 | names tested in detection order are reported in that order |
| Candles.ReportedPatterns | services/technicalAnalysis.js:321-355 | the shapes that hold, each later in the detection order than the one before |
| Candles.DetectCandlePatterns | services/technicalAnalysis.js:308-370 | a name is reported exactly when its shape holds on the last three bars, in the order the detector pushes them; the bullish and strong-bullish flags as if-and-only-if conditions over the reported names |
| Candles.ShapesExclusive | services/technicalAnalysis.js:330-355 | Hammer, Inverted Hammer and Marubozu exclude each other on one bar, and so do Doji and Marubozu |
| Candles.EmittedExclusive | services/technicalAnalysis.js:330-355 | a report that names exactly the shapes that hold never pairs two exclusive single-bar shapes |
| Candles.SingleBarPatternsExclusive | services/technicalAnalysis.js:330-355 | the detector never reports two of Hammer, Inverted Hammer and Marubozu together |
| Sorting.Insert | services/technicalAnalysis.js:428 | inserting into a descending sequence keeps it descending and adds exactly one element |
| Sorting.SortDesc | services/scoringEngine.js:574 | the result is descending by key and a permutation of the input |
| Sorting.SortKeepsSorted | services/scoringEngine.js:574 | an input already in order comes back unchanged, ties included |
| Sorting.SortAsc | services/technicalAnalysis.js:432 | `sort((a, b) => a - b)` is ascending and a permutation |
| Sorting.SortNumbersDesc | services/technicalAnalysis.js:428 | `sort((a, b) => b - a)` is descending and a permutation |
| Sorting.HeadOfSortIsMax | services/technicalAnalysis.js:428-429 | the head of a descending sort is the largest element |
| Swings.PivotsFromSound | services/technicalAnalysis.js:416-425 | every point the scan keeps is a swing point at its own position and price |
| Swings.PivotsFromComplete | services/technicalAnalysis.js:416-425 | the scan keeps every swing point |
| Swings.PivotsFromOrdered | services/technicalAnalysis.js:579-585 | the kept points are in increasing position |
| Swings.PivotsSpec | services/technicalAnalysis.js:579-585 | the full scan keeps exactly the swing points, in order, each at its own price |
| Swings.PivotPrices | services/technicalAnalysis.js:416-425 | a price is a swing price exactly when some swing position holds it |
| Swings.StrictPivotsSpaced | services/technicalAnalysis.js:579-585 | two consecutive strict swing highs (or lows) are at least three bars apart |
| Levels.Below | services/technicalAnalysis.js:428 | the filter keeps exactly the members below the price, each as many times as it occurs |
| Levels.Above | services/technicalAnalysis.js:432 | the filter keeps exactly the members above the price, each as many times as it occurs |
| Levels.SupportLevels | services/technicalAnalysis.js:428 | the support levels are a permutation of the swing lows below the price, highest first |
| Levels.ResistanceLevels | services/technicalAnalysis.js:432 | the resistance levels are a permutation of the swing highs above the price, lowest first |
| Levels.NearestSupport | services/technicalAnalysis.js:429 | the highest swing low strictly between 0 and the price, else the last low, because a zero level is falsy |
| Levels.NearestResistance | services/technicalAnalysis.js:433 | the lowest swing high above the price, else the last high |
| Levels.SwingLowsNonNegative | services/technicalAnalysis.js:421-423 | swing lows are lows of the series, so they are never negative |
| Levels.NearSupport | services/technicalAnalysis.js:436 | near support means less than 2% of the price above the support |
| Levels.PercentOfPrice | services/technicalAnalysis.js:444-445 | the shown distance lies within 0.005 of a / price * 100 and is non-negative for a non-negative distance |
| Levels.PercentOfPriceValue | services/technicalAnalysis.js:444-445 | the shown distance lies within 0.005 of the exact percentage |
| Levels.NearestSupports | services/technicalAnalysis.js:441 | the listed supports are the first three support levels: at most three, highest first, swing lows below the price |
| Levels.NearestResistances | services/technicalAnalysis.js:442 | the listed resistances are the first three resistance levels: at most three, lowest first, swing highs above the price |
| Levels.Assemble | services/technicalAnalysis.js:428-445 | given the swing lows and highs, the same facts as for the series: the nearest levels, the ordering, the first three levels each side, near support within 2%, non-negative distances |
| Levels.SupportSide | services/technicalAnalysis.js:428-444 | the nearest support is the one `NearestSupport` picks, and its distance is that gap as a two-decimal percent of the price |
| Levels.ResistanceSide | services/technicalAnalysis.js:432-445 | the nearest resistance is the one `NearestResistance` picks, and its distance is that gap as a two-decimal percent of the price |
| Levels.FindSupportResistance | services/technicalAnalysis.js:405-447 | support at or below the close at or below resistance; which swing level (or last bar) each nearest level is; the listed levels are the first three support and resistance levels, so sorted and drawn from the swing points on the right side of the price; non-negative distances; the result is the assembly of the series' swing lows and highs around the last bar |
| TrendAnalysis.PercentChange | services/technicalAnalysis.js:379 | the sign of the change follows the prices, and the 5% and 10% thresholds compare the move with the start |
| TrendAnalysis.AnalyzeTrend | services/technicalAnalysis.js:375-400 | up and down as if-and-only-if conditions on the EMA flags and the 20-session change; sideways is neither; an uptrend implies EMA alignment |
| TrendAnalysis.NoUptrendWithoutEma200 | services/technicalAnalysis.js:388-389 | with no 200 EMA (a short series) no uptrend is ever reported |
| Poles.PoleCandidates | services/technicalAnalysis.js:513-518 | the candidates are exactly the poles of the double loop, in the loop's order |
| Poles.BestPole | services/technicalAnalysis.js:515-523 | the search keeps the first pole with the largest move above 10%, or none when no move exceeds 10% |
| Poles.FlagPole | services/technicalAnalysis.js:513-527 | the pole found is a candidate rising over 10%, no candidate rises more, and every earlier candidate rises strictly less; none exactly when no candidate rises over 10% |
| Poles.CandidatesIndexed | services/technicalAnalysis.js:517-518 | every candidate pole is visited by the loop |
| SwingPatterns.RangePercent | services/technicalAnalysis.js:535 | the range percentage is under 5, 6 or 8 exactly when the range is under that share of the low |
| SwingPatterns.FlagAfterPole | services/technicalAnalysis.js:529-560 | a flag is reported exactly when the closes since the pole stay within 8% and either volume dries up or they stay within 5%; it is bullish, strong and never a breakout |
| SwingPatterns.DetectFlag | services/technicalAnalysis.js:505-561 | fewer than twenty bars or no pole means no flag; with a pole the verdict is the one after the pole; never a breakout |
| SwingPatterns.FlatHighsTest | services/technicalAnalysis.js:595 | the flat-highs test holds exactly when the last swing high is within 2% of the first |
| SwingPatterns.TriangleHigh | services/technicalAnalysis.js:599 | the triangle high is the largest swing-high price |
| SwingPatterns.TriangleOf | services/technicalAnalysis.js:588-628 | a triangle exactly when highs are flat and lows rise, or highs fall and lows do not; ascending takes precedence; a breakout exactly when there is a volume spike and the price is above every swing high |
| SwingPatterns.TriangleFrom | services/technicalAnalysis.js:576-628 | the same verdict stated on the swing points of the window; a breakout exactly when the last volume exceeds 1.5 times the mean of the earlier ones and the close is above every swing high |
| SwingPatterns.DetectTriangle | services/technicalAnalysis.js:566-629 | fewer than fifteen bars means no triangle; otherwise the verdict on the last twenty bars |
| SwingPatterns.Similar | services/technicalAnalysis.js:659-663 | two prices are similar when their difference is under 3% of the first, which must be positive |
| SwingPatterns.HighestBetween | services/technicalAnalysis.js:664 | the neckline high is attained in the slice and bounds it |
| SwingPatterns.LowestBetween | services/technicalAnalysis.js:689 | the neckline low is attained in the slice and bounds it |
| SwingPatterns.LastTwoPivots | services/technicalAnalysis.js:658-660 | the last two swing points lie in the window, in order, at their own prices |
| SwingPatterns.DoubleBottomAt | services/technicalAnalysis.js:663-679 | a double bottom exactly when the two lows are similar and at least five bars apart; the neckline is the highest high between them, a breakout is a close above it, and the target lies as far above the neckline as the first low lies below it |
| SwingPatterns.DoubleBottomFrom | services/technicalAnalysis.js:657-680 | the same verdict on the last two window swing lows, with the neckline the highest high between them |
| SwingPatterns.DoubleTopAt | services/technicalAnalysis.js:688-701 | a double top exactly when the two highs are similar and at least five bars apart; bearish, and flagged as a breakout exactly when the price closes below every low between the tops (the neckline) |
| SwingPatterns.DoubleTopFrom | services/technicalAnalysis.js:683-702 | the same verdict on the last two window swing highs, with the neckline the lowest low between them |
| SwingPatterns.DoubleFrom | services/technicalAnalysis.js:655-704 | a double bottom takes precedence over a double top |
| SwingPatterns.DetectDouble | services/technicalAnalysis.js:634-705 | fewer than thirty bars means none; otherwise the verdict on the last forty bars |
| SwingPatterns.ConsolidationOf | services/technicalAnalysis.js:733-756 | a range is reported exactly when it is under 8% and either breaks out on 1.5 times the volume or is under 6% |
| SwingPatterns.RangeOrdered | services/technicalAnalysis.js:728-729 | the range low never exceeds the range high |
| SwingPatterns.ConsolidationAtSpec | services/technicalAnalysis.js:720-756 | a pass needs `period + 5` bars and judges the range of the `period` bars before the last |
| SwingPatterns.ScanConsolidation | services/technicalAnalysis.js:720-758 | the first period whose pass reports wins; none exactly when no pass reports |
| SwingPatterns.DetectConsolidation | services/technicalAnalysis.js:710-759 | fewer than fifteen bars means none; otherwise the scan from period 10 |
| SwingPatterns.Collect | services/technicalAnalysis.js:466-499 | the report lists exactly the detectors that fired; the bullish and breakout flags as if-and-only-if conditions over it; a breakout never comes from the flag |
| SwingPatterns.CollectOrder | services/technicalAnalysis.js:466-487 | the reports come in the push order flag, triangle, double, consolidation: each firing detector's report sits after those of the earlier detectors that fired |
| SwingPatterns.DetectSwingPatterns | services/technicalAnalysis.js:453-500 | at most four patterns, exactly those of the four detectors, with flags as if-and-only-if conditions over them |
| Confluence.SumPointsAppend | services/technicalAnalysis.js:801-884 | the points of two lists of check lines add up, so a category's score is the sum over its lines |
| Confluence.TrendCategory | services/technicalAnalysis.js:801-822 | one point per EMA cleared; passes exactly above both; a line above or below each EMA and an uptrend line exactly on an uptrend; the score is the sum of its lines' points |
| Confluence.VolumeCategory | services/technicalAnalysis.js:824-836 | 2 points and the high-volume line exactly from 1.5, 1 point and the moderate line exactly in [1.2, 1.5), 0 and the low line otherwise; passes exactly from 1.2; it is given the two-decimal ratio, while the volume flags use the exact one |
| Confluence.MomentumCategory | services/technicalAnalysis.js:838-862 | an RSI line (favourable in 40..70, oversold below 40, overbought above 70) and a histogram line (positive, improving, negative), each as an if-and-only-if; the score is the two lines' points (1/0.5/0 each); passes exactly on enough of them |
| Confluence.PatternCategory | services/technicalAnalysis.js:863-884 | the distance line (near resistance under 1%, room over 5%, moderate between) as if-and-only-if conditions; 1 point for the first two and 0.5 for the third, plus 1 and the support line exactly near support; passes exactly from 1 |
| Confluence.SummaryFor | services/technicalAnalysis.js:893-901 | the summary line as if-and-only-if conditions on the passed count |
| Confluence.CalculateConfluence | services/technicalAnalysis.js:765-903 | fails exactly when the RSI is missing; the passed count is the sum of the four categories' passed checks; valid exactly when that count is at least three; the summary agrees with the count |
| Confluence.TrendVolumeAndSupportSuffice | services/technicalAnalysis.js:801-891 | above both EMAs, at least 1.2 times the volume and near support make a valid setup |
| Confluence.BelowEma20NeedsAllOthers | services/technicalAnalysis.js:801-891 | below the 20 EMA the trend category fails, so a valid setup needs the other three |
| Factors.TrendScore | services/scoringEngine.js:137-163 | half a point for each of: price above the 50 EMA, 50 EMA above the 200, a confirmed uptrend; each reason is listed exactly when its condition holds, and the first listed is the first condition that holds; full marks exactly with all three, zero with none, passing with two |
| Factors.RsiScore | services/scoringEngine.js:168-196 | one point in the swing zone or when recovering, half in 35..65 or when oversold, zero when overbought; each tier's reason (momentum room with the RSI, recovering, acceptable with the RSI, overbought, oversold) as an if-and-only-if on the first flag that holds; passing exactly from half a point up |
| Factors.MacdScore | services/scoringEngine.js:201-225 | one point on a fresh cross, else 0.8 on a recent one, else 0.7 for a bullish MACD with a rising histogram, else 0.5 for a bullish one, else zero, each tier as an if-and-only-if; each non-zero tier gives exactly its own reason, zero gives none; passing exactly with a cross or a bullish MACD |
| Factors.VolumeScore | services/scoringEngine.js:230-255 | 1.5 on very high volume, else 1.2 on high, else 0.8 above average, else 0.3, each tier and its reason (very high, strong, above normal with the ratio, below average) as an if-and-only-if; passing exactly from 0.8; the value is the volume ratio |
| Factors.VolumePassesAboveAverage | services/scoringEngine.js:230-255 | on real volume readings the factor passes exactly when volume is above average |
| Factors.VolumeScoreMonotone | services/scoringEngine.js:230-255 | a higher volume ratio never scores lower |
| Factors.NamesWhere | services/scoringEngine.js:266-271 | the listed names are exactly those of the matches kept |
| Factors.PatternScore | services/scoringEngine.js:260-284 | 1 for a strong bullish pattern (naming the strong ones), else 0.6 for a bullish one (naming the bullish ones), else 0.3 for a bullish current candle, else zero with no reason, each tier as an if-and-only-if; passing exactly with a bullish pattern |
| Factors.SupportScore | services/scoringEngine.js:289-319 | 0.5 for a price within 1% above the 20 EMA, plus 0.3 within 2% above the 50 EMA, plus 0.2 near support; each reason is listed exactly when its condition holds; passing near the 20 EMA or near both the 50 EMA and support |
| Factors.AdxScore | services/scoringEngine.js:324-349 | one point for a strong bullish trend, else 0.7 for a bullish trend, else 0.4 for a bearish trend, else zero with the ranging reason, each tier as an if-and-only-if; passing exactly in a bullish trend; the value is the ADX |
| Factors.AdxPassesOnBullishTrend | services/scoringEngine.js:324-349 | on real ADX readings the factor passes exactly when the last ADX exceeds 25 and +DI exceeds -DI |
| Factors.SectorScore | services/scoringEngine.js:74-77 | the sector factor is zero and never passes |
| Factors.Position | services/scoringEngine.js:362-363 | the 52-week position is defined exactly for a non-empty range |
| Factors.Week52Score | services/scoringEngine.js:354-383 | no 52-week data scores zero with the unavailable reason; 0.5 in the middle 20..80% with the position reason, 0.3 exactly with the near-low reason, 0 with data exactly with the near-high reason; the value is the position |
| Factors.Stop | services/scoringEngine.js:393-396 | the stop is the higher of two ATRs below the price and 1% under support |
| Factors.Target | services/scoringEngine.js:398-401 | the target is the lower of three ATRs above the price and 1% under resistance |
| Factors.RewardRatio | services/scoringEngine.js:405 | the ratio is defined exactly for a non-zero risk, and then lies within 0.005 of reward / risk |
| Factors.RiskRewardScore | services/scoringEngine.js:388-428 | the grade thresholds 3, 2 and 1.5 on reward over risk; a zero risk scores 1 exactly on a positive reward and 0 otherwise; a missing ATR scores zero; the excellent, good, acceptable and poor reasons exactly for 1, 0.7, 0.4 and 0; passes exactly from 0.5 |
| Factors.RiskPositive | services/scoringEngine.js:393-403 | a positive ATR and a support at or below the price make the risk positive |
| Factors.ScoredFactors | services/scoringEngine.js:27-90 | the nine factors that enter the total, sector excluded |
| Factors.TotalBounds | services/scoringEngine.js:27-90 | with every factor within bounds the total is between 0.3 and 9.5 |
| Setup.SetupWithAtr | services/scoringEngine.js:433-467 | with an ATR: the entry, stop, near target and far target are the two-decimal roundings of the price, the stop (the higher of price minus twice the ATR and 99% of support), price plus twice the ATR, and the far target (the lower of price plus three times the ATR and 99% of resistance); the risk and reward percents lie within 0.005 of the exact ones; the ratio is reward over risk of the exact stop and far target, missing for zero risk; a positive ATR and support below the price order stop, entry and near target |
| Setup.CalculateTradeSetup | services/scoringEngine.js:433-467 | without an ATR every derived figure is NaN; with one, the same figures as the setup with an ATR, and the risk/reward ratio is the one the risk/reward factor grades |
| Setup.RatioFromExactFigures | services/scoringEngine.js:433-466 | with an ATR, the ratio is within 0.005 of reward / risk computed from the exact stop and far target, and the shown entry, stop and far target lie within 0.005 of the exact ones |
| Setup.ShownFiguresLoseSmallRisk | services/scoringEngine.js:433-466 | a price of 100.004 with an ATR of 0.004 shows entry and stop both as 100, yet the ratio shown is 1.5: the ratio is not recomputed from the shown figures |
| Signals.GetSignal | services/scoringEngine.js:524-554 | strong buy from 8, buy from 7, watchlist from 5, avoid below, each with its confidence |
| Signals.SignalMonotone | services/scoringEngine.js:524-554 | a higher total never gets a worse signal |
| Signals.SignalIgnoresRounding | services/scoringEngine.js:95-101 | the signal uses the unrounded total: 7.96 is a buy although it is shown as 8.0 |
| Signals.Positives | services/scoringEngine.js:478-491 | the positives are exactly the first reasons of the passed factors; a single factor gives its own reason or nothing |
| Signals.Issues | services/scoringEngine.js:478-491 | the issues are exactly the first reasons of factors failing with zero; a single factor gives its own reason or nothing |
| Signals.PositivesAppend | services/scoringEngine.js:478-491 | the positives of two lists joined are those of the first followed by those of the second, so the factor order is kept |
| Signals.IssuesAppend | services/scoringEngine.js:478-491 | the issues of two lists joined are those of the first followed by those of the second, so the factor order is kept |
| Signals.NoPositivesNone | services/scoringEngine.js:478-491 | no passed factor means no positive |
| Signals.NoIssuesNone | services/scoringEngine.js:478-491 | no factor failing with zero means no issue |
| Signals.FirstPositiveIsEarliest | services/scoringEngine.js:478-491 | the first positive is the reason of the earliest passed factor |
| Signals.FirstIssueIsEarliest | services/scoringEngine.js:478-491 | the first issue is the reason of the earliest factor failing with zero |
| Signals.GenerateSignalReasons | services/scoringEngine.js:473-519 | at most four items: positives for a buy, two of each for the watchlist, issues for avoid, each drawn from the right factors |
| Signals.BuyLeadsWithEarliestPositive | services/scoringEngine.js:478-501 | a buy's first reason is that of the earliest passed factor in the order trend, RSI, MACD, volume, pattern, support, ADX, 52-week, risk/reward |
| Signals.AvoidLeadsWithEarliestIssue | services/scoringEngine.js:478-516 | an avoid's first reason is that of the earliest factor failing with zero, in the same order |
| Signals.SectorNeverContributes | services/scoringEngine.js:478 | the sector factor is not in the list read, so replacing it never changes the reasons shown |
| Analysis.CalculateIndicators | services/technicalAnalysis.js:21-70 | fails exactly below 26 bars or with no RSI; the price is the last close; support and resistance bracket the price; the confluence is computed from the same readings |
| Analysis.ReadingsFromLibrary | services/technicalAnalysis.js:31-37 | the RSI, MACD, EMA, ADX, Bollinger and ATR readings are those operations applied to the library series and the closes |
| Analysis.ReadingsFromCandles | services/technicalAnalysis.js:35-43 | the volume, candle, trend, support/resistance and swing-pattern readings are those operations applied to the candles |
| Scoring.BreakdownOf | services/scoringEngine.js:27-90 | every factor within its bound, with the maxima the source declares |
| Scoring.RoundedScoreBounds | services/scoringEngine.js:101 | rounding keeps the score in 0.3..9.5 |
| Scoring.PriceChange | services/scoringEngine.js:121 | the displayed change is within half a hundredth of the exact percentage |
| Scoring.ScoreIndicators | services/scoringEngine.js:27-121 | the breakdown is the ten factors graded on the readings; the score is its total rounded to a whole number of tenths; the signal comes from the unrounded total; the setup is the one placed from the price, ATR and nearest levels, and its ratio agrees with the factor's |
| Scoring.CalculateScore | services/scoringEngine.js:15-132 | insufficient data exactly below 26 candles; an error exactly when the RSI series is empty; otherwise the breakdown is the factors graded on the candles' readings, each within its bounds, the reasons are those chosen from it, and the score is its total rounded to tenths, in 0.3..9.5 |
| Scoring.DisplayName | services/scoringEngine.js:567 | the data's name unless it is missing or empty, the symbol then |
| Scoring.Evaluate | services/scoringEngine.js:564-569 | an entry carries the stock's symbol, its displayed name and the score of its data |
| Scoring.EvaluateAll | services/scoringEngine.js:562-571 | exactly the stocks with candles are scored |
| Scoring.ScreenStocks | services/scoringEngine.js:559-575 | the ranking is a permutation of the scored stocks, highest score first |

## Left out

- The indicator formulas (RSI, MACD, EMA, ADX, Bollinger Bands, ATR) belong to an external library. The model takes their output series as input and models everything derived from them.
- Display text, emoji and descriptions are left out: signal texts, check lines, reason strings and pattern descriptions. Reasons and checks are tags carrying the numbers they would show.
- The indicator summary object that `calculateScore` attaches to its result is left out. It copies readings already in the model.
- The `marketHealth` parameter of `calculateScore` and `screenStocks` is unused by the code shown.
- `screenStocks` is `async`. It is modelled as a synchronous function.
- The `history` slices of the readings (the last twenty RSI and MACD values, the last fifty of each EMA) are left out. Nothing in the core reads them.
- The `higherHighs` loop of `analyzeTrend` is left out. It counts into a variable that nothing reads.
- `currentCandle.bodyPercent` of the candle report (services/technicalAnalysis.js:367) is left out. It is a two-decimal display string that nothing in the core reads.
- `positionSizeNote` of the trade setup is left out. It is text repeating `riskPercent` to one decimal.
- Floating-point arithmetic is not bit-exact. Reals stand for JavaScript numbers, and `toFixed` rounds halves away from zero on the real value.
- The candles are assumed to meet the data contract `Bars.WellFormedBar` (low, close and high ordered and non-negative, a positive close, non-negative volume; the open is unconstrained). Inputs that break it, where the source would compute NaN, are not modelled.
- Indicators.PercentShown: a zero whole (flat bands, or no bands at all) makes JavaScript show "Infinity" or "NaN". The model gives `None` for it.
- Indicators.DistancePercent: a zero EMA makes JavaScript show "Infinity". The model gives `None` (not shown) for it as for a missing EMA. The support factor fails it either way.
- Factors.Week52Score: the position in its reason tag is the unrounded percentage. The source shows it with `toFixed(0)`, and that display rounding is left out like the rest of the reason text.
- Factors.Week52Score: its contract says nothing when the 52-week high is below the low. The function follows the source, but no property is stated for that case.
- Sorting.SortDesc: stability is not stated as a contract. Only order, permutation and `Sorting.SortKeepsSorted` are proved.

=== FILE: analysis.dfy ===
/** `calculateIndicators` of services/technicalAnalysis.js: every reading,
    detector and the confluence checklist computed for one series. */
module Analysis {
  import opened Common
  import opened Bars
  import opened Indicators
  import opened Candles
  import opened TrendAnalysis
  import L = Levels
  import opened SwingPatterns
  import opened Confluence

  datatype IndicatorSet = IndicatorSet(
    rsi: RsiReading,
    macd: MacdReading,
    emas: EmaReading,
    adx: AdxReading,
    volumeAnalysis: VolumeAnalysis,
    bollingerBands: BandReading,
    atr: AtrReading,
    candlePatterns: CandleReport,
    trendAnalysis: TrendReading,
    supportResistance: L.Levels,
    swingPatterns: SwingReport,
    currentPrice: real,
    previousClose: real,
    confluence: ConfluenceReport)

  /** The series needs 26 sessions; below that the source throws. The only
      other failure is the confluence checklist's formatting of a missing
      RSI, which happens exactly when the library's RSI series is empty. */
  function CalculateIndicators(bars: seq<Bar>, lib: LibrarySeries): (r: Option<IndicatorSet>)
    requires WellFormed(bars)
    ensures r.None? <==> |bars| < 26 || |lib.rsi| == 0
    ensures r.Some? ==>
      && r.value.currentPrice == bars[|bars| - 1].close && r.value.currentPrice > 0.0
      && r.value.previousClose == bars[|bars| - 2].close && r.value.previousClose > 0.0
      && r.value.rsi.current == Some(lib.rsi[|lib.rsi| - 1])
      && 0.0 <= r.value.supportResistance.nearestSupport <= r.value.currentPrice <= r.value.supportResistance.nearestResistance
      && (r.value.atr.value.Some? <==> |lib.atr| > 0)
      && NestedFlags(r.value.volumeAnalysis)
      && (r.value.trendAnalysis.isUptrend ==> r.value.emas.ema50Above200)
      && |r.value.swingPatterns.patterns| <= 4
      && |r.value.candlePatterns.patterns| <= 6
    ensures r.Some? ==>
      r.value.confluence == CalculateConfluence(
        r.value.rsi, r.value.macd, r.value.emas, r.value.volumeAnalysis,
        r.value.trendAnalysis, r.value.supportResistance).value
  {
    if |bars| < 26 then None
    else
      var closes := Closes(bars);
      ClosesPositive(bars);
      VolumesNonNegative(bars);
      assert WellFormedBar(bars[|bars| - 1]) && WellFormedBar(bars[|bars| - 2]);
      var rsi := CalculateRsi(lib.rsi);
      var emas := CalculateEmas(closes, lib);
      var volume := AnalyzeVolume(Volumes(bars));
      var trend := AnalyzeTrend(closes, emas);
      var levels := L.FindSupportResistance(bars);
      var macd := CalculateMacd(lib.macd);
      var confluence := CalculateConfluence(rsi, macd, emas, volume, trend, levels);
      if confluence.None? then None
      else
        Some(IndicatorSet(
          rsi,
          macd,
          emas,
          CalculateAdx(lib.adx),
          volume,
          CalculateBands(closes, lib.bands),
          CalculateAtr(closes, lib.atr),
          DetectCandlePatterns(bars),
          trend,
          levels,
          DetectSwingPatterns(bars),
          closes[|closes| - 1],
          closes[|closes| - 2],
          confluence.value))
  }

  /** The readings taken from the indicator library are the ones their
      own operations compute from its series. */
  lemma ReadingsFromLibrary(bars: seq<Bar>, lib: LibrarySeries)
    requires WellFormed(bars) && CalculateIndicators(bars, lib).Some?
    ensures var r := CalculateIndicators(bars, lib).value;
      && r.rsi == CalculateRsi(lib.rsi)
      && r.macd == CalculateMacd(lib.macd)
      && r.emas == CalculateEmas(Closes(bars), lib)
      && r.adx == CalculateAdx(lib.adx)
      && r.bollingerBands == CalculateBands(Closes(bars), lib.bands)
      && r.atr == CalculateAtr(Closes(bars), lib.atr)
  {
  }

  /** The readings taken from the candles are the ones their own
      operations compute from them. */
  lemma ReadingsFromCandles(bars: seq<Bar>, lib: LibrarySeries)
    requires WellFormed(bars) && CalculateIndicators(bars, lib).Some?
    ensures var r := CalculateIndicators(bars, lib).value;
      && r.volumeAnalysis == AnalyzeVolume(Volumes(bars))
      && r.candlePatterns == DetectCandlePatterns(bars)
      && r.trendAnalysis == AnalyzeTrend(Closes(bars), r.emas)
      && r.supportResistance == L.FindSupportResistance(bars)
      && r.swingPatterns == DetectSwingPatterns(bars)
  {
  }
}

=== FILE: bars.dfy ===
/** The daily OHLCV series one instrument is scored on, and the raw
    indicator series the external indicator library computes from it. */
module Bars {
  import opened Common

  /** One trading session. The date is left out: the series arrives in
      chronological order and nothing in the pipeline reads the date. */
  datatype Bar = Bar(open: real, high: real, low: real, close: real, volume: real)

  /** The data contract of a session: prices are non-negative with the low
      and high bracketing the close, the close is positive (several ratios
      divide by it) and the volume is non-negative. */
  predicate WellFormedBar(b: Bar) {
    0.0 <= b.low <= b.close <= b.high && b.close > 0.0 && b.volume >= 0.0
  }

  predicate WellFormed(bars: seq<Bar>) {
    forall i :: 0 <= i < |bars| ==> WellFormedBar(bars[i])
  }

  /** Every window of a well-formed series is well formed. */
  lemma WellFormedSlice(bars: seq<Bar>, lo: nat, hi: nat)
    requires WellFormed(bars) && lo <= hi <= |bars|
    ensures WellFormed(bars[lo..hi])
  {
    forall i | 0 <= i < hi - lo ensures WellFormedBar(bars[lo..hi][i]) {
      assert bars[lo..hi][i] == bars[lo + i];
    }
  }

  lemma ClosesPositive(bars: seq<Bar>)
    requires WellFormed(bars)
    ensures forall i :: 0 <= i < |Closes(bars)| ==> Closes(bars)[i] > 0.0
  {
    forall i | 0 <= i < |bars| ensures Closes(bars)[i] > 0.0 {
      assert WellFormedBar(bars[i]);
    }
  }

  lemma VolumesNonNegative(bars: seq<Bar>)
    requires WellFormed(bars)
    ensures forall i :: 0 <= i < |Volumes(bars)| ==> Volumes(bars)[i] >= 0.0
  {
    forall i | 0 <= i < |bars| ensures Volumes(bars)[i] >= 0.0 {
      assert WellFormedBar(bars[i]);
    }
  }

  function Closes(bars: seq<Bar>): (r: seq<real>)
    ensures |r| == |bars|
    ensures forall i :: 0 <= i < |bars| ==> r[i] == bars[i].close
  {
    seq(|bars|, i requires 0 <= i < |bars| => bars[i].close)
  }

  function Highs(bars: seq<Bar>): (r: seq<real>)
    ensures |r| == |bars|
    ensures forall i :: 0 <= i < |bars| ==> r[i] == bars[i].high
  {
    seq(|bars|, i requires 0 <= i < |bars| => bars[i].high)
  }

  function Lows(bars: seq<Bar>): (r: seq<real>)
    ensures |r| == |bars|
    ensures forall i :: 0 <= i < |bars| ==> r[i] == bars[i].low
  {
    seq(|bars|, i requires 0 <= i < |bars| => bars[i].low)
  }

  function Volumes(bars: seq<Bar>): (r: seq<real>)
    ensures |r| == |bars|
    ensures forall i :: 0 <= i < |bars| ==> r[i] == bars[i].volume
  {
    seq(|bars|, i requires 0 <= i < |bars| => bars[i].volume)
  }

  /** One element of the library's MACD(12, 26, 9) output; the signal and
      histogram are undefined on the first elements. */
  datatype MacdPoint = MacdPoint(macd: Option<real>, signal: Option<real>, histogram: Option<real>)

  /** One element of the library's ADX(14) output. */
  datatype AdxPoint = AdxPoint(adx: real, pdi: real, mdi: real)

  /** One element of the library's Bollinger Bands(20, 2) output. */
  datatype BandPoint = BandPoint(upper: real, middle: real, lower: real)

  /** What the external indicator library returns for a series: each
      indicator as its own array, aligned on the last bar and shorter than
      the bar series by the indicator's warm-up period. The formulas are the
      library's and are not modelled; these arrays are inputs. */
  datatype LibrarySeries = LibrarySeries(
    rsi: seq<real>,
    macd: seq<MacdPoint>,
    ema9: seq<real>,
    ema20: seq<real>,
    ema21: seq<real>,
    ema50: seq<real>,
    ema200: seq<real>,
    adx: seq<AdxPoint>,
    bands: seq<BandPoint>,
    atr: seq<real>)
}

=== FILE: candles.dfy ===
/** The candlestick detector of services/technicalAnalysis.js: six
    single- and multi-bar patterns read off the last three sessions. */
module Candles {
  import opened Common
  import opened Bars

  datatype CandleName = BullishEngulfing | Hammer | InvertedHammer | Doji | MorningStar | BullishMarubozu

  datatype CandleMatch = CandleMatch(name: CandleName, bias: Bias, strength: Strength)

  datatype CandleReport = CandleReport(
    patterns: seq<CandleMatch>,
    hasBullishPattern: bool,
    hasStrongBullishPattern: bool,
    currentIsBullish: bool)

  // Geometry of one bar.
  function Body(b: Bar): real { b.close - b.open }
  function BodySize(b: Bar): real { Abs(b.close - b.open) }
  function UpperWick(b: Bar): real { b.high - Max(b.open, b.close) }
  function LowerWick(b: Bar): real { Min(b.open, b.close) - b.low }
  function TotalRange(b: Bar): real { b.high - b.low }

  /** The range of a bar is its upper wick, its body and its lower wick. */
  lemma RangeIsWicksPlusBody(b: Bar)
    ensures TotalRange(b) == UpperWick(b) + BodySize(b) + LowerWick(b)
  {
  }

  /** A bullish bar opening below the previous bearish close and closing above its open. */
  predicate IsBullishEngulfing(prev: Bar, cur: Bar) {
    cur.close > cur.open && prev.close < prev.open && cur.open < prev.close && cur.close > prev.open
  }

  /** A bullish body with a lower wick over twice the body and an upper wick under half of it. */
  predicate IsHammer(cur: Bar) {
    LowerWick(cur) > BodySize(cur) * 2.0 && UpperWick(cur) < BodySize(cur) * 0.5 && Body(cur) > 0.0
  }

  /** The Hammer with the roles of the two wicks swapped. */
  predicate IsInvertedHammer(cur: Bar) {
    UpperWick(cur) > BodySize(cur) * 2.0 && LowerWick(cur) < BodySize(cur) * 0.5 && Body(cur) > 0.0
  }

  /** A body under a tenth of the bar's range. */
  predicate IsDoji(cur: Bar) {
    BodySize(cur) < TotalRange(cur) * 0.1
  }

  /** Bearish bar, small-bodied bar, then a bullish bar closing above the first bar's midpoint. */
  predicate IsMorningStar(first: Bar, middle: Bar, cur: Bar) {
    && first.close < first.open
    && Abs(middle.close - middle.open) < (first.high - first.low) * 0.3
    && cur.close > cur.open
    && cur.close > (first.open + first.close) / 2.0
  }

  /** A bullish body with both wicks under a tenth of it. */
  predicate IsBullishMarubozu(cur: Bar) {
    Body(cur) > 0.0 && UpperWick(cur) < BodySize(cur) * 0.1 && LowerWick(cur) < BodySize(cur) * 0.1
  }

  function Emit(condition: bool, m: CandleMatch): seq<CandleMatch> {
    if condition then [m] else []
  }

  /** Some emitted match carries this name. */
  predicate Emitted(ps: seq<CandleMatch>, name: CandleName) {
    exists m :: m in ps && m.name == name
  }

  /** The match each detector branch emits. */
  function MatchFor(name: CandleName): (m: CandleMatch)
    ensures m.name == name
  {
    match name
    case BullishEngulfing => CandleMatch(BullishEngulfing, Bullish, Strong)
    case Hammer => CandleMatch(Hammer, Bullish, Moderate)
    case InvertedHammer => CandleMatch(InvertedHammer, Bullish, Moderate)
    case Doji => CandleMatch(Doji, Neutral, Weak)
    case MorningStar => CandleMatch(MorningStar, Bullish, Strong)
    case BullishMarubozu => CandleMatch(BullishMarubozu, Bullish, Strong)
  }

  /** Whether the named shape is present on the last three bars. */
  predicate Holds(name: CandleName, threeAgo: Bar, twoAgo: Bar, current: Bar) {
    match name
    case BullishEngulfing => IsBullishEngulfing(twoAgo, current)
    case Hammer => IsHammer(current)
    case InvertedHammer => IsInvertedHammer(current)
    case Doji => IsDoji(current)
    case MorningStar => IsMorningStar(threeAgo, twoAgo, current)
    case BullishMarubozu => IsBullishMarubozu(current)
  }

  /** The order in which the detector tests the shapes. */
  const DetectionOrder: seq<CandleName> :=
    [BullishEngulfing, Hammer, InvertedHammer, Doji, MorningStar, BullishMarubozu]

  /** The detector tests every shape. */
  lemma EveryNameTested()
    ensures forall name :: name in DetectionOrder
  {
    forall name ensures name in DetectionOrder {
      match name
      case BullishEngulfing => assert DetectionOrder[0] == name;
      case Hammer => assert DetectionOrder[1] == name;
      case InvertedHammer => assert DetectionOrder[2] == name;
      case Doji => assert DetectionOrder[3] == name;
      case MorningStar => assert DetectionOrder[4] == name;
      case BullishMarubozu => assert DetectionOrder[5] == name;
    }
  }

  /** The matches of the shapes in `names` that hold, in the order of `names`. */
  function Select(names: seq<CandleName>, threeAgo: Bar, twoAgo: Bar, current: Bar): (ps: seq<CandleMatch>)
    ensures |ps| <= |names|
    ensures forall m :: m in ps ==> m == MatchFor(m.name) && m.name in names && Holds(m.name, threeAgo, twoAgo, current)
    ensures forall n :: n in names && Holds(n, threeAgo, twoAgo, current) ==> MatchFor(n) in ps
  {
    if |names| == 0 then []
    else
      var rest := Select(names[1..], threeAgo, twoAgo, current);
      assert forall n :: n in names ==> n == names[0] || n in names[1..];
      Emit(Holds(names[0], threeAgo, twoAgo, current), MatchFor(names[0])) + rest
  }

  /** Where a name sits in the detection order. */
  function Rank(name: CandleName): nat {
    match name
    case BullishEngulfing => 0
    case Hammer => 1
    case InvertedHammer => 2
    case Doji => 3
    case MorningStar => 4
    case BullishMarubozu => 5
  }

  /** The names stand in detection order, each one later than the one before. */
  predicate InDetectionOrder(names: seq<CandleName>) {
    forall i, j :: 0 <= i < j < |names| ==> Rank(names[i]) < Rank(names[j])
  }

  /** The names of a list of matches. */
  function NamesOf(ps: seq<CandleMatch>): (ns: seq<CandleName>)
    ensures |ns| == |ps| && forall i :: 0 <= i < |ps| ==> ns[i] == ps[i].name
  {
    if |ps| == 0 then [] else [ps[0].name] + NamesOf(ps[1..])
  }

  /** A name ranked before every name of an ordered list can go in front of it. */
  lemma PrependOrdered(first: CandleName, ns: seq<CandleName>)
    requires InDetectionOrder(ns)
    requires forall k :: 0 <= k < |ns| ==> Rank(first) < Rank(ns[k])
    ensures InDetectionOrder([first] + ns)
  {
    var all := [first] + ns;
    forall i, j | 0 <= i < j < |all| ensures Rank(all[i]) < Rank(all[j]) {
      assert all[j] == ns[j - 1];
      if i > 0 {
        assert all[i] == ns[i - 1];
      }
    }
  }

  /** Names listed in detection order come out of `Select` in that order. */
  lemma {:induction false} SelectOrdered(names: seq<CandleName>, threeAgo: Bar, twoAgo: Bar, current: Bar)
    requires InDetectionOrder(names)
    ensures InDetectionOrder(NamesOf(Select(names, threeAgo, twoAgo, current)))
  {
    if |names| > 0 {
      var ps := Select(names, threeAgo, twoAgo, current);
      var rest := Select(names[1..], threeAgo, twoAgo, current);
      SelectOrdered(names[1..], threeAgo, twoAgo, current);
      var restNames := NamesOf(rest);
      forall k | 0 <= k < |restNames| ensures Rank(names[0]) < Rank(restNames[k]) {
        assert rest[k] in rest;
        var h :| 0 <= h < |names[1..]| && names[1..][h] == rest[k].name;
        assert names[h + 1] == restNames[k];
      }
      if Holds(names[0], threeAgo, twoAgo, current) {
        assert ps == [MatchFor(names[0])] + rest;
        assert NamesOf(ps) == [names[0]] + restNames by {
          assert ps[1..] == rest;
        }
        PrependOrdered(names[0], restNames);
      } else {
        assert ps == rest;
      }
    }
  }

  /** A name is emitted exactly when it is tested and its shape holds. */
  lemma SelectEmitted(names: seq<CandleName>, threeAgo: Bar, twoAgo: Bar, current: Bar)
    ensures var ps := Select(names, threeAgo, twoAgo, current);
      forall n :: Emitted(ps, n) <==> n in names && Holds(n, threeAgo, twoAgo, current)
  {
    var ps := Select(names, threeAgo, twoAgo, current);
    forall n | n in names && Holds(n, threeAgo, twoAgo, current)
      ensures Emitted(ps, n)
    {
      assert MatchFor(n) in ps;
    }
  }

  /** Every match is bullish except the Doji's, and strong exactly for the
      engulfing, morning-star and marubozu shapes. */
  lemma Catalog(m: CandleMatch)
    requires m == MatchFor(m.name)
    ensures m.bias == Bullish <==> m.name != Doji
    ensures m.bias == Bullish && m.strength == Strong <==> m.name in {BullishEngulfing, MorningStar, BullishMarubozu}
  {
  }

  /** The shapes that hold on the last three bars, reported in the order
      the detector tests them. */
  function ReportedPatterns(threeAgo: Bar, twoAgo: Bar, current: Bar): (ps: seq<CandleMatch>)
    ensures ps == Select(DetectionOrder, threeAgo, twoAgo, current)
    ensures InDetectionOrder(NamesOf(ps))
  {
    DetectionOrderRanked();
    SelectOrdered(DetectionOrder, threeAgo, twoAgo, current);
    Select(DetectionOrder, threeAgo, twoAgo, current)
  }

  /** Patterns found on the last three bars. The caller
      always has at least three bars (the scoring gate is 26). */
  function DetectCandlePatterns(bars: seq<Bar>): (r: CandleReport)
    requires |bars| >= 3
    ensures forall name :: Emitted(r.patterns, name) <==> Holds(name, bars[|bars| - 3], bars[|bars| - 2], bars[|bars| - 1])
    ensures |r.patterns| <= 6
    ensures r.hasBullishPattern <==> exists m :: m in r.patterns && m.name != Doji
    ensures r.hasStrongBullishPattern <==>
      Emitted(r.patterns, BullishEngulfing) || Emitted(r.patterns, MorningStar) || Emitted(r.patterns, BullishMarubozu)
    ensures r.hasStrongBullishPattern ==> r.hasBullishPattern
    ensures r.currentIsBullish <==> bars[|bars| - 1].close > bars[|bars| - 1].open
    ensures InDetectionOrder(NamesOf(r.patterns))
  {
    var n := |bars|;
    var threeAgo, twoAgo, current := bars[n - 3], bars[n - 2], bars[n - 1];
    var patterns := ReportedPatterns(threeAgo, twoAgo, current);
    EveryNameTested();
    SelectEmitted(DetectionOrder, threeAgo, twoAgo, current);
    assert forall m :: m in patterns ==> m == MatchFor(m.name);
    forall m | m in patterns
      ensures m.bias == Bullish <==> m.name != Doji
      ensures m.bias == Bullish && m.strength == Strong <==> m.name in {BullishEngulfing, MorningStar, BullishMarubozu}
    {
      Catalog(m);
    }
    CandleReport(
      patterns,
      exists m :: m in patterns && m.bias == Bullish,
      exists m :: m in patterns && m.bias == Bullish && m.strength == Strong,
      Body(current) > 0.0)
  }

  /** The detection order ranks its own names in order. */
  lemma DetectionOrderRanked()
    ensures InDetectionOrder(DetectionOrder)
  {
  }

  /** The single-bar shapes that exclude each other on one bar. */
  lemma ShapesExclusive(cur: Bar)
    ensures !(IsHammer(cur) && IsInvertedHammer(cur))
    ensures !(IsHammer(cur) && IsBullishMarubozu(cur))
    ensures !(IsInvertedHammer(cur) && IsBullishMarubozu(cur))
    ensures !(IsDoji(cur) && IsBullishMarubozu(cur))
  {
    RangeIsWicksPlusBody(cur);
  }

  /** Matches emitted exactly for the shapes that hold never pair the
      single-bar shapes that exclude each other. */
  lemma EmittedExclusive(ps: seq<CandleMatch>, threeAgo: Bar, twoAgo: Bar, cur: Bar)
    requires forall name :: Emitted(ps, name) <==> Holds(name, threeAgo, twoAgo, cur)
    ensures !(Emitted(ps, Hammer) && Emitted(ps, InvertedHammer))
    ensures !(Emitted(ps, Hammer) && Emitted(ps, BullishMarubozu))
    ensures !(Emitted(ps, InvertedHammer) && Emitted(ps, BullishMarubozu))
    ensures !(Emitted(ps, Doji) && Emitted(ps, BullishMarubozu))
  {
    assert Emitted(ps, Hammer) ==> IsHammer(cur);
    assert Emitted(ps, InvertedHammer) ==> IsInvertedHammer(cur);
    assert Emitted(ps, Doji) ==> IsDoji(cur);
    assert Emitted(ps, BullishMarubozu) ==> IsBullishMarubozu(cur);
    ShapesExclusive(cur);
  }

  /** Hammer, Inverted Hammer and Bullish Marubozu never fire on the same bar,
      and a Doji is never a Bullish Marubozu. */
  lemma SingleBarPatternsExclusive(bars: seq<Bar>)
    requires |bars| >= 3
    ensures var ps := DetectCandlePatterns(bars).patterns;
      && !(Emitted(ps, Hammer) && Emitted(ps, InvertedHammer))
      && !(Emitted(ps, Hammer) && Emitted(ps, BullishMarubozu))
      && !(Emitted(ps, InvertedHammer) && Emitted(ps, BullishMarubozu))
      && !(Emitted(ps, Doji) && Emitted(ps, BullishMarubozu))
  {
    var n := |bars|;
    EmittedExclusive(DetectCandlePatterns(bars).patterns, bars[n - 3], bars[n - 2], bars[n - 1]);
  }
}

=== FILE: common.dfy ===
/** Numeric helpers shared by every stage of the pipeline.

    The source is JavaScript, so three of its habits are modelled here once:
    a missing array element (`undefined`) is `None`, and every ordering
    comparison that involves it is false; `x || y` treats 0 as missing; and
    numbers shown with `toFixed` are rounded by one explicit rule. */
module Common {

  datatype Option<+T> = None | Some(value: T)

  /** The three-level label the source attaches to trends and patterns. */
  datatype Strength = Weak | Moderate | Strong

  /** The direction a pattern or a set of reasons points in. */
  datatype Bias = Bullish | Bearish | Neutral

  /** Math.abs. */
  function Abs(x: real): (r: real)
    ensures r >= 0.0
    ensures r == x || r == -x
  {
    if x < 0.0 then -x else x
  }

  /** Math.max of two numbers. */
  function Max(a: real, b: real): (r: real)
    ensures r >= a && r >= b
    ensures r == a || r == b
  {
    if a >= b then a else b
  }

  /** Math.min of two numbers. */
  function Min(a: real, b: real): (r: real)
    ensures r <= a && r <= b
    ensures r == a || r == b
  {
    if a <= b then a else b
  }

  /** `x.toFixed(2)` read back as a number: the nearest multiple of 0.01,
      halves rounded away from zero. */
  function Round2(x: real): (r: real)
    ensures Abs(r - x) <= 0.005
    ensures x >= 0.0 ==> r >= 0.0
  {
    if x >= 0.0 then ((x * 100.0 + 0.5).Floor as real) / 100.0
    else -((((-x) * 100.0 + 0.5).Floor as real) / 100.0)
  }

  /** `Math.round(x * 10) / 10`: the nearest multiple of 0.1, halves rounded up. */
  function RoundTenth(x: real): (r: real)
    ensures -0.05 < r - x <= 0.05
    ensures (r * 10.0).Floor as real == r * 10.0
  {
    ((x * 10.0 + 0.5).Floor as real) / 10.0
  }

  lemma FloorMonotone(a: real, b: real)
    requires a <= b
    ensures a.Floor <= b.Floor
  {
  }

  /** Rounding to two decimals never reverses an ordering. */
  lemma Round2Monotone(a: real, b: real)
    requires a <= b
    ensures Round2(a) <= Round2(b)
  {
    if a >= 0.0 {
      FloorMonotone(a * 100.0 + 0.5, b * 100.0 + 0.5);
    } else if b < 0.0 {
      FloorMonotone((-b) * 100.0 + 0.5, (-a) * 100.0 + 0.5);
    }
  }

  lemma DivMulCancel(a: real, n: real)
    requires n != 0.0
    ensures a / n * n == a
  {
  }

  lemma DivSign(a: real, n: real)
    requires a >= 0.0 && n > 0.0
    ensures a / n >= 0.0
    ensures a / n == 0.0 ==> a == 0.0
  {
  }

  /** Multiplying by a positive number keeps a strict order. */
  lemma ScaleOrder(a: real, b: real, c: real)
    requires c > 0.0
    ensures a > b <==> a * c > b * c
  {
    if a > b {
      assert (a - b) * c > 0.0;
    } else {
      assert (b - a) * c >= 0.0;
    }
  }

  /** `a / b` for a positive `b`. */
  function Ratio(a: real, b: real): (r: real)
    requires b > 0.0
    ensures r * b == a
  {
    DivMulCancel(a, b);
    a / b
  }

  /** Comparing a ratio with a threshold compares the numerator with that
      multiple of the denominator. */
  lemma RatioCompare(a: real, b: real, t: real)
    requires b > 0.0
    ensures Ratio(a, b) < t <==> a < t * b
    ensures Ratio(a, b) > t <==> a > t * b
  {
    ScaleOrder(Ratio(a, b), t, b);
    ScaleOrder(t, Ratio(a, b), b);
  }

  /** `part / whole * 100`. */
  function Percent(part: real, whole: real): (r: real)
    requires whole > 0.0
    ensures r * whole == part * 100.0
    ensures r >= 0.0 <==> part >= 0.0
  {
    DivMulCancel(part, whole);
    var r := part / whole * 100.0;
    ScaleOrder(0.0, r, whole);
    r
  }

  /** Comparing a percentage with a threshold compares the part with that
      share of the whole. */
  lemma PercentCompare(part: real, whole: real, t: real)
    requires whole > 0.0
    ensures Percent(part, whole) < t <==> part * 100.0 < t * whole
    ensures Percent(part, whole) > t <==> part * 100.0 > t * whole
  {
    var r := Percent(part, whole);
    ScaleOrder(r, t, whole);
    ScaleOrder(t, r, whole);
  }

  /** JavaScript `a > b` where either side may be `undefined`. */
  predicate Gt(a: Option<real>, b: Option<real>) {
    a.Some? && b.Some? && a.value > b.value
  }

  /** JavaScript `a >= b` where either side may be `undefined`. */
  predicate Ge(a: Option<real>, b: Option<real>) {
    a.Some? && b.Some? && a.value >= b.value
  }

  /** JavaScript `a < b` where either side may be `undefined`. */
  predicate Lt(a: Option<real>, b: Option<real>) {
    a.Some? && b.Some? && a.value < b.value
  }

  /** JavaScript `a <= b` where either side may be `undefined`. */
  predicate Le(a: Option<real>, b: Option<real>) {
    a.Some? && b.Some? && a.value <= b.value
  }

  /** A number is truthy in JavaScript when it is defined and not 0. */
  predicate Truthy(a: Option<real>) {
    a.Some? && a.value != 0.0
  }

  /** One for a condition that holds, zero otherwise. */
  function Count(b: bool): nat {
    if b then 1 else 0
  }

  /** `x || 0`. */
  function OrZero(a: Option<real>): real {
    if a.Some? then a.value else 0.0
  }

  /** `s[k]`, which is `undefined` outside the array. */
  function At<T>(s: seq<T>, k: int): (r: Option<T>)
    ensures r.Some? <==> 0 <= k < |s|
    ensures r.Some? ==> r.value == s[k]
  {
    if 0 <= k < |s| then Some(s[k]) else None
  }

  /** `s[s.length - 1]`. */
  function Last<T>(s: seq<T>): (r: Option<T>)
    ensures r.Some? <==> |s| > 0
    ensures r.Some? ==> r.value == s[|s| - 1]
  {
    At(s, |s| - 1)
  }

  /** `s.slice(-n)`: the last `n` elements, or all of them when there are fewer. */
  function TakeLast<T>(s: seq<T>, n: nat): (r: seq<T>)
    ensures |r| == (if |s| < n then |s| else n)
    ensures r == s[|s| - |r|..]
  {
    if |s| <= n then s else s[|s| - n..]
  }

  /** `s.slice(0, n)`: the first `n` elements, or all of them when there are fewer. */
  function Take<T>(s: seq<T>, n: nat): (r: seq<T>)
    ensures |r| == (if |s| < n then |s| else n)
    ensures r == s[..|r|]
    ensures forall i :: 0 <= i < |r| ==> r[i] == s[i]
    ensures forall x :: x in r ==> x in s
  {
    if |s| <= n then s else s[..n]
  }

  /** `s.reduce((a, b) => a + b, 0)`. */
  function Sum(s: seq<real>): real {
    if |s| == 0 then 0.0 else s[0] + Sum(s[1..])
  }

  /** The arithmetic mean of a non-empty array. */
  function Mean(s: seq<real>): (r: real)
    requires |s| > 0
    ensures r * (|s| as real) == Sum(s)
  {
    DivMulCancel(Sum(s), |s| as real);
    Sum(s) / (|s| as real)
  }

  lemma {:induction false} SumNonNegative(s: seq<real>)
    requires forall i :: 0 <= i < |s| ==> s[i] >= 0.0
    ensures Sum(s) >= 0.0
  {
    if |s| > 0 {
      SumNonNegative(s[1..]);
    }
  }

  /** A sum of non-negative terms bounds each term. */
  lemma {:induction false} SumBoundsTerms(s: seq<real>)
    requires forall i :: 0 <= i < |s| ==> s[i] >= 0.0
    ensures forall i :: 0 <= i < |s| ==> s[i] <= Sum(s)
  {
    if |s| > 0 {
      SumBoundsTerms(s[1..]);
      SumNonNegative(s[1..]);
      forall i | 1 <= i < |s|
        ensures s[i] <= Sum(s)
      {
        assert s[i] == s[1..][i - 1];
      }
    }
  }

  /** `Math.max(...s)` on a non-empty array. */
  function SeqMax(s: seq<real>): (r: real)
    requires |s| > 0
    ensures r in s
    ensures forall x :: x in s ==> x <= r
  {
    if |s| == 1 then s[0]
    else
      var rest := SeqMax(s[1..]);
      assert forall x :: x in s ==> x == s[0] || x in s[1..];
      Max(s[0], rest)
  }

  /** `Math.min(...s)` on a non-empty array. */
  function SeqMin(s: seq<real>): (r: real)
    requires |s| > 0
    ensures r in s
    ensures forall x :: x in s ==> r <= x
  {
    if |s| == 1 then s[0]
    else
      var rest := SeqMin(s[1..]);
      assert forall x :: x in s ==> x == s[0] || x in s[1..];
      Min(s[0], rest)
  }
}

=== FILE: confluence.dfy ===
/** The confluence checklist of services/technicalAnalysis.js: four
    categories (trend, volume, momentum, pattern) scored from the readings,
    and a setup is valid when at least three of them pass. */
module Confluence {
  import opened Common
  import opened Indicators
  import opened TrendAnalysis
  import L = Levels

  /** One line of a category's check list; the numbers it shows are carried,
      the wording is not. */
  datatype Check =
    | AboveEma20 | BelowEma20 | AboveEma50 | BelowEma50 | ClearUptrend
    | HighVolumeCheck(ratio: Option<real>) | ModerateVolumeCheck(ratio: Option<real>) | LowVolumeCheck(ratio: Option<real>)
    | RsiFavourable(rsi: real) | RsiOversold(rsi: real) | RsiOverbought(rsi: real)
    | HistogramPositive | HistogramImproving | HistogramNegative
    | NearResistance | RoomToMove | ModerateDistance | BouncingFromSupport

  /** A scored category; every category's maximum score is 2. */
  datatype Category = Category(checks: seq<Check>, score: real, passed: bool)

  datatype Summary = StrongConfluence | ValidConfluence | WeakConfluence | NoConfluence

  datatype ConfluenceReport = ConfluenceReport(
    trend: Category,
    volume: Category,
    momentum: Category,
    pattern: Category,
    passedCount: nat,
    isValid: bool,
    summary: Summary)

  function Point(condition: bool): real {
    if condition then 1.0 else 0.0
  }

  /** The points the checklist adds when it writes a line: a confirmed
      line one point (two for high volume), a cautionary line half a point
      (one for moderate volume or a price near resistance), a failed line
      or the uptrend remark none. */
  function CheckPoints(k: Check): real {
    match k
    case AboveEma20 => 1.0
    case AboveEma50 => 1.0
    case HighVolumeCheck(_) => 2.0
    case ModerateVolumeCheck(_) => 1.0
    case RsiFavourable(_) => 1.0
    case RsiOversold(_) => 0.5
    case HistogramPositive => 1.0
    case HistogramImproving => 0.5
    case NearResistance => 1.0
    case RoomToMove => 1.0
    case ModerateDistance => 0.5
    case BouncingFromSupport => 1.0
    case _ => 0.0
  }

  /** The points of a list of lines. */
  function SumPoints(ks: seq<Check>): real {
    if |ks| == 0 then 0.0 else CheckPoints(ks[0]) + SumPoints(ks[1..])
  }

  /** The points of two lists written one after the other add up. */
  lemma {:induction false} SumPointsAppend(a: seq<Check>, b: seq<Check>)
    ensures SumPoints(a + b) == SumPoints(a) + SumPoints(b)
  {
    if |a| > 0 {
      assert (a + b)[1..] == a[1..] + b;
      SumPointsAppend(a[1..], b);
    } else {
      assert a + b == b;
    }
  }

  /** A single line is worth its own points. */
  lemma SumPointsSingle(k: Check)
    ensures SumPoints([k]) == CheckPoints(k)
  {
    assert [k][1..] == [];
  }

  /** One point for a price above each of the 20- and 50-day EMAs; passes
      with both. An uptrend adds a line but no score. */
  function TrendCategory(aboveEma20: bool, aboveEma50: bool, isUptrend: bool): (c: Category)
    ensures 0.0 <= c.score <= 2.0
    ensures c.passed <==> aboveEma20 && aboveEma50
    ensures c.score == 0.0 <==> !aboveEma20 && !aboveEma50
    ensures c.score == (Count(aboveEma20) + Count(aboveEma50)) as real
    ensures c.score == SumPoints(c.checks)
    ensures |c.checks| == 2 + Count(isUptrend)
    ensures AboveEma20 in c.checks <==> aboveEma20
    ensures BelowEma20 in c.checks <==> !aboveEma20
    ensures AboveEma50 in c.checks <==> aboveEma50
    ensures BelowEma50 in c.checks <==> !aboveEma50
    ensures ClearUptrend in c.checks <==> isUptrend
  {
    var score := Point(aboveEma20) + Point(aboveEma50);
    var first, second := if aboveEma20 then AboveEma20 else BelowEma20, if aboveEma50 then AboveEma50 else BelowEma50;
    var remark := if isUptrend then [ClearUptrend] else [];
    SumPointsSingle(first);
    SumPointsSingle(second);
    SumPointsSingle(ClearUptrend);
    SumPointsAppend([first], [second]);
    SumPointsAppend([first] + [second], remark);
    Category([first] + [second] + remark, score, score >= 2.0)
  }

  /** Two points for a volume ratio of at least 1.5, one for at least 1.2;
      passes with either. A missing ratio (NaN) fails both tests. */
  function VolumeCategory(ratio: Option<real>): (c: Category)
    ensures 0.0 <= c.score <= 2.0
    ensures c.passed <==> Ge(ratio, Some(1.2))
    ensures c.score == 2.0 <==> Ge(ratio, Some(1.5))
    ensures c.score == 1.0 <==> Ge(ratio, Some(1.2)) && !Ge(ratio, Some(1.5))
    ensures c.score == 0.0 <==> !Ge(ratio, Some(1.2))
    ensures c.score == SumPoints(c.checks)
    ensures c.checks == [HighVolumeCheck(ratio)] <==> Ge(ratio, Some(1.5))
    ensures c.checks == [ModerateVolumeCheck(ratio)] <==> Ge(ratio, Some(1.2)) && !Ge(ratio, Some(1.5))
    ensures c.checks == [LowVolumeCheck(ratio)] <==> !Ge(ratio, Some(1.2))
    ensures |c.checks| == 1
  {
    var score := if Ge(ratio, Some(1.5)) then 2.0 else if Ge(ratio, Some(1.2)) then 1.0 else 0.0;
    var check := if Ge(ratio, Some(1.5)) then HighVolumeCheck(ratio) else if Ge(ratio, Some(1.2)) then ModerateVolumeCheck(ratio) else LowVolumeCheck(ratio);
    SumPointsSingle(check);
    Category([check], score, score >= 1.0)
  }

  /** One point for an RSI in 40..70 and half a point below 40; one point for
      a positive MACD histogram and half a point for a rising one. Passes at
      1.5: a favourable RSI with any histogram credit, or an oversold RSI
      with a positive histogram. */
  function MomentumCategory(rsi: real, histogram: real, histogramIncreasing: bool): (c: Category)
    ensures 0.0 <= c.score <= 2.0
    ensures c.passed <==>
      (40.0 <= rsi <= 70.0 && (histogram > 0.0 || histogramIncreasing)) || (rsi < 40.0 && histogram > 0.0)
    ensures c.score == 2.0 <==> 40.0 <= rsi <= 70.0 && histogram > 0.0
    ensures |c.checks| == 2
    ensures c.score == CheckPoints(c.checks[0]) + CheckPoints(c.checks[1])
    ensures c.score == SumPoints(c.checks)
    ensures c.checks[0] == RsiFavourable(rsi) <==> 40.0 <= rsi <= 70.0
    ensures c.checks[0] == RsiOversold(rsi) <==> rsi < 40.0
    ensures c.checks[0] == RsiOverbought(rsi) <==> rsi > 70.0
    ensures c.checks[1] == HistogramPositive <==> histogram > 0.0
    ensures c.checks[1] == HistogramImproving <==> histogram <= 0.0 && histogramIncreasing
    ensures c.checks[1] == HistogramNegative <==> histogram <= 0.0 && !histogramIncreasing
    ensures RsiOverbought(rsi) in c.checks <==> rsi > 70.0
  {
    var rsiScore := if 40.0 <= rsi <= 70.0 then 1.0 else if rsi < 40.0 then 0.5 else 0.0;
    var rsiCheck := if 40.0 <= rsi <= 70.0 then RsiFavourable(rsi) else if rsi < 40.0 then RsiOversold(rsi) else RsiOverbought(rsi);
    var macdScore := if histogram > 0.0 then 1.0 else if histogramIncreasing then 0.5 else 0.0;
    var macdCheck := if histogram > 0.0 then HistogramPositive else if histogramIncreasing then HistogramImproving else HistogramNegative;
    var score := rsiScore + macdScore;
    SumPointsSingle(rsiCheck);
    SumPointsSingle(macdCheck);
    SumPointsAppend([rsiCheck], [macdCheck]);
    assert [rsiCheck] + [macdCheck] == [rsiCheck, macdCheck];
    Category([rsiCheck, macdCheck], score, score >= 1.5)
  }

  /** One point when the resistance is under 1% or over 5% away, half a
      point in between; one more when the price sits near support. Passes
      at 1, so only a moderate distance without support fails. */
  function PatternCategory(distanceToResistance: real, nearSupport: bool): (c: Category)
    ensures 0.5 <= c.score <= 2.0
    ensures c.passed <==> distanceToResistance < 1.0 || distanceToResistance > 5.0 || nearSupport
    ensures c.score == SumPoints(c.checks)
    ensures |c.checks| == 1 + Count(nearSupport)
    ensures c.checks[0] == NearResistance <==> distanceToResistance < 1.0
    ensures c.checks[0] == RoomToMove <==> distanceToResistance > 5.0
    ensures c.checks[0] == ModerateDistance <==> 1.0 <= distanceToResistance <= 5.0
    ensures distanceToResistance < 1.0 || distanceToResistance > 5.0 ==> c.score == 1.0 + Point(nearSupport)
    ensures 1.0 <= distanceToResistance <= 5.0 ==> c.score == 0.5 + Point(nearSupport)
    ensures BouncingFromSupport in c.checks <==> nearSupport
  {
    var far := distanceToResistance < 1.0 || distanceToResistance > 5.0;
    var check := if distanceToResistance < 1.0 then NearResistance else if distanceToResistance > 5.0 then RoomToMove else ModerateDistance;
    var score := (if far then 1.0 else 0.5) + Point(nearSupport);
    var bounce := if nearSupport then [BouncingFromSupport] else [];
    SumPointsSingle(check);
    SumPointsSingle(BouncingFromSupport);
    SumPointsAppend([check], bounce);
    Category([check] + bounce, score, score >= 1.0)
  }

  /** The summary line for a number of passed categories. */
  function SummaryFor(passedCount: nat): (s: Summary)
    ensures s == StrongConfluence <==> passedCount >= 4
    ensures s == ValidConfluence <==> passedCount == 3
    ensures s == WeakConfluence <==> passedCount == 2
    ensures s == NoConfluence <==> passedCount < 2
  {
    if passedCount >= 4 then StrongConfluence
    else if passedCount >= 3 then ValidConfluence
    else if passedCount >= 2 then WeakConfluence
    else NoConfluence
  }

  /** The checklist. A missing current RSI fails every RSI comparison and
      reaches the overbought line, whose formatting of the RSI throws: that
      is the `None` result. */
  function CalculateConfluence(
    rsi: RsiReading, macd: MacdReading, emas: EmaReading, volume: VolumeAnalysis,
    trend: TrendReading, levels: L.Levels): (r: Option<ConfluenceReport>)
    ensures r.None? <==> rsi.current.None?
    ensures r.Some? ==>
      && r.value.trend == TrendCategory(emas.aboveEma20, emas.aboveEma50, trend.isUptrend)
      && r.value.volume == VolumeCategory(volume.ratio)
      && r.value.momentum == MomentumCategory(rsi.current.value, macd.histogram, macd.histogramIncreasing)
      && r.value.pattern == PatternCategory(levels.distanceToResistance, levels.nearSupport)
    ensures r.Some? ==> r.value.passedCount <= 4
    ensures r.Some? ==>
      r.value.passedCount ==
        Count(r.value.trend.passed) + Count(r.value.volume.passed) + Count(r.value.momentum.passed) + Count(r.value.pattern.passed)
    ensures r.Some? ==> (r.value.isValid <==> r.value.passedCount >= 3)
    ensures r.Some? ==> (r.value.isValid <==>
      (!r.value.trend.passed ==> r.value.volume.passed && r.value.momentum.passed && r.value.pattern.passed) &&
      (!r.value.volume.passed ==> r.value.trend.passed && r.value.momentum.passed && r.value.pattern.passed) &&
      (!r.value.momentum.passed ==> r.value.trend.passed && r.value.volume.passed && r.value.pattern.passed) &&
      (!r.value.pattern.passed ==> r.value.trend.passed && r.value.volume.passed && r.value.momentum.passed))
    ensures r.Some? ==> (r.value.passedCount == 4 <==>
      r.value.trend.passed && r.value.volume.passed && r.value.momentum.passed && r.value.pattern.passed)
    ensures r.Some? ==> (r.value.summary == StrongConfluence <==> r.value.passedCount == 4)
    ensures r.Some? ==> (r.value.summary == ValidConfluence <==> r.value.passedCount == 3)
    ensures r.Some? ==> (r.value.summary == NoConfluence <==> r.value.passedCount < 2)
  {
    if rsi.current.None? then None
    else
      var t := TrendCategory(emas.aboveEma20, emas.aboveEma50, trend.isUptrend);
      var v := VolumeCategory(volume.ratio);
      var m := MomentumCategory(rsi.current.value, macd.histogram, macd.histogramIncreasing);
      var p := PatternCategory(levels.distanceToResistance, levels.nearSupport);
      var passedCount := Count(t.passed) + Count(v.passed) + Count(m.passed) + Count(p.passed);
      Some(ConfluenceReport(t, v, m, p, passedCount, passedCount >= 3, SummaryFor(passedCount)))
  }

  /** A price above both EMAs on at least 1.2 times the average volume and
      near support is a valid setup, whatever the momentum. */
  lemma TrendVolumeAndSupportSuffice(
    rsi: RsiReading, macd: MacdReading, emas: EmaReading, volume: VolumeAnalysis,
    trend: TrendReading, levels: L.Levels)
    requires rsi.current.Some?
    requires emas.aboveEma20 && emas.aboveEma50 && Ge(volume.ratio, Some(1.2)) && levels.nearSupport
    ensures CalculateConfluence(rsi, macd, emas, volume, trend, levels).value.isValid
  {
  }

  /** Without a price above the 20-day EMA a setup needs every other
      category to be valid. */
  lemma BelowEma20NeedsAllOthers(
    rsi: RsiReading, macd: MacdReading, emas: EmaReading, volume: VolumeAnalysis,
    trend: TrendReading, levels: L.Levels)
    requires rsi.current.Some? && !emas.aboveEma20
    ensures var r := CalculateConfluence(rsi, macd, emas, volume, trend, levels).value;
      r.isValid ==> Ge(volume.ratio, Some(1.2)) && r.momentum.passed && r.pattern.passed
  {
  }
}

=== FILE: factors.dfy ===
/** The ten factors of services/scoringEngine.js. Each one scores a part of
    the indicator set against a fixed maximum and says whether it passed;
    the sector factor is always zero. */
module Factors {
  import opened Common
  import opened Bars
  import opened Indicators
  import opened Candles

  /** The reason lines a factor reports; the numbers they show are carried,
      the wording is not. */
  datatype Reason =
    | PriceAboveEma50 | Ema50AboveEma200 | ConfirmedUptrend
    | RsiMomentumRoom(rsi: Option<real>) | RsiRecovering | RsiAcceptable(rsi: Option<real>)
    | RsiOverboughtRisky | RsiOversoldReversal
    | FreshMacdCrossover | RecentMacdCrossover | MacdRisingMomentum | MacdAboveSignal
    | VolumeVeryHigh(ratio: Option<real>) | VolumeStrong(ratio: Option<real>)
    | VolumeAboveNormal(ratio: Option<real>) | VolumeBelowAverage
    | StrongCandles(names: seq<CandleName>) | BullishCandles(names: seq<CandleName>) | CurrentCandleBullish
    | NearEma20Support | NearEma50Support | NearSwingLowSupport
    | StrongBullishTrend(adx: real) | ModerateBullishTrend(adx: real) | TrendingMarket(adx: real) | RangingMarket
    | SectorUnavailable
    | Week52Unavailable | Week52Position(position: real) | NearWeek52Low | NearWeek52High
    | ExcellentRiskReward(ratio: Option<real>) | GoodRiskReward(ratio: Option<real>)
    | AcceptableRiskReward(ratio: Option<real>) | PoorRiskReward(ratio: Option<real>)

  /** One factor of the breakdown. `value` is the number shown beside it
      (the RSI, the volume ratio, the ADX, the 52-week position or the
      risk/reward ratio), `None` where there is none or it is not finite. */
  datatype FactorScore = FactorScore(score: real, max: real, reasons: seq<Reason>, passed: bool, value: Option<real>)

  /** The score lies between zero and the factor's maximum. */
  predicate Bounded(f: FactorScore) {
    0.0 <= f.score <= f.max
  }

  function Half(condition: bool): real {
    if condition then 0.5 else 0.0
  }

  function Line(condition: bool, reason: Reason): seq<Reason> {
    if condition then [reason] else []
  }

  // ----- Factor 1: trend alignment (1.5) -----

  /** Half a point each for a price above the 50 EMA, the 50 EMA above the
      200 EMA and a confirmed uptrend; passes with two of the three. */
  function TrendScore(aboveEma50: bool, ema50Above200: bool, isUptrend: bool): (f: FactorScore)
    ensures Bounded(f) && f.max == 1.5
    ensures f.score == 1.5 <==> aboveEma50 && ema50Above200 && isUptrend
    ensures f.score == 0.0 <==> !aboveEma50 && !ema50Above200 && !isUptrend
    ensures f.passed <==> (aboveEma50 && ema50Above200) || (aboveEma50 && isUptrend) || (ema50Above200 && isUptrend)
    ensures f.score == 0.5 * (|f.reasons| as real)
    ensures f.score == 0.5 * ((Count(aboveEma50) + Count(ema50Above200) + Count(isUptrend)) as real)
    ensures PriceAboveEma50 in f.reasons <==> aboveEma50
    ensures Ema50AboveEma200 in f.reasons <==> ema50Above200
    ensures ConfirmedUptrend in f.reasons <==> isUptrend
    ensures forall x :: x in f.reasons ==> x == PriceAboveEma50 || x == Ema50AboveEma200 || x == ConfirmedUptrend
    ensures |f.reasons| > 0 ==>
      f.reasons[0] == (if aboveEma50 then PriceAboveEma50 else if ema50Above200 then Ema50AboveEma200 else ConfirmedUptrend)
  {
    var score := Half(aboveEma50) + Half(ema50Above200) + Half(isUptrend);
    FactorScore(
      Min(score, 1.5),
      1.5,
      Line(aboveEma50, PriceAboveEma50) + Line(ema50Above200, Ema50AboveEma200) + Line(isUptrend, ConfirmedUptrend),
      score >= 1.0,
      None)
  }

  // ----- Factor 2: RSI (1.0) -----

  /** The RSI between 35 and 65 inclusive; a missing RSI is not. */
  predicate Acceptable(current: Option<real>) {
    Ge(current, Some(35.0)) && Le(current, Some(65.0))
  }

  /** Full marks in the swing zone or when recovering, half in the wider
      35..65 band, nothing when overbought, half when oversold. */
  function RsiScore(rsi: RsiReading): (f: FactorScore)
    ensures Bounded(f) && f.max == 1.0
    ensures f.score == 0.0 || f.score == 0.5 || f.score == 1.0
    ensures f.score == 1.0 <==> rsi.inSwingZone || rsi.isRecovering
    ensures f.score == 0.5 <==>
      !rsi.inSwingZone && !rsi.isRecovering && (Acceptable(rsi.current) || (!rsi.isOverbought && rsi.isOversold))
    ensures f.passed <==> f.score >= 0.5
    ensures |f.reasons| == 0 <==>
      !rsi.inSwingZone && !rsi.isRecovering && !Acceptable(rsi.current) && !rsi.isOverbought && !rsi.isOversold
    ensures f.reasons == [RsiMomentumRoom(rsi.current)] <==> rsi.inSwingZone
    ensures f.reasons == [RsiRecovering] <==> !rsi.inSwingZone && rsi.isRecovering
    ensures f.reasons == [RsiAcceptable(rsi.current)] <==>
      !rsi.inSwingZone && !rsi.isRecovering && Acceptable(rsi.current)
    ensures f.reasons == [RsiOverboughtRisky] <==>
      !rsi.inSwingZone && !rsi.isRecovering && !Acceptable(rsi.current) && rsi.isOverbought
    ensures f.reasons == [RsiOversoldReversal] <==>
      !rsi.inSwingZone && !rsi.isRecovering && !Acceptable(rsi.current) && !rsi.isOverbought && rsi.isOversold
    ensures f.value == rsi.current
  {
    var scored :=
      if rsi.inSwingZone then (1.0, [RsiMomentumRoom(rsi.current)])
      else if rsi.isRecovering then (1.0, [RsiRecovering])
      else if Acceptable(rsi.current) then (0.5, [RsiAcceptable(rsi.current)])
      else if rsi.isOverbought then (0.0, [RsiOverboughtRisky])
      else if rsi.isOversold then (0.5, [RsiOversoldReversal])
      else (0.0, []);
    FactorScore(scored.0, 1.0, scored.1, scored.0 >= 0.5, rsi.current)
  }

  // ----- Factor 3: MACD (1.0) -----

  /** A fresh crossover, a crossover in the last three sessions, a bullish
      MACD with a rising histogram, a bullish MACD: 1, 0.8, 0.7, 0.5. */
  function MacdScore(macd: MacdReading): (f: FactorScore)
    ensures Bounded(f) && f.max == 1.0
    ensures f.score == 1.0 <==> macd.bullishCrossover
    ensures f.score == 0.8 <==> !macd.bullishCrossover && macd.recentBullishCrossover
    ensures f.score == 0.7 <==>
      !macd.bullishCrossover && !macd.recentBullishCrossover && macd.isBullish && macd.histogramIncreasing
    ensures f.score == 0.5 <==>
      !macd.bullishCrossover && !macd.recentBullishCrossover && macd.isBullish && !macd.histogramIncreasing
    ensures f.score == 0.0 <==> !macd.bullishCrossover && !macd.recentBullishCrossover && !macd.isBullish
    ensures f.reasons == [FreshMacdCrossover] <==> f.score == 1.0
    ensures f.reasons == [RecentMacdCrossover] <==> f.score == 0.8
    ensures f.reasons == [MacdRisingMomentum] <==> f.score == 0.7
    ensures f.reasons == [MacdAboveSignal] <==> f.score == 0.5
    ensures f.passed <==> macd.bullishCrossover || macd.recentBullishCrossover || macd.isBullish
    ensures f.score == 0.0 <==> |f.reasons| == 0
  {
    var scored :=
      if macd.bullishCrossover then (1.0, [FreshMacdCrossover])
      else if macd.recentBullishCrossover then (0.8, [RecentMacdCrossover])
      else if macd.isBullish && macd.histogramIncreasing then (0.7, [MacdRisingMomentum])
      else if macd.isBullish then (0.5, [MacdAboveSignal])
      else (0.0, []);
    FactorScore(scored.0, 1.0, scored.1, scored.0 >= 0.5, None)
  }

  // ----- Factor 4: volume (1.5) -----

  /** 1.5, 1.2, 0.8 for very high, high and above-average volume, and 0.3
      otherwise, so the factor never scores zero. */
  function VolumeScore(v: VolumeAnalysis): (f: FactorScore)
    ensures Bounded(f) && f.max == 1.5
    ensures f.score == 0.3 || f.score == 0.8 || f.score == 1.2 || f.score == 1.5
    ensures f.score == 1.5 <==> v.isVeryHighVolume
    ensures f.score == 1.2 <==> !v.isVeryHighVolume && v.isHighVolume
    ensures f.score == 0.8 <==> !v.isVeryHighVolume && !v.isHighVolume && v.isAboveAverage
    ensures f.score == 0.3 <==> !v.isVeryHighVolume && !v.isHighVolume && !v.isAboveAverage
    ensures f.reasons == [VolumeVeryHigh(v.ratio)] <==> v.isVeryHighVolume
    ensures f.reasons == [VolumeStrong(v.ratio)] <==> !v.isVeryHighVolume && v.isHighVolume
    ensures f.reasons == [VolumeAboveNormal(v.ratio)] <==> !v.isVeryHighVolume && !v.isHighVolume && v.isAboveAverage
    ensures f.reasons == [VolumeBelowAverage] <==> f.score == 0.3
    ensures f.passed <==> v.isVeryHighVolume || v.isHighVolume || v.isAboveAverage
    ensures f.passed <==> f.score >= 0.8
    ensures |f.reasons| == 1 && f.value == v.ratio
  {
    var scored :=
      if v.isVeryHighVolume then (1.5, VolumeVeryHigh(v.ratio))
      else if v.isHighVolume then (1.2, VolumeStrong(v.ratio))
      else if v.isAboveAverage then (0.8, VolumeAboveNormal(v.ratio))
      else (0.3, VolumeBelowAverage);
    FactorScore(Min(scored.0, 1.5), 1.5, [scored.1], scored.0 >= 0.8, v.ratio)
  }

  /** On the readings the volume analysis produces, the factor passes
      exactly on above-average volume. */
  lemma VolumePassesAboveAverage(volumes: seq<real>)
    requires forall i :: 0 <= i < |volumes| ==> volumes[i] >= 0.0
    ensures VolumeScore(AnalyzeVolume(volumes)).passed <==> AnalyzeVolume(volumes).isAboveAverage
  {
  }

  /** Rank of the volume factor's score, for comparing two series. */
  lemma VolumeScoreMonotone(a: seq<real>, b: seq<real>)
    requires forall i :: 0 <= i < |a| ==> a[i] >= 0.0
    requires forall i :: 0 <= i < |b| ==> b[i] >= 0.0
    requires ExactVolumeRatio(a).None? || Le(ExactVolumeRatio(a), ExactVolumeRatio(b))
    ensures VolumeScore(AnalyzeVolume(a)).score <= VolumeScore(AnalyzeVolume(b)).score
  {
  }

  // ----- Factor 5: candlestick pattern (1.0) -----

  /** The names of the matches that pass `keep`, in order. */
  function NamesWhere(ps: seq<CandleMatch>, keep: CandleMatch -> bool): (names: seq<CandleName>)
    ensures |names| <= |ps|
    ensures forall n :: n in names <==> exists m :: m in ps && keep(m) && m.name == n
  {
    if |ps| == 0 then []
    else
      var rest := NamesWhere(ps[1..], keep);
      assert forall m :: m in ps <==> m == ps[0] || m in ps[1..];
      (if keep(ps[0]) then [ps[0].name] else []) + rest
  }

  predicate IsStrong(m: CandleMatch) { m.strength == Strong }
  predicate IsBullish(m: CandleMatch) { m.bias == Bullish }

  /** A strong bullish pattern scores 1, any bullish pattern 0.6, a bullish
      last candle 0.3; the reason lists the strong (or bullish) patterns. */
  function PatternScore(c: CandleReport): (f: FactorScore)
    ensures Bounded(f) && f.max == 1.0
    ensures f.score == 1.0 <==> c.hasStrongBullishPattern
    ensures f.score == 0.6 <==> !c.hasStrongBullishPattern && c.hasBullishPattern
    ensures f.score == 0.3 <==> !c.hasStrongBullishPattern && !c.hasBullishPattern && c.currentIsBullish
    ensures f.score == 0.0 <==> !c.hasStrongBullishPattern && !c.hasBullishPattern && !c.currentIsBullish
    ensures f.passed <==> c.hasStrongBullishPattern || c.hasBullishPattern
    ensures f.score == 0.6 ==> f.reasons == [BullishCandles(NamesWhere(c.patterns, IsBullish))]
    ensures f.score == 0.3 ==> f.reasons == [CurrentCandleBullish]
    ensures f.score == 0.0 ==> f.reasons == []
    ensures c.hasStrongBullishPattern ==>
      f.reasons == [StrongCandles(NamesWhere(c.patterns, IsStrong))]
      && forall n :: n in f.reasons[0].names <==> exists m :: m in c.patterns && m.strength == Strong && m.name == n
  {
    var scored :=
      if c.hasStrongBullishPattern then (1.0, [StrongCandles(NamesWhere(c.patterns, IsStrong))])
      else if c.hasBullishPattern then (0.6, [BullishCandles(NamesWhere(c.patterns, IsBullish))])
      else if c.currentIsBullish then (0.3, [CurrentCandleBullish])
      else (0.0, []);
    FactorScore(scored.0, 1.0, scored.1, scored.0 >= 0.5, None)
  }

  // ----- Factor 6: support (1.0) -----

  /** `Math.abs(parseFloat(d)) <= limit`; a non-finite distance fails it. */
  predicate Within(d: Option<real>, limit: real) {
    d.Some? && Abs(d.value) <= limit
  }

  /** 0.5 for a price within 1% above the 20 EMA, 0.3 within 2% above the
      50 EMA, 0.2 near the swing-low support; passes at 0.4. */
  function SupportScore(
    distanceFromEma20: Option<real>, aboveEma20: bool,
    distanceFromEma50: Option<real>, aboveEma50: bool, nearSupport: bool): (f: FactorScore)
    ensures Bounded(f) && f.max == 1.0
    ensures var near20, near50 := Within(distanceFromEma20, 1.0) && aboveEma20, Within(distanceFromEma50, 2.0) && aboveEma50;
      && (f.passed <==> near20 || (near50 && nearSupport))
      && (f.score == 1.0 <==> near20 && near50 && nearSupport)
      && (f.score == 0.0 <==> !near20 && !near50 && !nearSupport)
    ensures var near20, near50 := Within(distanceFromEma20, 1.0) && aboveEma20, Within(distanceFromEma50, 2.0) && aboveEma50;
      f.score == 0.5 * (Count(near20) as real) + 0.3 * (Count(near50) as real) + 0.2 * (Count(nearSupport) as real)
    ensures NearEma20Support in f.reasons <==> Within(distanceFromEma20, 1.0) && aboveEma20
    ensures NearEma50Support in f.reasons <==> Within(distanceFromEma50, 2.0) && aboveEma50
    ensures NearSwingLowSupport in f.reasons <==> nearSupport
    ensures forall x :: x in f.reasons ==> x == NearEma20Support || x == NearEma50Support || x == NearSwingLowSupport
    ensures |f.reasons| <= 3
  {
    var near20 := Within(distanceFromEma20, 1.0) && aboveEma20;
    var near50 := Within(distanceFromEma50, 2.0) && aboveEma50;
    var score := Half(near20) + (if near50 then 0.3 else 0.0) + (if nearSupport then 0.2 else 0.0);
    FactorScore(
      Min(score, 1.0),
      1.0,
      Line(near20, NearEma20Support) + Line(near50, NearEma50Support) + Line(nearSupport, NearSwingLowSupport),
      score >= 0.4,
      None)
  }

  // ----- Factor 7: ADX (1.0) -----

  /** A strong bullish trend 1, a trending bullish market 0.7, a trending
      market 0.4, ranging 0; passes only on a bullish trend. */
  function AdxScore(adx: AdxReading): (f: FactorScore)
    ensures Bounded(f) && f.max == 1.0
    ensures f.score == 1.0 <==> adx.isStrongTrend && adx.isBullishTrend
    ensures f.score == 0.0 <==> !adx.isTrending && !(adx.isStrongTrend && adx.isBullishTrend)
    ensures f.score == 0.7 <==> !adx.isStrongTrend && adx.isTrending && adx.isBullishTrend
    ensures f.score == 0.4 <==> !(adx.isStrongTrend && adx.isBullishTrend) && adx.isTrending && !adx.isBullishTrend
    ensures f.reasons == [RangingMarket] <==> f.score == 0.0
    ensures f.passed <==> adx.isBullishTrend && (adx.isStrongTrend || adx.isTrending)
    ensures |f.reasons| == 1 && f.value == Some(adx.adx)
  {
    var scored :=
      if adx.isStrongTrend && adx.isBullishTrend then (1.0, StrongBullishTrend(adx.adx))
      else if adx.isTrending && adx.isBullishTrend then (0.7, ModerateBullishTrend(adx.adx))
      else if adx.isTrending then (0.4, TrendingMarket(adx.adx))
      else (0.0, RangingMarket);
    FactorScore(scored.0, 1.0, [scored.1], scored.0 >= 0.5, Some(adx.adx))
  }

  /** The ADX reading's own flags make the ADX factor pass exactly on a
      bullish trend with ADX above 25. */
  lemma AdxPassesOnBullishTrend(points: seq<AdxPoint>)
    ensures AdxScore(CalculateAdx(points)).passed <==>
      |points| > 0 && points[|points| - 1].adx > 25.0 && points[|points| - 1].pdi > points[|points| - 1].mdi
  {
  }

  // ----- Factor 8: sector (0.5), never scored -----

  function SectorScore(): (f: FactorScore)
    ensures Bounded(f) && f.score == 0.0 && !f.passed
  {
    FactorScore(0.0, 0.5, [SectorUnavailable], false, None)
  }

  // ----- Factor 9: 52-week position (0.5) -----

  /** Where the price sits in the 52-week range, in percent; `None` when
      the range is empty and the quotient is infinite or NaN. */
  function Position(price: real, high: real, low: real): (p: Option<real>)
    ensures p.Some? <==> high != low
    ensures high > low ==> p == Some(Percent(price - low, high - low))
  {
    if high > low then Some(Percent(price - low, high - low))
    else if high == low then None
    else Some((price - low) / (high - low) * 100.0)
  }

  /** Half a point between 20% and 80% of the 52-week range, 0.3 below it,
      nothing above it. A missing or zero high or low scores nothing. On an
      empty range the quotient is infinite: a price below it counts as "near
      the low", a price above it or on it scores nothing. */
  function Week52Score(price: real, high52: Option<real>, low52: Option<real>): (f: FactorScore)
    ensures Bounded(f) && f.max == 0.5
    ensures f.score == 0.0 || f.score == 0.3 || f.score == 0.5
    ensures f.passed <==> f.score >= 0.3
    ensures !Truthy(high52) || !Truthy(low52) ==> f.score == 0.0 && f.reasons == [Week52Unavailable]
    ensures Truthy(high52) && Truthy(low52) && high52.value > low52.value ==>
      var high, low := high52.value, low52.value;
      && (f.score == 0.5 <==> 0.2 * (high - low) <= price - low <= 0.8 * (high - low))
      && (f.score == 0.3 <==> price - low < 0.2 * (high - low))
    ensures Truthy(high52) && Truthy(low52) && high52.value == low52.value ==>
      (f.score == 0.3 <==> price < low52.value) && f.score != 0.5
    ensures Truthy(high52) && Truthy(low52) ==>
      && f.value == Position(price, high52.value, low52.value)
      && (f.score == 0.5 <==> f.value.Some? && f.reasons == [Week52Position(f.value.value)])
    ensures f.reasons == [NearWeek52Low] <==> f.score == 0.3
    ensures f.reasons == [NearWeek52High] <==> Truthy(high52) && Truthy(low52) && f.score == 0.0
    ensures f.reasons == [Week52Unavailable] <==> !Truthy(high52) || !Truthy(low52)
  {
    if !Truthy(high52) || !Truthy(low52) then
      FactorScore(0.0, 0.5, [Week52Unavailable], false, None)
    else
      var high, low := high52.value, low52.value;
      var position := Position(price, high, low);
      if position.None? then
        if price < low then FactorScore(0.3, 0.5, [NearWeek52Low], true, None)
        else FactorScore(0.0, 0.5, [NearWeek52High], false, None)
      else
        var p := position.value;
        assert high > low ==> (p < 20.0 <==> price - low < 0.2 * (high - low)) && (p > 80.0 <==> price - low > 0.8 * (high - low)) by {
          if high > low {
            PercentCompare(price - low, high - low, 20.0);
            PercentCompare(price - low, high - low, 80.0);
          }
        }
        if 20.0 <= p <= 80.0 then FactorScore(0.5, 0.5, [Week52Position(p)], true, position)
        else if p < 20.0 then FactorScore(0.3, 0.5, [NearWeek52Low], true, position)
        else FactorScore(0.0, 0.5, [NearWeek52High], false, position)
  }

  // ----- Factor 10: risk/reward (1.0) -----

  /** The stop: two ATRs below the price or just under the support,
      whichever is higher. */
  function Stop(price: real, atr: real, support: real): (s: real)
    ensures s >= price - atr * 2.0 && s >= support * 0.99
    ensures s == price - atr * 2.0 || s == support * 0.99
  {
    Max(price - atr * 2.0, support * 0.99)
  }

  /** The far target: three ATRs above the price or just under the
      resistance, whichever is lower. */
  function Target(price: real, atr: real, resistance: real): (t: real)
    ensures t <= price + atr * 3.0 && t <= resistance * 0.99
    ensures t == price + atr * 3.0 || t == resistance * 0.99
  {
    Min(price + atr * 3.0, resistance * 0.99)
  }

  /** `reward / risk` to two decimals; `None` where JavaScript gets an
      infinity or NaN from a zero risk. */
  function RewardRatio(reward: real, risk: real): (r: Option<real>)
    ensures r.Some? <==> risk != 0.0
    ensures r.Some? ==> Abs(r.value - reward / risk) <= 0.005
  {
    if risk == 0.0 then None else Some(Round2(reward / risk))
  }

  /** The risk/reward grade of a quotient `reward / risk` on a non-zero risk. */
  function Grade(rr: real): real {
    if rr >= 3.0 then 1.0 else if rr >= 2.0 then 0.7 else if rr >= 1.5 then 0.4 else 0.0
  }

  /** Grades reward over risk: at least 3 scores 1, 2 scores 0.7, 1.5
      scores 0.4; passes at 2. A missing ATR makes every quantity NaN and
      scores nothing; a zero risk makes the quotient infinite, which scores
      1 when the reward is positive. */
  function RiskRewardScore(price: real, atr: Option<real>, support: real, resistance: real): (f: FactorScore)
    ensures Bounded(f) && f.max == 1.0
    ensures f.score == 0.0 || f.score == 0.4 || f.score == 0.7 || f.score == 1.0
    ensures f.passed <==> f.score >= 0.5
    ensures atr.None? ==> f.score == 0.0 && f.value.None?
    ensures atr.Some? ==>
      var risk := price - Stop(price, atr.value, support);
      var reward := Target(price, atr.value, resistance) - price;
      && f.value == RewardRatio(reward, risk)
      && (risk > 0.0 ==>
            && (f.score == 1.0 <==> reward >= 3.0 * risk)
            && (f.passed <==> reward >= 2.0 * risk)
            && (f.score > 0.0 <==> reward >= 1.5 * risk))
      && (risk == 0.0 ==> (f.score == 1.0 <==> reward > 0.0) && (f.score == 0.0 <==> reward <= 0.0))
    ensures f.reasons == [ExcellentRiskReward(f.value)] <==> f.score == 1.0
    ensures f.reasons == [GoodRiskReward(f.value)] <==> f.score == 0.7
    ensures f.reasons == [AcceptableRiskReward(f.value)] <==> f.score == 0.4
    ensures f.reasons == [PoorRiskReward(f.value)] <==> f.score == 0.0
  {
    if atr.None? then FactorScore(0.0, 1.0, [PoorRiskReward(None)], false, None)
    else
      var risk := price - Stop(price, atr.value, support);
      var reward := Target(price, atr.value, resistance) - price;
      var ratio := RewardRatio(reward, risk);
      var score :=
        if risk == 0.0 then (if reward > 0.0 then 1.0 else 0.0)
        else Grade(reward / risk);
      assert risk > 0.0 ==>
        (reward / risk >= 3.0 <==> reward >= 3.0 * risk) &&
        (reward / risk >= 2.0 <==> reward >= 2.0 * risk) &&
        (reward / risk >= 1.5 <==> reward >= 1.5 * risk) by {
        if risk > 0.0 {
          RatioCompare(reward, risk, 3.0);
          RatioCompare(reward, risk, 2.0);
          RatioCompare(reward, risk, 1.5);
        }
      }
      var reason :=
        if score == 1.0 then ExcellentRiskReward(ratio)
        else if score == 0.7 then GoodRiskReward(ratio)
        else if score == 0.4 then AcceptableRiskReward(ratio)
        else PoorRiskReward(ratio);
      FactorScore(score, 1.0, [reason], score >= 0.5, ratio)
  }

  /** With a positive ATR and a support at or below a positive price, the
      risk is positive, so the ratio is finite. */
  lemma RiskPositive(price: real, atr: real, support: real)
    requires atr > 0.0 && price > 0.0 && 0.0 <= support <= price
    ensures price - Stop(price, atr, support) > 0.0
  {
  }

  // ----- The breakdown -----

  datatype Breakdown = Breakdown(
    trend: FactorScore,
    rsi: FactorScore,
    macd: FactorScore,
    volume: FactorScore,
    pattern: FactorScore,
    support: FactorScore,
    adx: FactorScore,
    sector: FactorScore,
    week52: FactorScore,
    riskReward: FactorScore)

  /** The nine scored factors in the order the total adds them and the
      reasons are gathered; the sector is not among them. */
  function ScoredFactors(b: Breakdown): (fs: seq<FactorScore>)
    ensures |fs| == 9
  {
    [b.trend, b.rsi, b.macd, b.volume, b.pattern, b.support, b.adx, b.week52, b.riskReward]
  }

  /** The maxima of the nine scored factors add up to 9.5. */
  const MaxTotal: real := 1.5 + 1.0 + 1.0 + 1.5 + 1.0 + 1.0 + 1.0 + 0.5 + 1.0

  function Total(b: Breakdown): real {
    b.trend.score + b.rsi.score + b.macd.score + b.volume.score + b.pattern.score
      + b.support.score + b.adx.score + b.week52.score + b.riskReward.score
  }

  /** Every factor within its bounds keeps the total between the volume
      factor's floor of 0.3 and 9.5. */
  lemma TotalBounds(b: Breakdown)
    requires forall f :: f in ScoredFactors(b) ==> Bounded(f)
    requires b.trend.max == 1.5 && b.rsi.max == 1.0 && b.macd.max == 1.0 && b.volume.max == 1.5
    requires b.pattern.max == 1.0 && b.support.max == 1.0 && b.adx.max == 1.0 && b.week52.max == 0.5
    requires b.riskReward.max == 1.0
    requires b.volume.score >= 0.3
    ensures 0.3 <= Total(b) <= MaxTotal && MaxTotal == 9.5
  {
    var fs := ScoredFactors(b);
    assert fs[0] in fs && fs[1] in fs && fs[2] in fs && fs[3] in fs && fs[4] in fs;
    assert fs[5] in fs && fs[6] in fs && fs[7] in fs && fs[8] in fs;
  }
}

=== FILE: indicators.dfy ===
/** The derived indicator readings of services/technicalAnalysis.js: the
    threshold flags computed from the library's RSI, MACD, EMA, ADX,
    Bollinger and ATR series, and the 20-bar volume statistics. */
module Indicators {
  import opened Common
  import opened Bars

  // ----- RSI(14) -----

  datatype RsiReading = RsiReading(
    current: Option<real>,
    previous: Option<real>,
    isOversold: bool,
    isOverbought: bool,
    inSwingZone: bool,
    isRecovering: bool)

  /** Flags on the last two RSI values: oversold below 30, overbought above
      70, the swing zone 40..60 inclusive, and recovering when the RSI has
      just climbed from below 40 to 40 or more. */
  function CalculateRsi(values: seq<real>): (r: RsiReading)
    ensures r.current == Last(values)
    ensures r.inSwingZone <==> |values| >= 1 && 40.0 <= values[|values| - 1] <= 60.0
    ensures r.isRecovering <==> |values| >= 2 && values[|values| - 2] < 40.0 <= values[|values| - 1]
    ensures r.isOversold <==> |values| >= 1 && values[|values| - 1] < 30.0
    ensures r.isOverbought <==> |values| >= 1 && values[|values| - 1] > 70.0
    ensures !(r.isOversold && r.isOverbought)
    ensures r.inSwingZone ==> !r.isOversold && !r.isOverbought
    ensures r.isRecovering ==> !r.isOversold
  {
    var current := Last(values);
    var previous := At(values, |values| - 2);
    RsiReading(
      current,
      previous,
      Lt(current, Some(30.0)),
      Gt(current, Some(70.0)),
      Ge(current, Some(40.0)) && Le(current, Some(60.0)),
      Lt(previous, Some(40.0)) && Ge(current, Some(40.0)))
  }

  /** An RSI of exactly 40 right after 39 is both in the swing zone and recovering. */
  lemma RsiFortyAfterThirtyNine(values: seq<real>)
    requires |values| >= 2 && values[|values| - 2] == 39.0 && values[|values| - 1] == 40.0
    ensures CalculateRsi(values).inSwingZone && CalculateRsi(values).isRecovering
  {
  }

  // ----- MACD(12, 26, 9) -----

  datatype MacdReading = MacdReading(
    macd: real,
    signal: real,
    histogram: real,
    isBullish: bool,
    bullishCrossover: bool,
    bearishCrossover: bool,
    recentBullishCrossover: bool,
    histogramIncreasing: bool)

  /** The MACD line moves from at or below its signal to above it. */
  predicate CrossesUp(prev: MacdPoint, cur: MacdPoint) {
    Le(prev.macd, prev.signal) && Gt(cur.macd, cur.signal)
  }

  /** The MACD line moves from at or above its signal to below it. */
  predicate CrossesDown(prev: MacdPoint, cur: MacdPoint) {
    Ge(prev.macd, prev.signal) && Lt(cur.macd, cur.signal)
  }

  /** `macdValues.slice(-3).some(...)`: an upward cross between consecutive
      elements of the last three. */
  function RecentCrossUp(points: seq<MacdPoint>): bool {
    var w := TakeLast(points, 3);
    (|w| >= 2 && CrossesUp(w[0], w[1])) || (|w| >= 3 && CrossesUp(w[1], w[2]))
  }

  function HistogramOf(p: Option<MacdPoint>): Option<real> {
    if p.Some? then p.value.histogram else None
  }

  function CalculateMacd(points: seq<MacdPoint>): (r: MacdReading)
    ensures r.recentBullishCrossover <==>
      exists k :: 1 <= k < |points| && |points| - 2 <= k && CrossesUp(points[k - 1], points[k])
    ensures r.bullishCrossover ==> r.recentBullishCrossover
    ensures !(r.bullishCrossover && r.bearishCrossover)
    ensures r.bullishCrossover ==> r.isBullish
    ensures |points| == 0 ==> r.macd == 0.0 && r.signal == 0.0 && r.histogram == 0.0 && !r.isBullish
    ensures r.isBullish <==> |points| > 0 && Gt(points[|points| - 1].macd, points[|points| - 1].signal)
    ensures r.bullishCrossover <==> |points| >= 2 && CrossesUp(points[|points| - 2], points[|points| - 1])
    ensures r.bearishCrossover <==> |points| >= 2 && CrossesDown(points[|points| - 2], points[|points| - 1])
    ensures r.histogramIncreasing <==>
      |points| >= 2 && Gt(points[|points| - 1].histogram, points[|points| - 2].histogram)
    ensures |points| > 0 ==>
      r.macd == OrZero(points[|points| - 1].macd) && r.signal == OrZero(points[|points| - 1].signal)
      && r.histogram == OrZero(points[|points| - 1].histogram)
  {
    var current := Last(points);
    var previous := At(points, |points| - 2);
    var both := current.Some? && previous.Some?;
    var w := TakeLast(points, 3);
    assert |w| >= 2 ==> w[|w| - 2] == points[|points| - 2] && w[|w| - 1] == points[|points| - 1];
    MacdReading(
      if current.Some? then OrZero(current.value.macd) else 0.0,
      if current.Some? then OrZero(current.value.signal) else 0.0,
      OrZero(HistogramOf(current)),
      current.Some? && Gt(current.value.macd, current.value.signal),
      both && CrossesUp(previous.value, current.value),
      both && CrossesDown(previous.value, current.value),
      RecentCrossUp(points),
      Gt(HistogramOf(current), HistogramOf(previous)))
  }

  // ----- EMA 9/20/21/50/200 -----

  datatype EmaReading = EmaReading(
    ema9: Option<real>,
    ema20: Option<real>,
    ema21: Option<real>,
    ema50: Option<real>,
    ema200: Option<real>,
    aboveEma9: bool,
    aboveEma20: bool,
    aboveEma21: bool,
    aboveEma50: bool,
    aboveEma200: bool,
    ema9Above21: bool,
    ema9BullishCrossover: bool,
    ema9BearishCrossover: bool,
    recentEma9Crossover: bool,
    ema9Above20: bool,
    ema20Above50: bool,
    ema50Above200: bool,
    distanceFromEma9: Option<real>,
    distanceFromEma21: Option<real>,
    distanceFromEma20: Option<real>,
    distanceFromEma50: Option<real>)

  /** Percentage distance of the price from an EMA, to two decimals; `None`
      stands for the non-finite value JavaScript gets from a missing or zero
      EMA, which fails every later comparison. */
  function DistancePercent(price: real, ema: Option<real>): (r: Option<real>)
    ensures r.Some? <==> Truthy(ema)
    ensures r.Some? && price > ema.value > 0.0 ==> r.value >= 0.0
    ensures r.Some? ==> Abs(r.value - (price - ema.value) / ema.value * 100.0) <= 0.005
  {
    if ema.Some? && ema.value != 0.0 then Some(Round2((price - ema.value) / ema.value * 100.0)) else None
  }

  /** One step of the recent EMA-9/21 crossover scan: an upward cross between
      positions `idx` and `idx + 1`. Both series are read at the same
      position, counted on the EMA-9 series; a 0 entry counts as missing. */
  predicate CrossAt(e9: seq<real>, e21: seq<real>, idx: int) {
    && Truthy(At(e9, idx)) && Truthy(At(e21, idx))
    && Truthy(At(e9, idx + 1)) && Truthy(At(e21, idx + 1))
    && At(e9, idx).value <= At(e21, idx).value
    && At(e9, idx + 1).value > At(e21, idx + 1).value
  }

  /** The loop `for (i = 1; i <= 3; i++)` with `idx = ema9.length - 1 - i`. */
  function RecentEmaCross(e9: seq<real>, e21: seq<real>): (b: bool)
    ensures b <==> exists k :: |e9| - 4 <= k <= |e9| - 2 && CrossAt(e9, e21, k)
  {
    var found := CrossAt(e9, e21, |e9| - 2) || CrossAt(e9, e21, |e9| - 3) || CrossAt(e9, e21, |e9| - 4);
    assert (exists k :: |e9| - 4 <= k <= |e9| - 2 && CrossAt(e9, e21, k)) ==> found by {
      if k :| |e9| - 4 <= k <= |e9| - 2 && CrossAt(e9, e21, k) {
        assert k == |e9| - 2 || k == |e9| - 3 || k == |e9| - 4;
      }
    }
    found
  }

  /** `price > ema[ema.length - 1]`, false on an empty series. */
  function PriceAbove(price: real, ema: seq<real>): (b: bool)
    ensures b <==> |ema| > 0 && price > ema[|ema| - 1]
  {
    Gt(Some(price), Last(ema))
  }

  /** The last value of `fast` is above the last value of `slow`, both present. */
  function EmaAbove(fast: seq<real>, slow: seq<real>): (b: bool)
    ensures b <==> |fast| > 0 && |slow| > 0 && fast[|fast| - 1] > slow[|slow| - 1]
  {
    Gt(Last(fast), Last(slow))
  }

  /** `prevFast <= prevSlow && currentFast > currentSlow`, each series read at its own end. */
  function EmaCrossUp(fast: seq<real>, slow: seq<real>): (b: bool)
    ensures b <==>
      && |fast| >= 2 && |slow| >= 2
      && fast[|fast| - 2] <= slow[|slow| - 2] && fast[|fast| - 1] > slow[|slow| - 1]
  {
    Le(At(fast, |fast| - 2), At(slow, |slow| - 2)) && Gt(Last(fast), Last(slow))
  }

  /** `prevFast >= prevSlow && currentFast < currentSlow`, each series read at its own end. */
  function EmaCrossDown(fast: seq<real>, slow: seq<real>): (b: bool)
    ensures b <==>
      && |fast| >= 2 && |slow| >= 2
      && fast[|fast| - 2] >= slow[|slow| - 2] && fast[|fast| - 1] < slow[|slow| - 1]
  {
    Ge(At(fast, |fast| - 2), At(slow, |slow| - 2)) && Lt(Last(fast), Last(slow))
  }

  /** With the library's own lengths the EMA-21 series is 12 elements shorter
      than the EMA-9 series, so the positions the scan reads on the EMA-21
      series are past its end and the recent-crossover flag never fires. */
  lemma RecentEmaCrossNeedsAlignedLengths(e9: seq<real>, e21: seq<real>)
    requires |e21| + 3 <= |e9|
    ensures !RecentEmaCross(e9, e21)
  {
  }

  function CalculateEmas(closes: seq<real>, lib: LibrarySeries): (r: EmaReading)
    requires |closes| > 0
    ensures r.aboveEma50 <==> |lib.ema50| > 0 && closes[|closes| - 1] > lib.ema50[|lib.ema50| - 1]
    ensures r.aboveEma20 <==> |lib.ema20| > 0 && closes[|closes| - 1] > lib.ema20[|lib.ema20| - 1]
    ensures r.aboveEma9 <==> |lib.ema9| > 0 && closes[|closes| - 1] > lib.ema9[|lib.ema9| - 1]
    ensures r.aboveEma21 <==> |lib.ema21| > 0 && closes[|closes| - 1] > lib.ema21[|lib.ema21| - 1]
    ensures r.aboveEma200 <==> |lib.ema200| > 0 && closes[|closes| - 1] > lib.ema200[|lib.ema200| - 1]
    ensures r.ema9Above21 <==> |lib.ema9| > 0 && |lib.ema21| > 0 && lib.ema9[|lib.ema9| - 1] > lib.ema21[|lib.ema21| - 1]
    ensures r.ema9Above20 <==> |lib.ema9| > 0 && |lib.ema20| > 0 && lib.ema9[|lib.ema9| - 1] > lib.ema20[|lib.ema20| - 1]
    ensures r.ema20Above50 <==> |lib.ema20| > 0 && |lib.ema50| > 0 && lib.ema20[|lib.ema20| - 1] > lib.ema50[|lib.ema50| - 1]
    ensures r.ema50Above200 <==>
      |lib.ema50| > 0 && |lib.ema200| > 0 && lib.ema50[|lib.ema50| - 1] > lib.ema200[|lib.ema200| - 1]
    ensures r.ema9BullishCrossover <==>
      && |lib.ema9| >= 2 && |lib.ema21| >= 2
      && lib.ema9[|lib.ema9| - 2] <= lib.ema21[|lib.ema21| - 2]
      && lib.ema9[|lib.ema9| - 1] > lib.ema21[|lib.ema21| - 1]
    ensures r.ema9BearishCrossover <==>
      && |lib.ema9| >= 2 && |lib.ema21| >= 2
      && lib.ema9[|lib.ema9| - 2] >= lib.ema21[|lib.ema21| - 2]
      && lib.ema9[|lib.ema9| - 1] < lib.ema21[|lib.ema21| - 1]
    ensures |lib.ema200| == 0 ==> r.ema200 == None && !r.aboveEma200 && !r.ema50Above200
    ensures !(r.ema9BullishCrossover && r.ema9BearishCrossover)
    ensures r.ema9BullishCrossover ==> r.ema9Above21
    ensures r.recentEma9Crossover <==> exists k :: |lib.ema9| - 4 <= k <= |lib.ema9| - 2 && CrossAt(lib.ema9, lib.ema21, k)
    ensures r.ema20 == Last(lib.ema20) && r.ema50 == Last(lib.ema50) && r.ema200 == Last(lib.ema200)
    ensures r.ema9 == Last(lib.ema9) && r.ema21 == Last(lib.ema21)
    ensures r.distanceFromEma9 == DistancePercent(closes[|closes| - 1], Last(lib.ema9))
    ensures r.distanceFromEma21 == DistancePercent(closes[|closes| - 1], Last(lib.ema21))
    ensures r.distanceFromEma20 == DistancePercent(closes[|closes| - 1], Last(lib.ema20))
    ensures r.distanceFromEma50 == DistancePercent(closes[|closes| - 1], Last(lib.ema50))
  {
    var price := closes[|closes| - 1];
    EmaReading(
      Last(lib.ema9), Last(lib.ema20), Last(lib.ema21), Last(lib.ema50), Last(lib.ema200),
      PriceAbove(price, lib.ema9),
      PriceAbove(price, lib.ema20),
      PriceAbove(price, lib.ema21),
      PriceAbove(price, lib.ema50),
      PriceAbove(price, lib.ema200),
      EmaAbove(lib.ema9, lib.ema21),
      EmaCrossUp(lib.ema9, lib.ema21),
      EmaCrossDown(lib.ema9, lib.ema21),
      RecentEmaCross(lib.ema9, lib.ema21),
      EmaAbove(lib.ema9, lib.ema20),
      EmaAbove(lib.ema20, lib.ema50),
      EmaAbove(lib.ema50, lib.ema200),
      DistancePercent(price, Last(lib.ema9)),
      DistancePercent(price, Last(lib.ema21)),
      DistancePercent(price, Last(lib.ema20)),
      DistancePercent(price, Last(lib.ema50)))
  }

  // ----- ADX(14) -----

  datatype AdxReading = AdxReading(
    adx: real,
    pdi: real,
    mdi: real,
    isTrending: bool,
    isStrongTrend: bool,
    isBullishTrend: bool,
    trendStrength: Strength)

  /** `current?.x || 0` for the three values, and the flags compare the
      last point, so with no point every flag is false. */
  function CalculateAdx(points: seq<AdxPoint>): (r: AdxReading)
    ensures r.isStrongTrend ==> r.isTrending
    ensures r.isTrending <==> |points| > 0 && points[|points| - 1].adx > 25.0
    ensures r.isStrongTrend <==> |points| > 0 && points[|points| - 1].adx > 40.0
    ensures |points| > 0 ==>
      var last := points[|points| - 1];
      r.adx == last.adx && r.pdi == last.pdi && r.mdi == last.mdi
    ensures |points| == 0 ==> r.adx == 0.0 && r.pdi == 0.0 && r.mdi == 0.0
    ensures r.isBullishTrend <==> |points| > 0 && points[|points| - 1].pdi > points[|points| - 1].mdi
    ensures r.trendStrength == Strong <==> r.isStrongTrend
    ensures r.trendStrength == Moderate <==> r.isTrending && !r.isStrongTrend
  {
    var current := Last(points);
    var adx := if current.Some? then Some(current.value.adx) else None;
    var pdi := if current.Some? then Some(current.value.pdi) else None;
    var mdi := if current.Some? then Some(current.value.mdi) else None;
    AdxReading(
      OrZero(adx), OrZero(pdi), OrZero(mdi),
      Gt(adx, Some(25.0)),
      Gt(adx, Some(40.0)),
      Gt(pdi, mdi),
      if Gt(adx, Some(40.0)) then Strong else if Gt(adx, Some(25.0)) then Moderate else Weak)
  }

  // ----- Volume -----

  datatype VolumeSignal = StrongVolume | ModerateVolume | WeakVolume

  /** `exactRatio` is the unrounded ratio the flags are computed from;
      `ratio` is the two-decimal figure the reading reports. `None` stands
      for JavaScript's NaN. */
  datatype VolumeAnalysis = VolumeAnalysis(
    current: Option<real>,
    average20: Option<real>,
    exactRatio: Option<real>,
    ratio: Option<real>,
    isAboveAverage: bool,
    isHighVolume: bool,
    isVeryHighVolume: bool,
    isIncreasing: bool,
    signal: VolumeSignal)

  /** The three volume flags are nested. */
  predicate NestedFlags(v: VolumeAnalysis) {
    (v.isVeryHighVolume ==> v.isHighVolume) && (v.isHighVolume ==> v.isAboveAverage)
  }

  function RatioRounded(x: Option<real>): Option<real> {
    if x.Some? then Some(Round2(x.value)) else None
  }

  /** The mean of non-negative values is non-negative, and zero only when
      the last of them is zero. */
  lemma MeanOfNonNegative(s: seq<real>)
    requires |s| > 0 && forall i :: 0 <= i < |s| ==> s[i] >= 0.0
    ensures Mean(s) >= 0.0
    ensures Mean(s) == 0.0 ==> s[|s| - 1] == 0.0
  {
    SumNonNegative(s);
    SumBoundsTerms(s);
    var n := |s| as real;
    DivSign(Sum(s), n);
    assert Mean(s) * n == Sum(s);
  }

  /** The mean of the last 20 volumes (of all of them when there are fewer). */
  function Average20(volumes: seq<real>): (a: Option<real>)
    requires forall i :: 0 <= i < |volumes| ==> volumes[i] >= 0.0
    ensures a.Some? <==> |volumes| > 0
    ensures a.Some? ==> a.value == Mean(TakeLast(volumes, 20))
    ensures a.Some? ==> a.value >= 0.0
    ensures a.Some? && a.value == 0.0 ==> volumes[|volumes| - 1] == 0.0
  {
    var recent := TakeLast(volumes, 20);
    if |recent| == 0 then None
    else
      MeanOfNonNegative(recent);
      Some(Mean(recent))
  }

  /** `current / average`, `None` when the average is missing or zero. */
  function RatioToAverage(current: real, average: Option<real>): (x: Option<real>)
    requires current >= 0.0 && (average.Some? ==> average.value >= 0.0)
    ensures x.Some? <==> average.Some? && average.value > 0.0
    ensures x.Some? ==> x.value == Ratio(current, average.value) && x.value >= 0.0
  {
    if average.Some? && average.value != 0.0 then
      DivSign(current, average.value);
      Some(Ratio(current, average.value))
    else None
  }

  /** Current volume over the 20-bar mean; `None` is the NaN of an all-zero window. */
  function ExactVolumeRatio(volumes: seq<real>): (x: Option<real>)
    requires forall i :: 0 <= i < |volumes| ==> volumes[i] >= 0.0
    ensures x.Some? ==> Average20(volumes).Some? && Average20(volumes).value > 0.0
                        && x.value == Ratio(volumes[|volumes| - 1], Average20(volumes).value)
    ensures x.None? ==> |volumes| == 0 || volumes[|volumes| - 1] == 0.0
    ensures x.Some? ==> x.value >= 0.0
  {
    if |volumes| == 0 then None
    else
      var current, average := volumes[|volumes| - 1], Average20(volumes);
      RatioToAverage(current, average)
  }

  /** Current volume against the mean of the last 20 volumes. */
  function AnalyzeVolume(volumes: seq<real>): (v: VolumeAnalysis)
    requires forall i :: 0 <= i < |volumes| ==> volumes[i] >= 0.0
    ensures NestedFlags(v)
    ensures v.average20 == Average20(volumes)
    ensures v.exactRatio == ExactVolumeRatio(volumes)
    ensures v.isAboveAverage <==> v.exactRatio.Some? && v.exactRatio.value > 1.2
    ensures v.isHighVolume <==> v.exactRatio.Some? && v.exactRatio.value > 1.5
    ensures v.isVeryHighVolume <==> v.exactRatio.Some? && v.exactRatio.value > 2.0
    ensures v.ratio == RatioRounded(v.exactRatio)
    ensures v.signal == StrongVolume <==> v.isHighVolume
    ensures v.signal == ModerateVolume <==> v.isAboveAverage && !v.isHighVolume
  {
    var current := Last(volumes);
    var previous := At(volumes, |volumes| - 2);
    var exact := ExactVolumeRatio(volumes);
    VolumeAnalysis(
      current,
      Average20(volumes),
      exact,
      RatioRounded(exact),
      Gt(exact, Some(1.2)),
      Gt(exact, Some(1.5)),
      Gt(exact, Some(2.0)),
      Gt(current, previous),
      if Gt(exact, Some(1.5)) then StrongVolume else if Gt(exact, Some(1.2)) then ModerateVolume else WeakVolume)
  }

  // ----- Bollinger Bands(20, 2) -----

  datatype BandReading = BandReading(
    upper: Option<real>,
    middle: Option<real>,
    lower: Option<real>,
    bandwidth: Option<real>,
    nearLower: bool,
    nearUpper: bool,
    percentB: Option<real>)

  lemma PercentWithinBands(price: real, lower: real, width: real)
    requires width > 0.0 && lower <= price <= lower + width
    ensures 0.0 <= Round2((price - lower) / width * 100.0) <= 100.0
  {
    var x := (price - lower) / width * 100.0;
    assert 0.0 <= (price - lower) / width <= 1.0;
    Round2Monotone(0.0, x);
    Round2Monotone(x, 100.0);
  }

  /** `(part / whole * 100).toFixed(2)`; `None` for the non-finite quotient of a zero whole. */
  function PercentShown(part: real, whole: real): (r: Option<real>)
    ensures r.Some? <==> whole != 0.0
    ensures r.Some? ==> Abs(r.value - part / whole * 100.0) <= 0.005
  {
    if whole != 0.0 then Some(Round2(part / whole * 100.0)) else None
  }

  function CalculateBands(closes: seq<real>, points: seq<BandPoint>): (r: BandReading)
    requires |closes| > 0
    ensures r.nearLower <==> |points| > 0 && closes[|closes| - 1] <= points[|points| - 1].lower * 1.02
    ensures r.nearUpper <==> |points| > 0 && closes[|closes| - 1] >= points[|points| - 1].upper * 0.98
    ensures r.upper.Some? <==> |points| > 0
    ensures |points| > 0 ==>
      && r.upper == Some(points[|points| - 1].upper) && r.middle == Some(points[|points| - 1].middle)
      && r.lower == Some(points[|points| - 1].lower)
    ensures |points| > 0 ==>
      var b := points[|points| - 1];
      && r.bandwidth == PercentShown(b.upper - b.lower, b.middle)
      && r.percentB == PercentShown(closes[|closes| - 1] - b.lower, b.upper - b.lower)
    ensures |points| > 0 && points[|points| - 1].lower <= closes[|closes| - 1] <= points[|points| - 1].upper
            && points[|points| - 1].lower < points[|points| - 1].upper
            ==> r.percentB.Some? && 0.0 <= r.percentB.value <= 100.0
  {
    var price := closes[|closes| - 1];
    var current := Last(points);
    if current.None? then
      BandReading(None, None, None, None, false, false, None)
    else
      var b := current.value;
      var width := b.upper - b.lower;
      var percentB := PercentShown(price - b.lower, width);
      assert width > 0.0 && b.lower <= price <= b.upper ==> 0.0 <= percentB.value <= 100.0 by {
        if width > 0.0 && b.lower <= price <= b.upper {
          PercentWithinBands(price, b.lower, width);
        }
      }
      BandReading(
        Some(b.upper), Some(b.middle), Some(b.lower),
        PercentShown(width, b.middle),
        price <= b.lower * 1.02,
        price >= b.upper * 0.98,
        percentB)
  }

  // ----- ATR(14) -----

  datatype AtrReading = AtrReading(
    value: Option<real>,
    percent: Option<real>,
    suggestedStopLoss: Option<real>,
    suggestedTarget: Option<real>)

  /** The suggested stop sits two ATRs below the price and the suggested
      target three ATRs above it, so the suggested reward is 1.5 times the
      suggested risk. */
  function CalculateAtr(closes: seq<real>, values: seq<real>): (r: AtrReading)
    requires |closes| > 0 && closes[|closes| - 1] > 0.0
    ensures r.value == Last(values)
    ensures r.suggestedStopLoss.Some? <==> |values| > 0
    ensures r.suggestedTarget.Some? <==> |values| > 0
    ensures |values| > 0 ==>
      && r.suggestedStopLoss.value == closes[|closes| - 1] - 2.0 * values[|values| - 1]
      && r.suggestedTarget.value == closes[|closes| - 1] + 3.0 * values[|values| - 1]
    ensures |values| > 0 ==>
      r.suggestedTarget.value - closes[|closes| - 1] == 1.5 * (closes[|closes| - 1] - r.suggestedStopLoss.value)
    ensures |values| > 0 ==> r.percent.Some? && Abs(r.percent.value - Percent(values[|values| - 1], closes[|closes| - 1])) <= 0.005
    ensures |values| > 0 && values[|values| - 1] > 0.0 ==>
      r.suggestedStopLoss.value < closes[|closes| - 1] < r.suggestedTarget.value
  {
    var price := closes[|closes| - 1];
    var atr := Last(values);
    if atr.None? then AtrReading(None, None, None, None)
    else AtrReading(atr, Some(Round2(atr.value / price * 100.0)), Some(price - atr.value * 2.0), Some(price + atr.value * 3.0))
  }
}

=== FILE: levels.dfy ===
/** Support and resistance from the swing points of the whole series. */
module Levels {
  import opened Common
  import opened Bars
  import opened Sorting
  import opened Swings

  datatype Levels = Levels(
    nearestSupport: real,
    nearestResistance: real,
    supportLevels: seq<real>,     // at most three, nearest first
    resistanceLevels: seq<real>,  // at most three, nearest first
    nearSupport: bool,
    distanceToSupport: real,      // percent of the price, two decimals
    distanceToResistance: real)   // percent of the price, two decimals

  /** The prices of the strict swing lows of the series. */
  function SwingLows(bars: seq<Bar>): seq<real> {
    Prices(Pivots(Lows(bars), StrictLow))
  }

  /** The prices of the strict swing highs of the series. */
  function SwingHighs(bars: seq<Bar>): seq<real> {
    Prices(Pivots(Highs(bars), StrictHigh))
  }

  /** `xs.filter(x => x < p)`. */
  function Below(xs: seq<real>, p: real): (r: seq<real>)
    ensures forall x :: x in r <==> x in xs && x < p
    ensures forall x :: multiset(r)[x] == if x < p then multiset(xs)[x] else 0
  {
    if |xs| == 0 then []
    else
      var rest := Below(xs[1..], p);
      assert forall x :: x in xs <==> x == xs[0] || x in xs[1..];
      assert xs == [xs[0]] + xs[1..];
      if xs[0] < p then [xs[0]] + rest else rest
  }

  /** `xs.filter(x => x > p)`. */
  function Above(xs: seq<real>, p: real): (r: seq<real>)
    ensures forall x :: x in r <==> x in xs && x > p
    ensures forall x :: multiset(r)[x] == if x > p then multiset(xs)[x] else 0
  {
    if |xs| == 0 then []
    else
      var rest := Above(xs[1..], p);
      assert forall x :: x in xs <==> x == xs[0] || x in xs[1..];
      assert xs == [xs[0]] + xs[1..];
      if xs[0] > p then [xs[0]] + rest else rest
  }

  /** Membership survives a sort. */
  lemma SortedMembers(s: seq<real>, r: seq<real>)
    requires multiset(r) == multiset(s)
    ensures forall x :: x in r <==> x in s
  {
    forall x ensures x in r <==> x in s {
      assert x in r <==> x in multiset(r);
      assert x in s <==> x in multiset(s);
    }
  }

  /** The swing lows below the price, highest first. */
  function SupportLevels(lows: seq<real>, price: real): (s: seq<real>)
    ensures forall i, j :: 0 <= i < j < |s| ==> s[i] >= s[j]
    ensures forall x :: x in s <==> x in lows && x < price
    ensures multiset(s) == multiset(Below(lows, price))
  {
    var s := SortNumbersDesc(Below(lows, price));
    SortedMembers(Below(lows, price), s);
    s
  }

  /** The swing highs above the price, lowest first. */
  function ResistanceLevels(highs: seq<real>, price: real): (s: seq<real>)
    ensures forall i, j :: 0 <= i < j < |s| ==> s[i] <= s[j]
    ensures forall x :: x in s <==> x in highs && x > price
    ensures multiset(s) == multiset(Above(highs, price))
  {
    var s := SortAsc(Above(highs, price));
    SortedMembers(Above(highs, price), s);
    s
  }

  /** The head of a list sorted highest first is its largest member. */
  lemma FirstIsHighest(s: seq<real>, x: real)
    requires forall i, j :: 0 <= i < j < |s| ==> s[i] >= s[j]
    requires x in s
    ensures s[0] >= x
  {
    var k :| 0 <= k < |s| && s[k] == x;
  }

  /** The head of a list sorted lowest first is its smallest member. */
  lemma FirstIsLowest(s: seq<real>, x: real)
    requires forall i, j :: 0 <= i < j < |s| ==> s[i] <= s[j]
    requires x in s
    ensures s[0] <= x
  {
    var k :| 0 <= k < |s| && s[k] == x;
  }

  /** `supportLevels[0] || lastLow`: the highest swing low below the price
      when there is a positive one, the last bar's low otherwise. */
  function NearestSupport(lows: seq<real>, price: real, lastLow: real): (s: real)
    requires forall x :: x in lows ==> x >= 0.0
    ensures (exists x :: x in lows && 0.0 < x < price) ==>
      s in lows && s < price && forall x :: x in lows && x < price ==> x <= s
    ensures !(exists x :: x in lows && 0.0 < x < price) ==> s == lastLow
  {
    var levels := SupportLevels(lows, price);
    if |levels| > 0 && levels[0] != 0.0 then
      assert levels[0] in levels;
      assert forall x :: x in lows && x < price ==> x <= levels[0] by {
        forall x | x in lows && x < price ensures x <= levels[0] {
          FirstIsHighest(levels, x);
        }
      }
      levels[0]
    else
      assert forall x :: x in lows && x < price ==> x <= 0.0 by {
        forall x | x in lows && x < price ensures x <= 0.0 {
          FirstIsHighest(levels, x);
        }
      }
      lastLow
  }

  /** `resistanceLevels[0] || lastHigh`: the lowest swing high above a
      non-negative price, the last bar's high when there is none. */
  function NearestResistance(highs: seq<real>, price: real, lastHigh: real): (s: real)
    requires price >= 0.0
    ensures (exists x :: x in highs && x > price) ==>
      s in highs && s > price && forall x :: x in highs && x > price ==> s <= x
    ensures !(exists x :: x in highs && x > price) ==> s == lastHigh
  {
    var levels := ResistanceLevels(highs, price);
    assert |levels| > 0 ==> levels[0] in levels && levels[0] > price;
    if |levels| > 0 && levels[0] != 0.0 then
      assert forall x :: x in highs && x > price ==> levels[0] <= x by {
        forall x | x in highs && x > price ensures levels[0] <= x {
          FirstIsLowest(levels, x);
        }
      }
      levels[0]
    else
      lastHigh
  }

  /** Swing lows are lows of the series, so they are never negative. */
  lemma SwingLowsNonNegative(bars: seq<Bar>)
    requires WellFormed(bars)
    ensures forall x :: x in SwingLows(bars) ==> x >= 0.0
  {
    forall x | x in SwingLows(bars) ensures x >= 0.0 {
      PivotPrices(Lows(bars), StrictLow, x);
      var j :| IsPivot(Lows(bars), StrictLow, j) && Lows(bars)[j] == x;
      assert WellFormedBar(bars[j]);
    }
  }

  /** `(a / price) * 100`, to two decimals. */
  function PercentOfPrice(a: real, price: real): (r: real)
    requires price > 0.0
    ensures a >= 0.0 ==> r >= 0.0
    ensures Abs(r - a / price * 100.0) <= 0.005
  {
    assert a >= 0.0 ==> a / price >= 0.0 by { if a >= 0.0 { DivSign(a, price); } }
    Round2(a / price * 100.0)
  }

  /** The shown distance lies within half a hundredth of the exact
      percentage. */
  lemma PercentOfPriceValue(a: real, price: real)
    requires price > 0.0
    ensures Abs(PercentOfPrice(a, price) - Percent(a, price)) <= 0.005
  {
    assert Percent(a, price) == a / price * 100.0;
  }

  /** The price is within 2% above the support. */
  function NearSupport(price: real, support: real): (b: bool)
    requires price > 0.0
    ensures b <==> price - support < 0.02 * price
  {
    assert (price - support) / price * price == price - support by { DivMulCancel(price - support, price); }
    (price - support) / price < 0.02
  }

  /** `supportLevels.slice(0, 3)`: the three highest swing lows below the price. */
  function NearestSupports(lows: seq<real>, price: real): (r: seq<real>)
    ensures r == Take(SupportLevels(lows, price), 3)
    ensures |r| <= 3
    ensures forall i, j :: 0 <= i < j < |r| ==> r[i] >= r[j]
    ensures forall x :: x in r ==> x in lows && x < price
  {
    Take(SupportLevels(lows, price), 3)
  }

  /** `resistanceLevels.slice(0, 3)`: the three lowest swing highs above the price. */
  function NearestResistances(highs: seq<real>, price: real): (r: seq<real>)
    ensures r == Take(ResistanceLevels(highs, price), 3)
    ensures |r| <= 3
    ensures forall i, j :: 0 <= i < j < |r| ==> r[i] <= r[j]
    ensures forall x :: x in r ==> x in highs && x > price
  {
    Take(ResistanceLevels(highs, price), 3)
  }

  /** The levels around `price` given the swing prices and the last bar's
      low and high. */
  function Assemble(lows: seq<real>, highs: seq<real>, price: real, lastLow: real, lastHigh: real): (r: Levels)
    requires forall x :: x in lows ==> x >= 0.0
    requires 0.0 <= lastLow <= price <= lastHigh && price > 0.0
    ensures (exists x :: x in lows && 0.0 < x < price) ==>
      r.nearestSupport in lows && r.nearestSupport < price && forall x :: x in lows && x < price ==> x <= r.nearestSupport
    ensures !(exists x :: x in lows && 0.0 < x < price) ==> r.nearestSupport == lastLow
    ensures (exists x :: x in highs && x > price) ==>
      r.nearestResistance in highs && r.nearestResistance > price && forall x :: x in highs && x > price ==> r.nearestResistance <= x
    ensures !(exists x :: x in highs && x > price) ==> r.nearestResistance == lastHigh
    ensures 0.0 <= r.nearestSupport <= price <= r.nearestResistance
    ensures |r.supportLevels| <= 3 && |r.resistanceLevels| <= 3
    ensures forall i, j :: 0 <= i < j < |r.supportLevels| ==> r.supportLevels[i] >= r.supportLevels[j]
    ensures forall i, j :: 0 <= i < j < |r.resistanceLevels| ==> r.resistanceLevels[i] <= r.resistanceLevels[j]
    ensures forall x :: x in r.supportLevels ==> x in lows && x < price
    ensures forall x :: x in r.resistanceLevels ==> x in highs && x > price
    ensures r.nearSupport <==> price - r.nearestSupport < 0.02 * price
    ensures r.distanceToSupport >= 0.0 && r.distanceToResistance >= 0.0
    ensures r.supportLevels == Take(SupportLevels(lows, price), 3)
    ensures r.resistanceLevels == Take(ResistanceLevels(highs, price), 3)
  {
    var supports := NearestSupports(lows, price);
    var resistances := NearestResistances(highs, price);
    var support := NearestSupport(lows, price, lastLow);
    var resistance := NearestResistance(highs, price, lastHigh);
    Levels(
      support,
      resistance,
      supports,
      resistances,
      NearSupport(price, support),
      PercentOfPrice(price - support, price),
      PercentOfPrice(resistance - price, price))
  }

  /** Support and resistance of the series: the nearest swing levels on
      either side of the last close, up to three of each. */
  function FindSupportResistance(bars: seq<Bar>): (r: Levels)
    requires |bars| > 0 && WellFormed(bars)
    ensures var price := bars[|bars| - 1].close;
      && ((exists x :: x in SwingLows(bars) && 0.0 < x < price) ==>
            && r.nearestSupport in SwingLows(bars) && r.nearestSupport < price
            && forall x :: x in SwingLows(bars) && x < price ==> x <= r.nearestSupport)
      && (!(exists x :: x in SwingLows(bars) && 0.0 < x < price) ==> r.nearestSupport == bars[|bars| - 1].low)
    ensures var price := bars[|bars| - 1].close;
      && ((exists x :: x in SwingHighs(bars) && x > price) ==>
            && r.nearestResistance in SwingHighs(bars) && r.nearestResistance > price
            && forall x :: x in SwingHighs(bars) && x > price ==> r.nearestResistance <= x)
      && (!(exists x :: x in SwingHighs(bars) && x > price) ==> r.nearestResistance == bars[|bars| - 1].high)
    ensures 0.0 <= r.nearestSupport <= bars[|bars| - 1].close <= r.nearestResistance
    ensures |r.supportLevels| <= 3 && |r.resistanceLevels| <= 3
    ensures forall i, j :: 0 <= i < j < |r.supportLevels| ==> r.supportLevels[i] >= r.supportLevels[j]
    ensures forall i, j :: 0 <= i < j < |r.resistanceLevels| ==> r.resistanceLevels[i] <= r.resistanceLevels[j]
    ensures forall x :: x in r.supportLevels ==> x in SwingLows(bars) && x < bars[|bars| - 1].close
    ensures forall x :: x in r.resistanceLevels ==> x in SwingHighs(bars) && x > bars[|bars| - 1].close
    ensures r.nearSupport <==> bars[|bars| - 1].close - r.nearestSupport < 0.02 * bars[|bars| - 1].close
    ensures r.distanceToSupport >= 0.0 && r.distanceToResistance >= 0.0
    ensures r.supportLevels == Take(SupportLevels(SwingLows(bars), bars[|bars| - 1].close), 3)
    ensures r.resistanceLevels == Take(ResistanceLevels(SwingHighs(bars), bars[|bars| - 1].close), 3)
    // The link to `Assemble` for the facts stated there per side.
    ensures forall x :: x in SwingLows(bars) ==> x >= 0.0
    ensures var last := bars[|bars| - 1];
      r == Assemble(SwingLows(bars), SwingHighs(bars), last.close, last.low, last.high)
  {
    var last := bars[|bars| - 1];
    assert WellFormedBar(last);
    SwingLowsNonNegative(bars);
    Assemble(SwingLows(bars), SwingHighs(bars), last.close, last.low, last.high)
  }

  /** The support side: the nearest support as `NearestSupport` defines it,
      and its distance as a percent of the price. */
  lemma SupportSide(lows: seq<real>, highs: seq<real>, price: real, lastLow: real, lastHigh: real)
    requires forall x :: x in lows ==> x >= 0.0
    requires 0.0 <= lastLow <= price <= lastHigh && price > 0.0
    ensures var r, s := Assemble(lows, highs, price, lastLow, lastHigh), NearestSupport(lows, price, lastLow);
      && r.nearestSupport == s
      && r.distanceToSupport == PercentOfPrice(price - s, price)
  {
  }

  /** The resistance side: the nearest resistance as `NearestResistance`
      defines it, and its distance as a percent of the price. */
  lemma ResistanceSide(lows: seq<real>, highs: seq<real>, price: real, lastLow: real, lastHigh: real)
    requires forall x :: x in lows ==> x >= 0.0
    requires 0.0 <= lastLow <= price <= lastHigh && price > 0.0
    ensures var r, s := Assemble(lows, highs, price, lastLow, lastHigh), NearestResistance(highs, price, lastHigh);
      && r.nearestResistance == s
      && r.distanceToResistance == PercentOfPrice(s - price, price)
  {
  }
}

=== FILE: patterns.dfy ===
/** The swing-trading chart patterns of services/technicalAnalysis.js:
    flag/pennant, ascending and symmetrical triangles, double bottom and
    double top, and the consolidation breakout. */
module SwingPatterns {
  import opened Common
  import opened Bars
  import opened Swings
  import opened Poles

  datatype SwingKind =
    | FlagPennant
    | AscendingTriangle
    | SymmetricalTriangle
    | DoubleBottom
    | DoubleTop
    | ConsolidationBreakout

  /** One detected pattern; the optional prices are present only on the
      kinds that report them. */
  datatype SwingPattern = SwingPattern(
    kind: SwingKind,
    bias: Bias,
    strength: Strength,
    isBreakout: bool,
    target: Option<real>,
    neckline: Option<real>,
    rangeHigh: Option<real>,
    rangeLow: Option<real>)

  // ----- Flag / pennant -----

  /** A range whose width is under `pct` percent of its low. */
  predicate TightRange(high: real, low: real, pct: real) {
    (high - low) * 100.0 < pct * low
  }

  /** The values stay within `pct` percent of their lowest. */
  predicate WithinPercent(xs: seq<real>, pct: real)
    requires |xs| > 0
  {
    TightRange(SeqMax(xs), SeqMin(xs), pct)
  }

  /** First of the (up to ten) pole sessions whose volume is averaged. */
  function PoleVolumeStart(e: nat): nat {
    if e >= 10 then e - 10 else 0
  }

  /** Volume since the pole's end averages under 70% of the pole's. */
  predicate VolumeDriesUp(volumes: seq<real>, e: nat)
    requires 0 < e < |volumes|
  {
    Mean(volumes[e..]) < Mean(volumes[PoleVolumeStart(e)..e]) * 0.7
  }

  /** `(high - low) / low * 100` for a positive low. */
  function RangePercent(high: real, low: real): (r: real)
    requires low > 0.0
    ensures r < 8.0 <==> TightRange(high, low, 8.0)
    ensures r < 6.0 <==> TightRange(high, low, 6.0)
    ensures r < 5.0 <==> TightRange(high, low, 5.0)
  {
    PercentCompare(high - low, low, 8.0);
    PercentCompare(high - low, low, 6.0);
    PercentCompare(high - low, low, 5.0);
    Percent(high - low, low)
  }

  /** Positive values have a positive minimum. */
  lemma MinPositive(xs: seq<real>)
    requires |xs| > 0 && forall i :: 0 <= i < |xs| ==> xs[i] > 0.0
    ensures SeqMin(xs) > 0.0
  {
  }

  lemma LastAtMostMax(xs: seq<real>)
    requires |xs| > 0
    ensures xs[|xs| - 1] <= SeqMax(xs)
  {
    assert xs[|xs| - 1] in xs;
  }

  /** The flag once its pole ends at `e`: the closes from `e` on must stay
      within 8% of their low, and either within 5% or on drying volume. The
      consolidation includes the last close, so the price can never be
      above the consolidation high and the breakout flag is never set. */
  function FlagAfterPole(closes: seq<real>, volumes: seq<real>, e: nat): (r: Option<SwingPattern>)
    requires |volumes| == |closes| && 5 <= e && e + 3 <= |closes|
    requires forall i :: 0 <= i < |closes| ==> closes[i] > 0.0
    ensures r.Some? <==>
      WithinPercent(closes[e..], 8.0) && (VolumeDriesUp(volumes, e) || WithinPercent(closes[e..], 5.0))
    ensures r.Some? ==> r.value.kind == FlagPennant && r.value.bias == Bullish && r.value.strength == Strong
    ensures r.Some? ==> !r.value.isBreakout
    ensures r.Some? ==> var price := closes[|closes| - 1];
      r.value.target == Some(price + (price - closes[e - 5]) * 0.8)
  {
    var cons := closes[e..];
    MinPositive(cons);
    var range := RangePercent(SeqMax(cons), SeqMin(cons));
    var avgCons := Mean(volumes[e..]);
    var dryUp := avgCons < Mean(volumes[PoleVolumeStart(e)..e]) * 0.7;
    var price := cons[|cons| - 1];
    LastAtMostMax(cons);
    var volumeSpike := volumes[|volumes| - 1] > avgCons * 1.5;
    var isBreakout := price > SeqMax(cons) && volumeSpike;
    if range < 8.0 && (dryUp || range < 5.0) then
      Some(SwingPattern(FlagPennant, Bullish, Strong, isBreakout, Some(price + (price - closes[e - 5]) * 0.8), None, None, None))
    else None
  }

  /** Needs twenty bars and a pole; the flag is then judged after the pole. */
  function DetectFlag(bars: seq<Bar>): (r: Option<SwingPattern>)
    requires WellFormed(bars)
    ensures |bars| < 20 ==> r.None?
    ensures r.Some? ==> |bars| >= 20 && FlagPole(Closes(bars)).Some?
    ensures |bars| >= 20 && FlagPole(Closes(bars)).Some? ==>
      r == FlagAfterPole(Closes(bars), Volumes(bars), FlagPole(Closes(bars)).value.end)
    ensures r.Some? ==> !r.value.isBreakout
  {
    if |bars| < 20 then None
    else
      ClosesPositive(bars);
      var pole := FlagPole(Closes(bars));
      if pole.None? then None
      else if |bars| - pole.value.end < 3 then None
      else FlagAfterPole(Closes(bars), Volumes(bars), pole.value.end)
  }

  // ----- Triangles -----

  /** The last swing high is within 2% of the first. */
  predicate FlatHighs(sh: seq<Pivot>)
    requires |sh| >= 2
  {
    Abs(sh[|sh| - 1].price - sh[0].price) < 0.02 * sh[0].price
  }

  /** The last swing low is more than 2% above the first. */
  predicate RisingLows(sl: seq<Pivot>)
    requires |sl| >= 2
  {
    sl[|sl| - 1].price > sl[0].price * 1.02
  }

  /** Lower highs and higher-or-equal lows. */
  predicate Converging(sh: seq<Pivot>, sl: seq<Pivot>)
    requires |sh| >= 2 && |sl| >= 2
  {
    sh[|sh| - 1].price < sh[0].price && sl[|sl| - 1].price >= sl[0].price
  }

  /** All values positive. */
  predicate Positive(xs: seq<real>) {
    forall i :: 0 <= i < |xs| ==> xs[i] > 0.0
  }

  /** `Math.abs(last - first) / first < 0.02` on the swing highs. */
  function FlatHighsTest(sh: seq<Pivot>): (b: bool)
    requires |sh| >= 2 && sh[0].price > 0.0
    ensures b <==> FlatHighs(sh)
  {
    var first, last := sh[0].price, sh[|sh| - 1].price;
    RatioCompare(Abs(last - first), first, 0.02);
    Ratio(Abs(last - first), first) < 0.02
  }

  /** The highest swing-high price. */
  function TriangleHigh(sh: seq<Pivot>): (top: real)
    requires |sh| > 0
    ensures forall k :: 0 <= k < |sh| ==> sh[k].price <= top
    ensures top == SeqMax(Prices(sh))
  {
    var top := SeqMax(Prices(sh));
    assert forall k :: 0 <= k < |sh| ==> sh[k].price <= top by {
      forall k | 0 <= k < |sh| ensures sh[k].price <= top {
        assert Prices(sh)[k] in Prices(sh);
      }
    }
    top
  }

  lemma PivotPricesPositive(xs: seq<real>, rule: PivotRule)
    requires Positive(xs)
    ensures forall k :: 0 <= k < |Pivots(xs, rule)| ==> Pivots(xs, rule)[k].price > 0.0
  {
    PivotsSpec(xs, rule);
  }

  /** The triangle verdict on swing highs `sh` and swing lows `sl`. */
  function TriangleOf(sh: seq<Pivot>, sl: seq<Pivot>, price: real, volumeSpike: bool): (r: Option<SwingPattern>)
    requires |sh| >= 2 && |sl| >= 2 && sh[0].price > 0.0
    ensures r.Some? <==> (FlatHighs(sh) && RisingLows(sl)) || Converging(sh, sl)
    ensures r.Some? ==> (r.value.kind == AscendingTriangle <==> FlatHighs(sh) && RisingLows(sl))
    ensures r.Some? ==> r.value.kind == AscendingTriangle || r.value.kind == SymmetricalTriangle
    ensures r.Some? && r.value.kind == AscendingTriangle ==>
      var top := SeqMax(Prices(sh));
      r.value.bias == Bullish && r.value.strength == Strong && r.value.target == Some(top + (top - sl[0].price))
    ensures r.Some? && r.value.kind == SymmetricalTriangle ==>
      r.value.bias == Neutral && r.value.strength == Moderate && r.value.target.None?
    ensures r.Some? ==> (r.value.isBreakout <==> volumeSpike && forall k :: 0 <= k < |sh| ==> price > sh[k].price)
  {
    var flatHighs := FlatHighsTest(sh);
    var top := TriangleHigh(sh);
    var isBreakout := price > top && volumeSpike;
    assert (forall k :: 0 <= k < |sh| ==> price > sh[k].price) ==> price > top by {
      var k :| 0 <= k < |Prices(sh)| && Prices(sh)[k] == top;
    }
    if flatHighs && RisingLows(sl) then
      Some(SwingPattern(AscendingTriangle, Bullish, Strong, isBreakout, Some(top + (top - sl[0].price)), None, None, None))
    else if Converging(sh, sl) then
      Some(SwingPattern(SymmetricalTriangle, Neutral, Moderate, isBreakout, None, None, None, None))
    else None
  }

  /** The triangle detector on its window (the last twenty bars, or all of
      them): at least two strict swing highs and two strict swing lows;
      flat highs over rising lows make an ascending triangle, otherwise
      lower highs over higher-or-equal lows a symmetrical one. A breakout
      closes above every swing high on more than 1.5 times the window's
      earlier average volume. */
  function TriangleFrom(highs: seq<real>, lows: seq<real>, closes: seq<real>, volumes: seq<real>): (r: Option<SwingPattern>)
    requires |lows| == |highs| == |closes| == |volumes| >= 2 && Positive(highs)
    ensures var sh, sl := Pivots(highs, StrictHigh), Pivots(lows, StrictLow);
      r.Some? <==> |sh| >= 2 && |sl| >= 2 && ((FlatHighs(sh) && RisingLows(sl)) || Converging(sh, sl))
    ensures var sh, sl := Pivots(highs, StrictHigh), Pivots(lows, StrictLow);
      r.Some? ==> |sh| >= 2 && |sl| >= 2 && (r.value.kind == AscendingTriangle <==> FlatHighs(sh) && RisingLows(sl))
    ensures r.Some? ==> r.value.kind == AscendingTriangle || r.value.kind == SymmetricalTriangle
    ensures r.Some? && r.value.kind == AscendingTriangle ==>
      var sh, sl := Pivots(highs, StrictHigh), Pivots(lows, StrictLow);
      var top := SeqMax(Prices(sh));
      r.value.bias == Bullish && r.value.strength == Strong && r.value.target == Some(top + (top - sl[0].price))
    ensures r.Some? && r.value.kind == SymmetricalTriangle ==>
      r.value.bias == Neutral && r.value.strength == Moderate && r.value.target.None?
    ensures r.Some? ==>
      var sh := Pivots(highs, StrictHigh);
      (r.value.isBreakout <==>
        && volumes[|volumes| - 1] > Mean(volumes[..|volumes| - 1]) * 1.5
        && forall k :: 0 <= k < |sh| ==> closes[|closes| - 1] > sh[k].price)
  {
    var sh, sl := Pivots(highs, StrictHigh), Pivots(lows, StrictLow);
    if |sh| < 2 || |sl| < 2 then None
    else
      PivotPricesPositive(highs, StrictHigh);
      var volumeSpike := volumes[|volumes| - 1] > Mean(volumes[..|volumes| - 1]) * 1.5;
      TriangleOf(sh, sl, closes[|closes| - 1], volumeSpike)
  }

  lemma HighsPositive(bars: seq<Bar>)
    requires WellFormed(bars)
    ensures Positive(Highs(bars))
  {
    forall i | 0 <= i < |bars| ensures Highs(bars)[i] > 0.0 {
      assert WellFormedBar(bars[i]);
    }
  }

  /** Needs fifteen bars; looks at the last twenty. */
  function DetectTriangle(bars: seq<Bar>): (r: Option<SwingPattern>)
    requires WellFormed(bars)
    ensures |bars| < 15 ==> r.None?
    ensures |bars| >= 15 ==> var w := TakeLast(bars, 20);
      r == TriangleFrom(Highs(w), Lows(w), Closes(w), Volumes(w))
  {
    if |bars| < 15 then None
    else
      var w := TakeLast(bars, 20);
      WellFormedSlice(bars, |bars| - |w|, |bars|);
      HighsPositive(w);
      TriangleFrom(Highs(w), Lows(w), Closes(w), Volumes(w))
  }

  // ----- Double bottom / double top -----

  /** `Math.abs(first - second) / first < 0.03`; a zero first price makes
      the quotient NaN or infinite and the test false. */
  function Similar(first: real, second: real): (b: bool)
    requires first >= 0.0
    ensures b <==> first > 0.0 && Abs(first - second) < 0.03 * first
  {
    if first == 0.0 then false
    else
      RatioCompare(Abs(first - second), first, 0.03);
      Ratio(Abs(first - second), first) < 0.03
  }

  /** Each low sits at or below the high of its bar, and neither is negative. */
  predicate Bracketed(highs: seq<real>, lows: seq<real>) {
    |highs| == |lows| && forall i :: 0 <= i < |lows| ==> 0.0 <= lows[i] <= highs[i]
  }

  /** `Math.max(...xs.slice(lo, hi))` on a non-empty slice. */
  function HighestBetween(xs: seq<real>, lo: nat, hi: nat): (m: real)
    requires lo < hi <= |xs|
    ensures exists i :: lo <= i < hi && xs[i] == m
    ensures forall i :: lo <= i < hi ==> xs[i] <= m
  {
    var between := xs[lo..hi];
    var m := SeqMax(between);
    assert forall i :: lo <= i < hi ==> xs[i] <= m by {
      forall i | lo <= i < hi ensures xs[i] <= m {
        assert between[i - lo] == xs[i] && between[i - lo] in between;
      }
    }
    assert exists i :: lo <= i < hi && xs[i] == m by {
      var k :| 0 <= k < |between| && between[k] == m;
      assert xs[lo + k] == m;
    }
    m
  }

  /** `Math.min(...xs.slice(lo, hi))` on a non-empty slice. */
  function LowestBetween(xs: seq<real>, lo: nat, hi: nat): (m: real)
    requires lo < hi <= |xs|
    ensures exists i :: lo <= i < hi && xs[i] == m
    ensures forall i :: lo <= i < hi ==> m <= xs[i]
  {
    var between := xs[lo..hi];
    var m := SeqMin(between);
    assert forall i :: lo <= i < hi ==> m <= xs[i] by {
      forall i | lo <= i < hi ensures m <= xs[i] {
        assert between[i - lo] == xs[i] && between[i - lo] in between;
      }
    }
    assert exists i :: lo <= i < hi && xs[i] == m by {
      var k :| 0 <= k < |between| && between[k] == m;
      assert xs[lo + k] == m;
    }
    m
  }

  /** The last two pivots of a series lie inside it, in order, at their
      own prices. */
  lemma LastTwoPivots(xs: seq<real>, rule: PivotRule)
    requires |Pivots(xs, rule)| >= 2
    ensures var ps := Pivots(xs, rule); var a, b := ps[|ps| - 2], ps[|ps| - 1];
      a.index < b.index < |xs| && a.price == xs[a.index] && b.price == xs[b.index]
  {
    var ps := Pivots(xs, rule);
    PivotsSpec(xs, rule);
    assert IsPivot(xs, rule, ps[|ps| - 1].index);
  }

  /** A double bottom on the swing lows `a` and `b`. */
  function DoubleBottomAt(highs: seq<real>, a: Pivot, b: Pivot, price: real): (r: Option<SwingPattern>)
    requires a.index < b.index <= |highs| && a.price >= 0.0
    ensures r.Some? <==> Similar(a.price, b.price) && a.index + 5 <= b.index
    ensures r.Some? ==>
      && r.value.kind == DoubleBottom && r.value.bias == Bullish && r.value.strength == Strong
      && r.value.neckline.Some?
      && (exists i :: a.index <= i < b.index && highs[i] == r.value.neckline.value)
      && (forall i :: a.index <= i < b.index ==> highs[i] <= r.value.neckline.value)
      && (r.value.isBreakout <==> price > r.value.neckline.value)
      && r.value.target.Some?
      && r.value.target.value - r.value.neckline.value == r.value.neckline.value - a.price
  {
    if Similar(a.price, b.price) && b.index - a.index >= 5 then
      var neck := HighestBetween(highs, a.index, b.index);
      Some(SwingPattern(DoubleBottom, Bullish, Strong, price > neck, Some(neck + (neck - a.price)), Some(neck), None, None))
    else None
  }

  /** The last two window swing lows, within 3% of each other and at least
      five bars apart, with the neckline at the highest high from the first
      low up to (not including) the second. */
  function DoubleBottomFrom(highs: seq<real>, lows: seq<real>, price: real): (r: Option<SwingPattern>)
    requires Bracketed(highs, lows)
    ensures var sl := Pivots(lows, WindowLow);
      r.Some? <==> |sl| >= 2 && 0.0 < sl[|sl| - 2].price && Abs(sl[|sl| - 2].price - sl[|sl| - 1].price) < 0.03 * sl[|sl| - 2].price && sl[|sl| - 2].index + 5 <= sl[|sl| - 1].index
    ensures r.Some? ==> var sl := Pivots(lows, WindowLow); var a, b := sl[|sl| - 2], sl[|sl| - 1];
      && a.index < b.index < |highs|
      && r.value.kind == DoubleBottom && r.value.bias == Bullish && r.value.strength == Strong
      && r.value.neckline.Some?
      && (exists i :: a.index <= i < b.index && highs[i] == r.value.neckline.value)
      && (forall i :: a.index <= i < b.index ==> highs[i] <= r.value.neckline.value)
      && (r.value.isBreakout <==> price > r.value.neckline.value)
      && r.value.target.Some?
      && r.value.target.value - r.value.neckline.value == r.value.neckline.value - a.price
      && r.value.target.value >= r.value.neckline.value
  {
    var sl := Pivots(lows, WindowLow);
    if |sl| < 2 then None
    else
      LastTwoPivots(lows, WindowLow);
      var a, b := sl[|sl| - 2], sl[|sl| - 1];
      assert 0.0 <= a.price <= highs[a.index];
      DoubleBottomAt(highs, a, b, price)
  }

  /** A double top on the swing highs `a` and `b`. */
  function DoubleTopAt(lows: seq<real>, a: Pivot, b: Pivot, price: real): (r: Option<SwingPattern>)
    requires a.index < b.index <= |lows| && a.price >= 0.0
    ensures r.Some? <==> Similar(a.price, b.price) && a.index + 5 <= b.index
    ensures r.Some? ==>
      && r.value.kind == DoubleTop && r.value.bias == Bearish && r.value.strength == Strong
      && (r.value.isBreakout <==> forall i :: a.index <= i < b.index ==> price < lows[i])
      && r.value.target.None?
  {
    if Similar(a.price, b.price) && b.index - a.index >= 5 then
      var neck := LowestBetween(lows, a.index, b.index);
      Some(SwingPattern(DoubleTop, Bearish, Strong, price < neck, None, None, None, None))
    else None
  }

  /** The mirror image on the last two window swing highs; the neckline is
      the lowest low between them and the signal is a close below it. */
  function DoubleTopFrom(highs: seq<real>, lows: seq<real>, price: real): (r: Option<SwingPattern>)
    requires Bracketed(highs, lows)
    ensures var sh := Pivots(highs, WindowHigh);
      r.Some? <==> |sh| >= 2 && 0.0 < sh[|sh| - 2].price && Abs(sh[|sh| - 2].price - sh[|sh| - 1].price) < 0.03 * sh[|sh| - 2].price && sh[|sh| - 2].index + 5 <= sh[|sh| - 1].index
    ensures r.Some? ==> var sh := Pivots(highs, WindowHigh); var a, b := sh[|sh| - 2], sh[|sh| - 1];
      && a.index < b.index < |lows|
      && r.value.kind == DoubleTop && r.value.bias == Bearish && r.value.strength == Strong
      && (r.value.isBreakout <==> forall i :: a.index <= i < b.index ==> price < lows[i])
      && r.value.target.None?
  {
    var sh := Pivots(highs, WindowHigh);
    if |sh| < 2 then None
    else
      LastTwoPivots(highs, WindowHigh);
      var a, b := sh[|sh| - 2], sh[|sh| - 1];
      assert 0.0 <= lows[a.index] <= a.price;
      DoubleTopAt(lows, a, b, price)
  }

  /** A double bottom takes precedence over a double top. */
  function DoubleFrom(highs: seq<real>, lows: seq<real>, price: real): (r: Option<SwingPattern>)
    requires Bracketed(highs, lows)
    ensures DoubleBottomFrom(highs, lows, price).Some? ==> r == DoubleBottomFrom(highs, lows, price)
    ensures DoubleBottomFrom(highs, lows, price).None? ==> r == DoubleTopFrom(highs, lows, price)
  {
    var bottom := DoubleBottomFrom(highs, lows, price);
    if bottom.Some? then bottom else DoubleTopFrom(highs, lows, price)
  }

  lemma BarsBracketed(bars: seq<Bar>)
    requires WellFormed(bars)
    ensures Bracketed(Highs(bars), Lows(bars))
  {
    forall i | 0 <= i < |bars| ensures 0.0 <= Lows(bars)[i] <= Highs(bars)[i] {
      assert WellFormedBar(bars[i]);
    }
  }

  /** Needs thirty bars; looks at the last forty. */
  function DetectDouble(bars: seq<Bar>): (r: Option<SwingPattern>)
    requires WellFormed(bars)
    ensures |bars| < 30 ==> r.None?
    ensures |bars| >= 30 ==> var w := TakeLast(bars, 40);
      r == DoubleFrom(Highs(w), Lows(w), bars[|bars| - 1].close)
  {
    if |bars| < 30 then None
    else
      var w := TakeLast(bars, 40);
      WellFormedSlice(bars, |bars| - |w|, |bars|);
      BarsBracketed(w);
      DoubleFrom(Highs(w), Lows(w), bars[|bars| - 1].close)
  }

  // ----- Consolidation breakout -----

  /** The verdict on one candidate range: it reports when the range is
      under 8% of its low and either under 6% or broken by a close above its
      high on more than 1.5 times the range's average volume. */
  function ConsolidationOf(high: real, low: real, price: real, volume: real, average: real): (r: Option<SwingPattern>)
    requires 0.0 < low <= high
    ensures r.Some? <==> TightRange(high, low, 8.0) && ((price > high && volume > average * 1.5) || TightRange(high, low, 6.0))
    ensures r.Some? ==>
      && r.value.kind == ConsolidationBreakout
      && (r.value.isBreakout <==> price > high && volume > average * 1.5)
      && r.value.rangeHigh == Some(high) && r.value.rangeLow == Some(low)
      && r.value.target == Some(high + (high - low)) && high <= r.value.target.value
      && (r.value.isBreakout ==> r.value.bias == Bullish && r.value.strength == Strong)
      && (!r.value.isBreakout ==> r.value.bias == Neutral && r.value.strength == Moderate)
  {
    var range := RangePercent(high, low);
    if range >= 8.0 then None
    else
      var volumeSpike := volume > average * 1.5;
      var isBreakout := price > high && volumeSpike;
      if isBreakout || range < 6.0 then
        Some(SwingPattern(
          ConsolidationBreakout,
          if isBreakout then Bullish else Neutral,
          if isBreakout then Strong else Moderate,
          isBreakout,
          Some(high + (high - low)),
          None,
          Some(high),
          Some(low)))
      else None
  }

  /** The lowest low of a window is at most its highest high. */
  lemma RangeOrdered(highs: seq<real>, lows: seq<real>, lo: nat, hi: nat)
    requires Bracketed(highs, lows) && lo < hi <= |highs|
    ensures LowestBetween(lows, lo, hi) <= HighestBetween(highs, lo, hi)
  {
    assert LowestBetween(lows, lo, hi) <= lows[lo] <= highs[lo] <= HighestBetween(highs, lo, hi);
  }

  /** One pass of the consolidation loop: the `period` sessions before the
      last one form the range, judged against the last close and volume. A
      zero low makes the percentage NaN or infinite and the pass silent. */
  function ConsolidationAt(highs: seq<real>, lows: seq<real>, closes: seq<real>, volumes: seq<real>, period: nat): Option<SwingPattern>
    requires Bracketed(highs, lows) && |closes| == |volumes| == |highs| && 10 <= period <= 20
  {
    if |closes| < period + 5 then None
    else
      var start, end := |closes| - period - 1, |closes| - 1;
      var high, low := HighestBetween(highs, start, end), LowestBetween(lows, start, end);
      RangeOrdered(highs, lows, start, end);
      if low == 0.0 then None
      else ConsolidationOf(high, low, closes[end], volumes[end], Mean(volumes[start..end]))
  }

  /** A pass needs `period + 5` sessions; its range runs from the lowest low
      to the highest high of the `period` sessions before the last, and the
      last close and volume are judged against it and the range's mean
      volume. */
  lemma ConsolidationAtSpec(highs: seq<real>, lows: seq<real>, closes: seq<real>, volumes: seq<real>, period: nat)
    requires Bracketed(highs, lows) && |closes| == |volumes| == |highs| && 10 <= period <= 20
    ensures |closes| < period + 5 ==> ConsolidationAt(highs, lows, closes, volumes, period).None?
    ensures |closes| >= period + 5 ==>
      var start, end := |closes| - period - 1, |closes| - 1;
      var high, low := HighestBetween(highs, start, end), LowestBetween(lows, start, end);
      && |volumes[start..end]| == period
      && low <= high
      && (low == 0.0 ==> ConsolidationAt(highs, lows, closes, volumes, period).None?)
      && (low > 0.0 ==>
            ConsolidationAt(highs, lows, closes, volumes, period)
              == ConsolidationOf(high, low, closes[end], volumes[end], Mean(volumes[start..end])))
  {
    if |closes| >= period + 5 {
      RangeOrdered(highs, lows, |closes| - period - 1, |closes| - 1);
    }
  }

  /** The loop over periods `period..20`: the first pass that reports wins. */
  function ScanConsolidation(highs: seq<real>, lows: seq<real>, closes: seq<real>, volumes: seq<real>, period: nat): (r: Option<SwingPattern>)
    requires Bracketed(highs, lows) && |closes| == |volumes| == |highs| && 10 <= period <= 21
    decreases 21 - period
    ensures r.Some? ==> exists p :: (period <= p <= 20 && r == ConsolidationAt(highs, lows, closes, volumes, p) &&
      forall q :: period <= q < p ==> ConsolidationAt(highs, lows, closes, volumes, q).None?)
    ensures r.None? <==> forall p :: period <= p <= 20 ==> ConsolidationAt(highs, lows, closes, volumes, p).None?
  {
    if period > 20 then None
    else
      var here := ConsolidationAt(highs, lows, closes, volumes, period);
      if here.Some? then here
      else ScanConsolidation(highs, lows, closes, volumes, period + 1)
  }

  /** Needs fifteen bars; tries range lengths of ten to twenty sessions. */
  function DetectConsolidation(bars: seq<Bar>): (r: Option<SwingPattern>)
    requires WellFormed(bars)
    ensures |bars| < 15 ==> r.None?
    ensures |bars| >= 15 ==> r == ScanConsolidation(Highs(bars), Lows(bars), Closes(bars), Volumes(bars), 10)
  {
    if |bars| < 15 then None
    else
      BarsBracketed(bars);
      ScanConsolidation(Highs(bars), Lows(bars), Closes(bars), Volumes(bars), 10)
  }

  // ----- All swing patterns -----

  datatype SwingReport = SwingReport(
    patterns: seq<SwingPattern>,
    hasBullishPattern: bool,
    hasBreakout: bool)

  function Listed(p: Option<SwingPattern>): (ps: seq<SwingPattern>)
    ensures |ps| == Count(p.Some?)
    ensures p.Some? ==> ps == [p.value]
    ensures forall q :: q in ps <==> p == Some(q)
  {
    if p.Some? then [p.value] else []
  }

  /** The reports of the detectors that fire, in the order given. */
  function Collect(flag: Option<SwingPattern>, triangle: Option<SwingPattern>, double: Option<SwingPattern>, consolidation: Option<SwingPattern>): (r: SwingReport)
    requires flag.Some? ==> !flag.value.isBreakout
    ensures |r.patterns| <= 4
    ensures forall p :: p in r.patterns <==> Some(p) == flag || Some(p) == triangle || Some(p) == double || Some(p) == consolidation
    ensures r.hasBullishPattern <==> exists p :: p in r.patterns && p.bias == Bullish
    ensures r.hasBreakout <==> exists p :: p in r.patterns && p.isBreakout
    ensures r.hasBreakout ==> exists p :: p in r.patterns && p.isBreakout && Some(p) != flag
  {
    var patterns := Listed(flag) + Listed(triangle) + Listed(double) + Listed(consolidation);
    SwingReport(
      patterns,
      exists p :: p in patterns && p.bias == Bullish,
      exists p :: p in patterns && p.isBreakout)
  }

  /** The reports come in detector order: each firing detector's report
      follows those of the earlier detectors that fired. */
  lemma CollectOrder(flag: Option<SwingPattern>, triangle: Option<SwingPattern>, double: Option<SwingPattern>, consolidation: Option<SwingPattern>)
    requires flag.Some? ==> !flag.value.isBreakout
    ensures var ps, n1, n2, n3 := Collect(flag, triangle, double, consolidation).patterns,
      Count(flag.Some?), Count(flag.Some?) + Count(triangle.Some?),
      Count(flag.Some?) + Count(triangle.Some?) + Count(double.Some?);
      && |ps| == n3 + Count(consolidation.Some?)
      && (flag.Some? ==> ps[0] == flag.value)
      && (triangle.Some? ==> ps[n1] == triangle.value)
      && (double.Some? ==> ps[n2] == double.value)
      && (consolidation.Some? ==> ps[n3] == consolidation.value)
  {
    var upToTriangle := Listed(flag) + Listed(triangle);
    var upToDouble := upToTriangle + Listed(double);
    var ps := upToDouble + Listed(consolidation);
    assert ps == Collect(flag, triangle, double, consolidation).patterns;
    assert forall i :: 0 <= i < |upToDouble| ==> ps[i] == upToDouble[i];
    assert forall i :: 0 <= i < |upToTriangle| ==> upToDouble[i] == upToTriangle[i];
  }

  /** The four detectors in order (flag, triangle, double, consolidation),
      keeping those that fire. The flag never reports a breakout, so a
      breakout always comes from one of the other three. */
  function DetectSwingPatterns(bars: seq<Bar>): (r: SwingReport)
    requires WellFormed(bars)
    ensures |r.patterns| <= 4
    ensures forall p :: p in r.patterns <==>
      Some(p) == DetectFlag(bars) || Some(p) == DetectTriangle(bars) || Some(p) == DetectDouble(bars) || Some(p) == DetectConsolidation(bars)
    ensures r.hasBullishPattern <==> exists p :: p in r.patterns && p.bias == Bullish
    ensures r.hasBreakout <==> exists p :: p in r.patterns && p.isBreakout
    ensures r.hasBreakout ==> exists p :: p in r.patterns && p.isBreakout && Some(p) != DetectFlag(bars)
  {
    Collect(DetectFlag(bars), DetectTriangle(bars), DetectDouble(bars), DetectConsolidation(bars))
  }
}

=== FILE: poles.dfy ===
/** The flagpole search of the flag/pennant detector: the sharpest rise of
    more than 10% over five to ten sessions within the last twenty. */
module Poles {
  import opened Common
  import opened Bars

  /** A candidate flagpole: the rise from the close at `start` to the close at `end`. */
  datatype Pole = Pole(start: nat, end: nat)

  /** The poles the double loop visits on a series of `len >= 20` bars:
      starts in the last twenty sessions, five to ten sessions long, ending
      at least five sessions before the last bar. */
  predicate IsPoleCandidate(p: Pole, len: int) {
    && len - 20 <= p.start
    && p.start + 5 <= p.end <= p.start + 10
    && p.end <= len - 5
  }

  /** Visiting order of the double loop: by start, then by end. */
  predicate Before(p: Pole, q: Pole) {
    p.start < q.start || (p.start == q.start && p.end < q.end)
  }

  /** The poles starting at `i`, shortest first. */
  function PoleRow(i: nat, len: nat): (row: seq<Pole>)
    ensures forall p :: p in row <==> p.start == i && i + 5 <= p.end <= i + 10 && p.end <= len - 5
    ensures forall k, l :: 0 <= k < l < |row| ==> Before(row[k], row[l])
  {
    var last := if i + 10 <= len - 5 then i + 10 else len - 5;
    var n := if last >= i + 5 then last - (i + 5) + 1 else 0;
    var row := seq(n, k requires 0 <= k < n => Pole(i, i + 5 + k));
    assert forall p :: p in row <==> p.start == i && i + 5 <= p.end <= i + 10 && p.end <= len - 5 by {
      forall p ensures p in row <==> p.start == i && i + 5 <= p.end <= i + 10 && p.end <= len - 5 {
        if p.start == i && i + 5 <= p.end <= i + 10 && p.end <= len - 5 {
          assert row[p.end - i - 5] == p;
        }
      }
    }
    row
  }

  /** The poles with starts from `i` on, in the loop's order. */
  function PoleRows(i: nat, len: nat): (ps: seq<Pole>)
    decreases len - i
    ensures forall p :: p in ps <==> i <= p.start && p.start + 5 <= p.end <= p.start + 10 && p.end <= len - 5
    ensures forall k, l :: 0 <= k < l < |ps| ==> Before(ps[k], ps[l])
  {
    if i + 5 >= len then []
    else
      var row := PoleRow(i, len);
      var rest := PoleRows(i + 1, len);
      var ps := row + rest;
      assert forall k, l :: 0 <= k < |row| <= l < |ps| ==> Before(ps[k], ps[l]) by {
        forall k, l | 0 <= k < |row| <= l < |ps| ensures Before(ps[k], ps[l]) {
          assert ps[k] in row && ps[l] in rest;
        }
      }
      ps
  }

  /** Every candidate pole, in the order the double loop visits them. */
  function PoleCandidates(len: nat): (ps: seq<Pole>)
    requires len >= 20
    ensures forall p :: p in ps <==> IsPoleCandidate(p, len)
    ensures forall k, l :: 0 <= k < l < |ps| ==> Before(ps[k], ps[l])
  {
    PoleRows(len - 20, len)
  }

  /** The percentage rise of a pole. */
  function Move(closes: seq<real>, p: Pole): real
    requires p.start < |closes| && p.end < |closes| && closes[p.start] > 0.0
  {
    Percent(closes[p.end] - closes[p.start], closes[p.start])
  }

  predicate PolesFit(closes: seq<real>, ps: seq<Pole>) {
    forall k :: 0 <= k < |ps| ==> ps[k].start < |closes| && ps[k].end < |closes| && closes[ps[k].start] > 0.0
  }

  /** The state of the search: the best move so far and the position of
      its pole among the candidates (-1 while there is none). */
  datatype PoleSearch = PoleSearch(best: real, at: int)

  /** The loop keeps the first pole whose move is the largest, counting
      only moves above 10%. */
  function BestPole(closes: seq<real>, ps: seq<Pole>): (r: PoleSearch)
    requires PolesFit(closes, ps)
    ensures r.at == -1 <==> forall k :: 0 <= k < |ps| ==> Move(closes, ps[k]) <= 10.0
    ensures r.at == -1 ==> r.best == 0.0
    ensures r.at != -1 ==> 0 <= r.at < |ps| && Move(closes, ps[r.at]) == r.best && r.best > 10.0
    ensures r.at != -1 ==> forall k :: 0 <= k < |ps| ==> Move(closes, ps[k]) <= r.best
    ensures r.at != -1 ==> forall k :: 0 <= k < r.at ==> Move(closes, ps[k]) < r.best
  {
    if |ps| == 0 then PoleSearch(0.0, -1)
    else
      var init := ps[..|ps| - 1];
      assert PolesFit(closes, init) by {
        forall k | 0 <= k < |init| ensures init[k] == ps[k] { }
      }
      var acc := BestPole(closes, init);
      assert forall k :: 0 <= k < |init| ==> init[k] == ps[k];
      var m := Move(closes, ps[|ps| - 1]);
      if m > acc.best && m > 10.0 then PoleSearch(m, |ps| - 1) else acc
  }

  /** The pole the search settles on: a candidate rising more than 10%, no
      candidate rising more, and every candidate visited before it rising
      less. `None` when no candidate rises more than 10%. */
  function FlagPole(closes: seq<real>): (r: Option<Pole>)
    requires |closes| >= 20 && forall i :: 0 <= i < |closes| ==> closes[i] > 0.0
    ensures r.None? <==> forall p :: IsPoleCandidate(p, |closes|) ==> Move(closes, p) <= 10.0
    ensures r.Some? ==> IsPoleCandidate(r.value, |closes|) && Move(closes, r.value) > 10.0
    ensures r.Some? ==> forall p :: IsPoleCandidate(p, |closes|) ==> Move(closes, p) <= Move(closes, r.value)
    ensures r.Some? ==> forall p :: IsPoleCandidate(p, |closes|) && Before(p, r.value) ==> Move(closes, p) < Move(closes, r.value)
  {
    var ps := PoleCandidates(|closes|);
    assert PolesFit(closes, ps) by {
      forall k | 0 <= k < |ps| ensures ps[k].start < |closes| && ps[k].end < |closes| && closes[ps[k].start] > 0.0 {
        assert ps[k] in ps;
      }
    }
    var s := BestPole(closes, ps);
    CandidatesIndexed(closes, ps);
    if s.at == -1 then None
    else
      assert forall p :: IsPoleCandidate(p, |closes|) && Before(p, ps[s.at]) ==> Move(closes, p) < s.best by {
        forall p | IsPoleCandidate(p, |closes|) && Before(p, ps[s.at]) ensures Move(closes, p) < s.best {
          var k :| 0 <= k < |ps| && ps[k] == p;
          assert k < s.at;
        }
      }
      Some(ps[s.at])
  }

  /** Each candidate sits at some position of the candidate list. */
  lemma CandidatesIndexed(closes: seq<real>, ps: seq<Pole>)
    requires |closes| >= 20 && ps == PoleCandidates(|closes|)
    ensures forall p :: IsPoleCandidate(p, |closes|) ==> exists k :: 0 <= k < |ps| && ps[k] == p
  {
    forall p | IsPoleCandidate(p, |closes|) ensures exists k :: 0 <= k < |ps| && ps[k] == p {
      assert p in ps;
    }
  }
}

=== FILE: scoring.dfy ===
/** `calculateScore` and `screenStocks` of services/scoringEngine.js: the
    ten-factor score of one instrument and the ranking of many. */
module Scoring {
  import opened Common
  import opened Bars
  import opened Indicators
  import opened Sorting
  import opened Analysis
  import opened Factors
  import opened Setup
  import opened Signals

  /** What the data service hands over for one instrument. The library
      series are the indicator library's output for the candles. */
  datatype StockData = StockData(
    name: Option<string>,
    candles: Option<seq<Bar>>,
    fiftyTwoWeekHigh: Option<real>,
    fiftyTwoWeekLow: Option<real>,
    library: LibrarySeries)

  /** The outcome of scoring one instrument. The two failures report a
      score of 0 and an empty breakdown. The indicator summary the source
      attaches is left out. */
  datatype ScoreResult =
    | InsufficientData
    | ComputationError
    | Scored(
        score: real,
        signal: Signal,
        signalReasons: SignalReasons,
        breakdown: Breakdown,
        tradeSetup: TradeSetup,
        currentPrice: real,
        priceChange: real)

  function ScoreOf(r: ScoreResult): real {
    if r.Scored? then r.score else 0.0
  }

  /** The candles, when present, satisfy the data contract. */
  predicate Admissible(d: StockData) {
    d.candles.Some? ==> WellFormed(d.candles.value)
  }

  /** The ten factors from one indicator set. */
  function BreakdownOf(ind: IndicatorSet, high52: Option<real>, low52: Option<real>): (b: Breakdown)
    ensures forall f :: f in ScoredFactors(b) ==> Bounded(f)
    ensures b.trend.max == 1.5 && b.rsi.max == 1.0 && b.macd.max == 1.0 && b.volume.max == 1.5
    ensures b.pattern.max == 1.0 && b.support.max == 1.0 && b.adx.max == 1.0 && b.week52.max == 0.5
    ensures b.riskReward.max == 1.0 && b.sector.score == 0.0
    ensures b.volume.score >= 0.3
    ensures b.riskReward.value == RiskRewardScore(
      ind.currentPrice, ind.atr.value, ind.supportResistance.nearestSupport, ind.supportResistance.nearestResistance).value
  {
    var e := ind.emas;
    var b := Breakdown(
      TrendScore(e.aboveEma50, e.ema50Above200, ind.trendAnalysis.isUptrend),
      RsiScore(ind.rsi),
      MacdScore(ind.macd),
      VolumeScore(ind.volumeAnalysis),
      PatternScore(ind.candlePatterns),
      SupportScore(e.distanceFromEma20, e.aboveEma20, e.distanceFromEma50, e.aboveEma50, ind.supportResistance.nearSupport),
      AdxScore(ind.adx),
      SectorScore(),
      Week52Score(ind.currentPrice, high52, low52),
      RiskRewardScore(ind.currentPrice, ind.atr.value, ind.supportResistance.nearestSupport, ind.supportResistance.nearestResistance));
    assert forall f :: f in ScoredFactors(b) ==> Bounded(f);
    b
  }

  /** Rounding to a tenth never reverses an ordering. */
  lemma RoundTenthMonotone(a: real, b: real)
    requires a <= b
    ensures RoundTenth(a) <= RoundTenth(b)
  {
    FloorMonotone(a * 10.0 + 0.5, b * 10.0 + 0.5);
  }

  /** A total in [0.3, 9.5] rounds to a score in the same range. */
  lemma RoundedScoreBounds(total: real)
    requires 0.3 <= total <= 9.5
    ensures 0.3 <= RoundTenth(total) <= 9.5
  {
    RoundTenthMonotone(0.3, total);
    RoundTenthMonotone(total, 9.5);
    assert (0.3 * 10.0 + 0.5).Floor == 3;
    assert (9.5 * 10.0 + 0.5).Floor == 95;
  }

  /** An error of at most `e` in a quotient is an error of at most `e`
      times the divisor in the dividend. */
  lemma ScaledError(shown: real, exact: real, divisor: real, e: real)
    requires divisor > 0.0 && Abs(shown - exact) <= e
    ensures shown * divisor - exact * divisor <= e * divisor
    ensures exact * divisor - shown * divisor <= e * divisor
  {
    ScaleOrder(shown - exact, e, divisor);
    ScaleOrder(exact - shown, e, divisor);
    assert (shown - exact) * divisor == shown * divisor - exact * divisor;
    assert (exact - shown) * divisor == exact * divisor - shown * divisor;
  }

  /** A percentage known to within `e` pins its part down to within `e`
      hundredths of the whole. */
  lemma PercentError(shown: real, change: real, part: real, whole: real, e: real)
    requires whole > 0.0 && change * whole == part * 100.0 && Abs(shown - change) <= e
    ensures shown * whole - part * 100.0 <= e * whole
    ensures part * 100.0 - shown * whole <= e * whole
  {
    ScaledError(shown, change, whole, e);
  }

  /** `((price - previous) / previous * 100).toFixed(2)`: the day's change
      in percent, within half a hundredth of the exact figure. */
  function PriceChange(price: real, previous: real): (shown: real)
    requires previous > 0.0
    ensures shown * previous - (price - previous) * 100.0 <= 0.005 * previous
    ensures (price - previous) * 100.0 - shown * previous <= 0.005 * previous
    ensures price >= previous ==> shown >= 0.0
  {
    var change := Percent(price - previous, previous);
    var shown := Round2(change);
    PercentError(shown, change, price - previous, previous, 0.005);
    shown
  }

  /** The scored result for an indicator set. */
  function ScoreIndicators(ind: IndicatorSet, high52: Option<real>, low52: Option<real>): (r: ScoreResult)
    requires ind.currentPrice > 0.0 && ind.previousClose > 0.0
    ensures r.Scored?
    ensures 0.3 <= Total(r.breakdown) <= 9.5 && 0.3 <= r.score <= 9.5
    ensures -0.05 < r.score - Total(r.breakdown) <= 0.05
    ensures r.score == RoundTenth(Total(r.breakdown))
    ensures r.breakdown == BreakdownOf(ind, high52, low52)
    ensures r.tradeSetup == CalculateTradeSetup(
      ind.currentPrice, ind.atr.value, ind.supportResistance.nearestSupport, ind.supportResistance.nearestResistance)
    ensures r.signal == GetSignal(Total(r.breakdown))
    ensures r.breakdown.sector.score == 0.0
    ensures r.tradeSetup.riskRewardRatio == r.breakdown.riskReward.value
    ensures r.signalReasons == GenerateSignalReasons(r.breakdown, Total(r.breakdown))
    ensures r.currentPrice == ind.currentPrice
    ensures r.priceChange == PriceChange(ind.currentPrice, ind.previousClose)
  {
    var b := BreakdownOf(ind, high52, low52);
    var total := Total(b);
    TotalBounds(b);
    RoundedScoreBounds(total);
    var price := ind.currentPrice;
    var levels := ind.supportResistance;
    Scored(
      RoundTenth(total),
      GetSignal(total),
      GenerateSignalReasons(b, total),
      b,
      CalculateTradeSetup(price, ind.atr.value, levels.nearestSupport, levels.nearestResistance),
      price,
      PriceChange(price, ind.previousClose))
  }

  /** Fewer than 26 candles (or none) is insufficient data; an empty RSI
      series makes the computation throw; otherwise the ten factors are
      scored. The signal comes from the unrounded total, the score is the
      total rounded to a tenth. */
  function CalculateScore(d: StockData): (r: ScoreResult)
    requires Admissible(d)
    ensures r.InsufficientData? <==> d.candles.None? || |d.candles.value| < 26
    ensures r.ComputationError? <==> d.candles.Some? && |d.candles.value| >= 26 && |d.library.rsi| == 0
    ensures r.Scored? ==>
      && 0.3 <= Total(r.breakdown) <= 9.5 && 0.3 <= r.score <= 9.5
      && -0.05 < r.score - Total(r.breakdown) <= 0.05
      && r.score == RoundTenth(Total(r.breakdown))
      && r.signal == GetSignal(Total(r.breakdown))
      && r.breakdown.sector.score == 0.0
      && r.tradeSetup.riskRewardRatio == r.breakdown.riskReward.value
      && r.currentPrice == d.candles.value[|d.candles.value| - 1].close
    ensures r.Scored? ==>
      && (forall f :: f in ScoredFactors(r.breakdown) ==> Bounded(f))
      && r.signalReasons == GenerateSignalReasons(r.breakdown, Total(r.breakdown))
      && CalculateIndicators(d.candles.value, d.library).Some?
      && r.breakdown == BreakdownOf(CalculateIndicators(d.candles.value, d.library).value, d.fiftyTwoWeekHigh, d.fiftyTwoWeekLow)
    ensures 0.0 <= ScoreOf(r) <= 9.5
  {
    if d.candles.None? || |d.candles.value| < 26 then InsufficientData
    else
      var ind := CalculateIndicators(d.candles.value, d.library);
      if ind.None? then ComputationError
      else ScoreIndicators(ind.value, d.fiftyTwoWeekHigh, d.fiftyTwoWeekLow)
  }

  // ----- Screening -----

  datatype Stock = Stock(symbol: string, data: Option<StockData>)

  datatype Ranked = Ranked(symbol: string, name: string, result: ScoreResult)

  /** Stocks whose data carries candles are scored; the rest are skipped. */
  predicate HasCandles(s: Stock) {
    s.data.Some? && s.data.value.candles.Some?
  }

  predicate AdmissibleStock(s: Stock) {
    s.data.Some? ==> Admissible(s.data.value)
  }

  /** The displayed name: the data's name unless it is missing or empty. */
  function DisplayName(s: Stock): (r: string)
    requires s.data.Some?
    ensures r == s.symbol <==>
      s.data.value.name.None? || s.data.value.name.value == "" || s.data.value.name.value == s.symbol
    ensures r != s.symbol ==> s.data.value.name == Some(r) && r != ""
  {
    var name := s.data.value.name;
    if name.Some? && name.value != "" then name.value else s.symbol
  }

  /** One entry of the screen: the symbol, its displayed name and the
      score of its data. */
  function Evaluate(s: Stock): (r: Ranked)
    requires HasCandles(s) && AdmissibleStock(s)
    ensures r.symbol == s.symbol && r.name == DisplayName(s)
    ensures r.result == CalculateScore(s.data.value)
  {
    Ranked(s.symbol, DisplayName(s), CalculateScore(s.data.value))
  }

  /** The scored entries, in input order. */
  function EvaluateAll(stocks: seq<Stock>): (rs: seq<Ranked>)
    requires forall i :: 0 <= i < |stocks| ==> AdmissibleStock(stocks[i])
    ensures |rs| <= |stocks|
    ensures forall x :: x in rs <==> exists i :: 0 <= i < |stocks| && HasCandles(stocks[i]) && x == Evaluate(stocks[i])
  {
    if |stocks| == 0 then []
    else
      var rest := EvaluateAll(stocks[1..]);
      assert forall i :: 1 <= i < |stocks| ==> stocks[i] == stocks[1..][i - 1];
      assert forall i :: 0 <= i < |stocks| - 1 ==> stocks[1..][i] == stocks[i + 1];
      (if HasCandles(stocks[0]) then [Evaluate(stocks[0])] else []) + rest
  }

  function RankedScore(x: Ranked): real {
    ScoreOf(x.result)
  }

  /** Every stock with candles scored and ranked by score, highest first;
      the sort is stable, so equal scores keep their input order. */
  function ScreenStocks(stocks: seq<Stock>): (rs: seq<Ranked>)
    requires forall i :: 0 <= i < |stocks| ==> AdmissibleStock(stocks[i])
    ensures forall i, j :: 0 <= i < j < |rs| ==> RankedScore(rs[i]) >= RankedScore(rs[j])
    ensures multiset(rs) == multiset(EvaluateAll(stocks))
    ensures |rs| <= |stocks|
    ensures forall x :: x in rs <==> exists i :: 0 <= i < |stocks| && HasCandles(stocks[i]) && x == Evaluate(stocks[i])
  {
    var evaluated := EvaluateAll(stocks);
    var sorted := SortDesc(evaluated, RankedScore);
    assert forall x :: x in sorted <==> x in evaluated by {
      forall x ensures x in sorted <==> x in evaluated {
        assert x in sorted <==> x in multiset(sorted);
        assert x in evaluated <==> x in multiset(evaluated);
      }
    }
    sorted
  }
}

=== FILE: setup.dfy ===
/** The trade setup of services/scoringEngine.js: entry at the last close,
    a stop and two targets placed by the ATR and the nearest levels. */
module Setup {
  import opened Common
  import opened Factors

  /** Every figure is shown to two decimals. `None` stands for the "NaN"
      (or infinite) text JavaScript prints when the ATR is missing or the
      risk is zero. */
  datatype TradeSetup = TradeSetup(
    entry: real,
    stopLoss: Option<real>,
    target1: Option<real>,
    target2: Option<real>,
    riskPercent: Option<real>,
    rewardPercent: Option<real>,
    riskRewardRatio: Option<real>)

  /** The setup for a known ATR `a`. */
  function SetupWithAtr(price: real, a: real, support: real, resistance: real): (t: TradeSetup)
    requires price > 0.0
    ensures t.entry == Round2(price)
    ensures t.riskRewardRatio == RewardRatio(Target(price, a, resistance) - price, price - Stop(price, a, support))
    ensures t.stopLoss.Some? && t.target1.Some? && t.target2.Some? && t.riskPercent.Some? && t.rewardPercent.Some?
    ensures t.stopLoss == Some(Round2(Stop(price, a, support)))
    ensures t.target1 == Some(Round2(price + a * 2.0))
    ensures t.target2 == Some(Round2(Target(price, a, resistance)))
    ensures Abs(t.riskPercent.value - Percent(price - Stop(price, a, support), price)) <= 0.005
    ensures Abs(t.rewardPercent.value - Percent(Target(price, a, resistance) - price, price)) <= 0.005
    ensures Round2(price - a * 2.0) <= t.stopLoss.value && Round2(support * 0.99) <= t.stopLoss.value
    ensures t.target2.value <= Round2(price + a * 3.0) && t.target2.value <= Round2(resistance * 0.99)
    ensures a > 0.0 && 0.0 <= support <= price ==>
      t.stopLoss.value <= t.entry <= t.target1.value && t.riskPercent.value >= 0.0 && t.riskRewardRatio.Some?
  {
    var stop := Stop(price, a, support);
    var target2 := Target(price, a, resistance);
    var risk := price - stop;
    var reward := target2 - price;
    Round2Monotone(price - a * 2.0, stop);
    Round2Monotone(support * 0.99, stop);
    Round2Monotone(target2, price + a * 3.0);
    Round2Monotone(target2, resistance * 0.99);
    assert a > 0.0 && 0.0 <= support <= price ==>
      risk != 0.0 && Round2(stop) <= Round2(price) <= Round2(price + a * 2.0) && risk / price * 100.0 >= 0.0 by {
      if a > 0.0 && 0.0 <= support <= price {
        RiskPositive(price, a, support);
        Round2Monotone(stop, price);
        Round2Monotone(price, price + a * 2.0);
        DivSign(risk, price);
      }
    }
    TradeSetup(
      Round2(price),
      Some(Round2(stop)),
      Some(Round2(price + a * 2.0)),
      Some(Round2(target2)),
      Some(Round2(risk / price * 100.0)),
      Some(Round2(reward / price * 100.0)),
      RewardRatio(reward, risk))
  }

  /** Entry at the price; the stop and the far target are the ones the
      risk/reward factor grades; the near target is two ATRs up. */
  function CalculateTradeSetup(price: real, atr: Option<real>, support: real, resistance: real): (t: TradeSetup)
    requires price > 0.0
    ensures t.entry == Round2(price)
    ensures atr.None? ==>
      t.stopLoss.None? && t.target1.None? && t.target2.None?
      && t.riskPercent.None? && t.rewardPercent.None? && t.riskRewardRatio.None?
    ensures t.riskRewardRatio == RiskRewardScore(price, atr, support, resistance).value
    ensures atr.Some? ==>
      && t.stopLoss.Some? && t.target1.Some? && t.target2.Some? && t.riskPercent.Some? && t.rewardPercent.Some?
      && t.stopLoss == Some(Round2(Stop(price, atr.value, support)))
      && t.target1 == Some(Round2(price + atr.value * 2.0))
      && t.target2 == Some(Round2(Target(price, atr.value, resistance)))
      && Abs(t.riskPercent.value - Percent(price - Stop(price, atr.value, support), price)) <= 0.005
      && Abs(t.rewardPercent.value - Percent(Target(price, atr.value, resistance) - price, price)) <= 0.005
      && Round2(price - atr.value * 2.0) <= t.stopLoss.value
      && t.target2.value <= Round2(price + atr.value * 3.0)
      && Round2(support * 0.99) <= t.stopLoss.value
      && t.target2.value <= Round2(resistance * 0.99)
    ensures atr.Some? && atr.value > 0.0 && 0.0 <= support <= price ==>
      && t.stopLoss.value <= t.entry <= t.target1.value
      && t.riskPercent.value >= 0.0
      && t.riskRewardRatio.Some?
  {
    if atr.None? then TradeSetup(Round2(price), None, None, None, None, None, None)
    else SetupWithAtr(price, atr.value, support, resistance)
  }

  /** The ratio is reward over risk of the unrounded stop and far target,
      each of which the setup shows to within half a hundredth. */
  lemma RatioFromExactFigures(price: real, a: real, support: real, resistance: real)
    requires price > 0.0 && a > 0.0 && 0.0 <= support <= price
    ensures var t := CalculateTradeSetup(price, Some(a), support, resistance);
      var stop, target := Stop(price, a, support), Target(price, a, resistance);
      && t.riskRewardRatio.Some?
      && Abs(t.riskRewardRatio.value - (target - price) / (price - stop)) <= 0.005
      && Abs(t.stopLoss.value - stop) <= 0.005
      && Abs(t.target2.value - target) <= 0.005
      && Abs(t.entry - price) <= 0.005
  {
    RiskPositive(price, a, support);
  }

  /** The ratio is not recomputable from the shown figures: a risk under a
      cent shows entry and stop as the same number, so the shown figures
      give no risk at all while the ratio reads 1.5. */
  lemma ShownFiguresLoseSmallRisk()
    ensures var t := CalculateTradeSetup(100.004, Some(0.004), 50.0, 200.0);
      && t.entry == 100.0 && t.stopLoss == Some(100.0) && t.target2 == Some(100.02)
      && t.riskRewardRatio == Some(1.5)
  {
    assert Stop(100.004, 0.004, 50.0) == 99.996;
    assert Target(100.004, 0.004, 200.0) == 100.016;
    assert (100.004 * 100.0 + 0.5).Floor == 10000;
    assert (99.996 * 100.0 + 0.5).Floor == 10000;
    assert (100.016 * 100.0 + 0.5).Floor == 10002;
    assert 0.012 / 0.008 == 1.5;
    assert (1.5 * 100.0 + 0.5).Floor == 150;
  }
}

=== FILE: signals.dfy ===
/** The signal classes of services/scoringEngine.js and the reason lines
    chosen for display. */
module Signals {
  import opened Common
  import opened Factors

  datatype SignalKind = StrongBuy | Buy | Watchlist | Avoid

  datatype Confidence = High | Medium | Low | NoConfidence

  /** The emoji and the text are left out; they follow the kind. */
  datatype Signal = Signal(kind: SignalKind, confidence: Confidence)

  /** 8 and up is a strong buy, 7 a buy, 5 the watchlist, anything lower avoid. */
  function GetSignal(total: real): (s: Signal)
    ensures s.kind == StrongBuy <==> total >= 8.0
    ensures s.kind == Buy <==> 7.0 <= total < 8.0
    ensures s.kind == Watchlist <==> 5.0 <= total < 7.0
    ensures s.kind == Avoid <==> total < 5.0
    ensures s.confidence == High <==> s.kind == StrongBuy
    ensures s.confidence == Medium <==> s.kind == Buy
    ensures s.confidence == Low <==> s.kind == Watchlist
    ensures s.confidence == NoConfidence <==> s.kind == Avoid
  {
    if total >= 8.0 then Signal(StrongBuy, High)
    else if total >= 7.0 then Signal(Buy, Medium)
    else if total >= 5.0 then Signal(Watchlist, Low)
    else Signal(Avoid, NoConfidence)
  }

  /** Higher is better: avoid 0 up to strong buy 3. */
  function Rank(k: SignalKind): nat {
    match k
    case Avoid => 0
    case Watchlist => 1
    case Buy => 2
    case StrongBuy => 3
  }

  /** A higher total never gets a worse signal. */
  lemma SignalMonotone(a: real, b: real)
    requires a <= b
    ensures Rank(GetSignal(a).kind) <= Rank(GetSignal(b).kind)
  {
  }

  /** The signal is taken from the unrounded total, so a total of 7.96 is a
      buy although its displayed score is 8.0. */
  lemma SignalIgnoresRounding()
    ensures RoundTenth(7.96) == 8.0
    ensures GetSignal(7.96).kind == Buy && GetSignal(RoundTenth(7.96)).kind == StrongBuy
  {
    assert (7.96 * 10.0 + 0.5).Floor == 80;
  }

  // ----- Reasons -----

  /** A factor contributes its first reason when it passed. */
  predicate Contributes(f: FactorScore) {
    |f.reasons| > 0 && f.passed
  }

  /** A factor contributes its first reason as an issue when it failed with
      a score of exactly zero. */
  predicate Complains(f: FactorScore) {
    |f.reasons| > 0 && !f.passed && f.score == 0.0
  }

  /** The first reasons of the passed factors, in factor order. */
  function Positives(fs: seq<FactorScore>): (rs: seq<Reason>)
    ensures |rs| <= |fs|
    ensures forall x :: x in rs ==> exists i :: 0 <= i < |fs| && Contributes(fs[i]) && fs[i].reasons[0] == x
    ensures forall i :: 0 <= i < |fs| && Contributes(fs[i]) ==> fs[i].reasons[0] in rs
    ensures |fs| == 1 ==> rs == (if Contributes(fs[0]) then [fs[0].reasons[0]] else [])
  {
    if |fs| == 0 then []
    else
      var rest := Positives(fs[1..]);
      assert forall i :: 1 <= i < |fs| ==> fs[i] == fs[1..][i - 1];
      (if Contributes(fs[0]) then [fs[0].reasons[0]] else []) + rest
  }

  /** The first reasons of the factors that failed with a zero score, in
      factor order. */
  function Issues(fs: seq<FactorScore>): (rs: seq<Reason>)
    ensures |rs| <= |fs|
    ensures forall x :: x in rs ==> exists i :: 0 <= i < |fs| && Complains(fs[i]) && fs[i].reasons[0] == x
    ensures forall i :: 0 <= i < |fs| && Complains(fs[i]) ==> fs[i].reasons[0] in rs
    ensures |fs| == 1 ==> rs == (if Complains(fs[0]) then [fs[0].reasons[0]] else [])
  {
    if |fs| == 0 then []
    else
      var rest := Issues(fs[1..]);
      assert forall i :: 1 <= i < |fs| ==> fs[i] == fs[1..][i - 1];
      (if Complains(fs[0]) then [fs[0].reasons[0]] else []) + rest
  }

  /** The positives of a list are those of its first part followed by
      those of the rest: the factor order is kept. */
  lemma {:induction false} PositivesAppend(a: seq<FactorScore>, b: seq<FactorScore>)
    ensures Positives(a + b) == Positives(a) + Positives(b)
  {
    if |a| > 0 {
      assert (a + b)[0] == a[0];
      assert (a + b)[1..] == a[1..] + b;
      PositivesAppend(a[1..], b);
    } else {
      assert a + b == b;
    }
  }

  /** The issues of a list are those of its first part followed by those
      of the rest: the factor order is kept. */
  lemma {:induction false} IssuesAppend(a: seq<FactorScore>, b: seq<FactorScore>)
    ensures Issues(a + b) == Issues(a) + Issues(b)
  {
    if |a| > 0 {
      assert (a + b)[0] == a[0];
      assert (a + b)[1..] == a[1..] + b;
      IssuesAppend(a[1..], b);
    } else {
      assert a + b == b;
    }
  }

  /** A list none of whose factors passed shows no positive. */
  lemma {:induction false} NoPositivesNone(fs: seq<FactorScore>)
    requires forall j :: 0 <= j < |fs| ==> !Contributes(fs[j])
    ensures Positives(fs) == []
  {
    if |fs| > 0 {
      NoPositivesNone(fs[1..]);
    }
  }

  /** A list none of whose factors failed with zero shows no issue. */
  lemma {:induction false} NoIssuesNone(fs: seq<FactorScore>)
    requires forall j :: 0 <= j < |fs| ==> !Complains(fs[j])
    ensures Issues(fs) == []
  {
    if |fs| > 0 {
      NoIssuesNone(fs[1..]);
    }
  }

  /** The first positive is the first reason of the earliest passed factor. */
  lemma FirstPositiveIsEarliest(fs: seq<FactorScore>, i: nat)
    requires i < |fs| && Contributes(fs[i])
    requires forall j :: 0 <= j < i ==> !Contributes(fs[j])
    ensures |Positives(fs)| > 0 && Positives(fs)[0] == fs[i].reasons[0]
  {
    assert fs == fs[..i] + fs[i..];
    PositivesAppend(fs[..i], fs[i..]);
    NoPositivesNone(fs[..i]);
    assert fs[i..] == [fs[i]] + fs[i + 1..];
    PositivesAppend([fs[i]], fs[i + 1..]);
  }

  /** The first issue is the first reason of the earliest factor failing with zero. */
  lemma FirstIssueIsEarliest(fs: seq<FactorScore>, i: nat)
    requires i < |fs| && Complains(fs[i])
    requires forall j :: 0 <= j < i ==> !Complains(fs[j])
    ensures |Issues(fs)| > 0 && Issues(fs)[0] == fs[i].reasons[0]
  {
    assert fs == fs[..i] + fs[i..];
    IssuesAppend(fs[..i], fs[i..]);
    NoIssuesNone(fs[..i]);
    assert fs[i..] == [fs[i]] + fs[i + 1..];
    IssuesAppend([fs[i]], fs[i + 1..]);
  }

  datatype Tone = BullishTone | NeutralTone | BearishTone

  datatype Title = StrongSetup | BuyReasons | WatchFor | AvoidBecause

  /** The display block; `positives` and `issues` are the counts its
      summary line shows. */
  datatype SignalReasons = SignalReasons(tone: Tone, title: Title, items: seq<Reason>, positives: nat, issues: nat)

  /** Up to four reasons: positives for a buy, two positives and two issues
      for the watchlist, issues for avoid. The sector factor is never read. */
  function GenerateSignalReasons(b: Breakdown, total: real): (r: SignalReasons)
    ensures |r.items| <= 4
    ensures r.positives == |Positives(ScoredFactors(b))| && r.issues == |Issues(ScoredFactors(b))|
    ensures total >= 7.0 ==>
      && r.tone == BullishTone
      && (r.title == StrongSetup <==> total >= 8.0)
      && r.items == Take(Positives(ScoredFactors(b)), 4)
      && forall x :: x in r.items ==> exists i :: 0 <= i < 9 && Contributes(ScoredFactors(b)[i]) && ScoredFactors(b)[i].reasons[0] == x
    ensures 5.0 <= total < 7.0 ==>
      && r.tone == NeutralTone && r.title == WatchFor
      && r.items == Take(Positives(ScoredFactors(b)), 2) + Take(Issues(ScoredFactors(b)), 2)
    ensures total < 5.0 ==>
      && r.tone == BearishTone && r.title == AvoidBecause
      && r.items == Take(Issues(ScoredFactors(b)), 4)
      && forall x :: x in r.items ==> exists i :: 0 <= i < 9 && Complains(ScoredFactors(b)[i]) && ScoredFactors(b)[i].reasons[0] == x
  {
    var positives := Positives(ScoredFactors(b));
    var issues := Issues(ScoredFactors(b));
    if total >= 7.0 then
      SignalReasons(BullishTone, if total >= 8.0 then StrongSetup else BuyReasons, Take(positives, 4), |positives|, |issues|)
    else if total >= 5.0 then
      SignalReasons(NeutralTone, WatchFor, Take(positives, 2) + Take(issues, 2), |positives|, |issues|)
    else
      SignalReasons(BearishTone, AvoidBecause, Take(issues, 4), |positives|, |issues|)
  }

  /** A buy leads with the reason of the earliest passed factor, in the
      order trend, RSI, MACD, volume, pattern, support, ADX, 52-week range,
      risk/reward. */
  lemma BuyLeadsWithEarliestPositive(b: Breakdown, total: real, i: nat)
    requires total >= 7.0
    requires i < 9 && Contributes(ScoredFactors(b)[i])
    requires forall j :: 0 <= j < i ==> !Contributes(ScoredFactors(b)[j])
    ensures |GenerateSignalReasons(b, total).items| > 0
    ensures GenerateSignalReasons(b, total).items[0] == ScoredFactors(b)[i].reasons[0]
  {
    FirstPositiveIsEarliest(ScoredFactors(b), i);
  }

  /** An avoid leads with the reason of the earliest factor that failed
      with zero, in the same factor order. */
  lemma AvoidLeadsWithEarliestIssue(b: Breakdown, total: real, i: nat)
    requires total < 5.0
    requires i < 9 && Complains(ScoredFactors(b)[i])
    requires forall j :: 0 <= j < i ==> !Complains(ScoredFactors(b)[j])
    ensures |GenerateSignalReasons(b, total).items| > 0
    ensures GenerateSignalReasons(b, total).items[0] == ScoredFactors(b)[i].reasons[0]
  {
    FirstIssueIsEarliest(ScoredFactors(b), i);
  }

  /** The sector factor is not among the factors read, so it never changes
      the reasons shown. */
  lemma SectorNeverContributes(b: Breakdown, sector: FactorScore, total: real)
    ensures GenerateSignalReasons(b.(sector := sector), total) == GenerateSignalReasons(b, total)
  {
  }
}

=== FILE: sorting.dfy ===
/** The one ordering routine the pipeline needs: `Array.prototype.sort`
    with a numeric comparator, which is stable. Ascending order is the
    descending order of the negated key. */
module Sorting {

  /** Keys never increase along the sequence. */
  predicate SortedDesc<T>(s: seq<T>, key: T -> real) {
    forall i, j :: 0 <= i < j < |s| ==> key(s[i]) >= key(s[j])
  }

  lemma TailSorted<T>(s: seq<T>, key: T -> real)
    requires |s| > 0 && SortedDesc(s, key)
    ensures SortedDesc(s[1..], key)
  {
    forall i, j | 0 <= i < j < |s| - 1 ensures key(s[1..][i]) >= key(s[1..][j]) {
      assert s[1..][i] == s[i + 1] && s[1..][j] == s[j + 1];
    }
  }

  /** Prepending an element no smaller than any other keeps the order. */
  lemma ConsSorted<T>(y: T, t: seq<T>, key: T -> real)
    requires SortedDesc(t, key)
    requires forall z :: z in multiset(t) ==> key(z) <= key(y)
    ensures SortedDesc([y] + t, key)
  {
    var r := [y] + t;
    forall i, j | 0 <= i < j < |r| ensures key(r[i]) >= key(r[j]) {
      assert r[j] == t[j - 1];
      if i > 0 {
        assert r[i] == t[i - 1];
      } else {
        assert t[j - 1] in multiset(t);
      }
    }
  }

  /** Every element of a sequence sorted by descending key is bounded by its head. */
  lemma HeadBounds<T>(s: seq<T>, key: T -> real)
    requires |s| > 0 && SortedDesc(s, key)
    ensures forall z :: z in multiset(s) ==> key(z) <= key(s[0])
  {
    forall z | z in multiset(s) ensures key(z) <= key(s[0]) {
      var k :| 0 <= k < |s| && s[k] == z;
    }
  }

  /** Places `x` before the first element whose key does not exceed its own,
      so `x` precedes the elements it ties with. */
  function Insert<T>(x: T, s: seq<T>, key: T -> real): (r: seq<T>)
    requires SortedDesc(s, key)
    ensures SortedDesc(r, key)
    ensures multiset(r) == multiset(s) + multiset{x}
    ensures |r| == |s| + 1
  {
    if |s| == 0 then [x]
    else if key(s[0]) <= key(x) then
      HeadBounds(s, key);
      ConsSorted(x, s, key);
      [x] + s
    else
      TailSorted(s, key);
      var rest := Insert(x, s[1..], key);
      assert s == [s[0]] + s[1..];
      HeadBounds(s, key);
      assert multiset(rest) == multiset(s[1..]) + multiset{x};
      assert multiset(s) == multiset{s[0]} + multiset(s[1..]);
      ConsSorted(s[0], rest, key);
      [s[0]] + rest
  }

  /** A stable sort by key, largest key first: elements with equal keys keep
      their input order. */
  function SortDesc<T>(s: seq<T>, key: T -> real): (r: seq<T>)
    ensures SortedDesc(r, key)
    ensures multiset(r) == multiset(s)
    ensures |r| == |s|
  {
    if |s| == 0 then []
    else
      assert s == [s[0]] + s[1..];
      Insert(s[0], SortDesc(s[1..], key), key)
  }

  /** An input already in order comes back unchanged, ties included. */
  lemma {:induction false} SortKeepsSorted<T>(s: seq<T>, key: T -> real)
    requires SortedDesc(s, key)
    ensures SortDesc(s, key) == s
  {
    if |s| > 0 {
      TailSorted(s, key);
      SortKeepsSorted(s[1..], key);
      assert s == [s[0]] + s[1..];
    }
  }

  function Negate(x: real): real { -x }

  /** `sort((a, b) => a - b)`: smallest first. */
  function SortAsc(s: seq<real>): (r: seq<real>)
    ensures forall i, j :: 0 <= i < j < |r| ==> r[i] <= r[j]
    ensures multiset(r) == multiset(s)
  {
    var r := SortDesc(s, Negate);
    assert forall i, j :: 0 <= i < j < |r| ==> Negate(r[i]) >= Negate(r[j]);
    r
  }

  /** `sort((a, b) => b - a)`: largest first. */
  function SortNumbersDesc(s: seq<real>): (r: seq<real>)
    ensures forall i, j :: 0 <= i < j < |r| ==> r[i] >= r[j]
    ensures multiset(r) == multiset(s)
  {
    var id := (x: real) => x;
    var r := SortDesc(s, id);
    assert forall i, j :: 0 <= i < j < |r| ==> id(r[i]) >= id(r[j]);
    r
  }

  /** The head of a descending sort is the largest element. */
  lemma HeadOfSortIsMax(s: seq<real>)
    requires |s| > 0
    ensures var r := SortNumbersDesc(s); |r| > 0 && r[0] in s && forall x :: x in s ==> x <= r[0]
  {
    var r := SortNumbersDesc(s);
    assert s[0] in multiset(r);
    forall x | x in s ensures x <= r[0] {
      assert x in multiset(r);
      var k :| 0 <= k < |r| && r[k] == x;
    }
    assert r[0] in multiset(s);
  }
}

=== FILE: swings.dfy ===
/** Swing points: bars whose high (or low) beats its neighbours. The source
    uses two rules, a strict one over two bars on each side and a
    window-extreme one over three bars on each side. */
module Swings {

  /** A swing point: its position in the series and its price. */
  datatype Pivot = Pivot(index: nat, price: real)

  datatype PivotRule =
    | StrictHigh  // above each of the two bars on either side
    | StrictLow   // below each of the two bars on either side
    | WindowHigh  // the maximum of the seven bars centred on it
    | WindowLow   // the minimum of the seven bars centred on it

  /** How many bars on each side the rule compares against. */
  function Reach(rule: PivotRule): nat {
    if rule.StrictHigh? || rule.StrictLow? then 2 else 3
  }

  /** The candidate's value is not beaten by a neighbour's under the rule. */
  predicate Beats(rule: PivotRule, candidate: real, other: real) {
    match rule
    case StrictHigh => candidate > other
    case StrictLow => candidate < other
    case WindowHigh => candidate >= other
    case WindowLow => candidate <= other
  }

  /** Position `i` has a full window of neighbours and beats all of them. */
  predicate IsPivot(xs: seq<real>, rule: PivotRule, i: int) {
    && Reach(rule) <= i < |xs| - Reach(rule)
    && forall k :: i - Reach(rule) <= k <= i + Reach(rule) && k != i ==> Beats(rule, xs[i], xs[k])
  }

  /** The pivots at positions `i` and later, in order of position. */
  function PivotsFrom(xs: seq<real>, rule: PivotRule, i: nat): seq<Pivot>
    decreases |xs| - i
  {
    if i + Reach(rule) >= |xs| then []
    else
      var rest := PivotsFrom(xs, rule, i + 1);
      if IsPivot(xs, rule, i) then [Pivot(i, xs[i])] + rest else rest
  }

  /** Everything the scan from `i` keeps is a pivot at `i` or later, at its
      own price. */
  lemma {:induction false} PivotsFromSound(xs: seq<real>, rule: PivotRule, i: nat)
    decreases |xs| - i
    ensures forall p :: p in PivotsFrom(xs, rule, i) ==> i <= p.index && IsPivot(xs, rule, p.index) && p.price == xs[p.index]
  {
    if i + Reach(rule) < |xs| {
      PivotsFromSound(xs, rule, i + 1);
      var rest := PivotsFrom(xs, rule, i + 1);
      assert PivotsFrom(xs, rule, i) == if IsPivot(xs, rule, i) then [Pivot(i, xs[i])] + rest else rest;
      assert forall p :: p in PivotsFrom(xs, rule, i) ==> p == Pivot(i, xs[i]) || p in rest;
    }
  }

  /** The scan from `i` keeps every pivot at `i` or later. */
  lemma {:induction false} PivotsFromComplete(xs: seq<real>, rule: PivotRule, i: nat)
    decreases |xs| - i
    ensures forall j :: i <= j && IsPivot(xs, rule, j) ==> Pivot(j, xs[j]) in PivotsFrom(xs, rule, i)
  {
    if i + Reach(rule) < |xs| {
      PivotsFromComplete(xs, rule, i + 1);
      var rest := PivotsFrom(xs, rule, i + 1);
      assert PivotsFrom(xs, rule, i) == if IsPivot(xs, rule, i) then [Pivot(i, xs[i])] + rest else rest;
      forall j | i <= j && IsPivot(xs, rule, j)
        ensures Pivot(j, xs[j]) in PivotsFrom(xs, rule, i)
      {
        if j > i {
          assert Pivot(j, xs[j]) in rest;
        }
      }
    }
  }

  /** The scan from `i` keeps its pivots in increasing position. */
  lemma {:induction false} PivotsFromOrdered(xs: seq<real>, rule: PivotRule, i: nat)
    decreases |xs| - i
    ensures forall k, l :: 0 <= k < l < |PivotsFrom(xs, rule, i)| ==> PivotsFrom(xs, rule, i)[k].index < PivotsFrom(xs, rule, i)[l].index
  {
    if i + Reach(rule) < |xs| {
      PivotsFromSound(xs, rule, i + 1);
      PivotsFromOrdered(xs, rule, i + 1);
      var rest := PivotsFrom(xs, rule, i + 1);
      assert PivotsFrom(xs, rule, i) == if IsPivot(xs, rule, i) then [Pivot(i, xs[i])] + rest else rest;
      if IsPivot(xs, rule, i) {
        var ps := [Pivot(i, xs[i])] + rest;
        assert forall k :: 1 <= k < |ps| ==> ps[k] == rest[k - 1] && rest[k - 1] in rest;
      }
    }
  }

  /** The scan `for (i = reach; i < length - reach; i++)`, keeping each pivot. */
  function Pivots(xs: seq<real>, rule: PivotRule): seq<Pivot> {
    PivotsFrom(xs, rule, Reach(rule))
  }

  /** The scan keeps exactly the pivots of the series, each at its own
      price, in increasing position. */
  lemma PivotsSpec(xs: seq<real>, rule: PivotRule)
    ensures var ps := Pivots(xs, rule);
      forall k :: 0 <= k < |ps| ==> IsPivot(xs, rule, ps[k].index) && ps[k].price == xs[ps[k].index]
    ensures var ps := Pivots(xs, rule);
      forall j :: IsPivot(xs, rule, j) ==> Pivot(j, xs[j]) in ps
    ensures var ps := Pivots(xs, rule);
      forall k, l :: 0 <= k < l < |ps| ==> ps[k].index < ps[l].index
  {
    PivotsFromSound(xs, rule, Reach(rule));
    PivotsFromComplete(xs, rule, Reach(rule));
    PivotsFromOrdered(xs, rule, Reach(rule));
  }

  /** The prices of the pivots, in order. */
  function Prices(ps: seq<Pivot>): (r: seq<real>)
    ensures |r| == |ps|
    ensures forall k :: 0 <= k < |ps| ==> r[k] == ps[k].price
  {
    seq(|ps|, k requires 0 <= k < |ps| => ps[k].price)
  }

  /** A value is a pivot price exactly when some pivot position holds it. */
  lemma PivotPrices(xs: seq<real>, rule: PivotRule, p: real)
    ensures p in Prices(Pivots(xs, rule)) <==> exists j :: IsPivot(xs, rule, j) && xs[j] == p
  {
    var ps := Pivots(xs, rule);
    PivotsSpec(xs, rule);
    if p in Prices(ps) {
      var k :| 0 <= k < |ps| && Prices(ps)[k] == p;
      assert IsPivot(xs, rule, ps[k].index);
    }
    if exists j :: IsPivot(xs, rule, j) && xs[j] == p {
      var j :| IsPivot(xs, rule, j) && xs[j] == p;
      assert Pivot(j, xs[j]) in ps;
      var k :| 0 <= k < |ps| && ps[k] == Pivot(j, xs[j]);
      assert Prices(ps)[k] == p;
    }
  }

  /** Two strict pivots of the same kind are at least three bars apart. */
  lemma {:induction false} StrictPivotsSpaced(xs: seq<real>, rule: PivotRule, k: nat)
    requires rule.StrictHigh? || rule.StrictLow?
    requires k + 1 < |Pivots(xs, rule)|
    ensures Pivots(xs, rule)[k].index + 3 <= Pivots(xs, rule)[k + 1].index
  {
    var ps := Pivots(xs, rule);
    PivotsSpec(xs, rule);
    var a, b := ps[k].index, ps[k + 1].index;
    assert a < b && IsPivot(xs, rule, a) && IsPivot(xs, rule, b);
    var xa, xb := xs[a], xs[b];
    assert b <= a + 2 ==> Beats(rule, xa, xb) && Beats(rule, xb, xa);
  }
}

=== FILE: trend.dfy ===
/** The 20-session trend read off the closes and the EMA alignment. */
module TrendAnalysis {
  import opened Common
  import opened Bars
  import opened Indicators

  datatype Direction = Up | Down | Sideways

  datatype TrendReading = TrendReading(
    direction: Direction,
    strength: Strength,
    change20Day: real,  // percent, two decimals
    isUptrend: bool,
    isDowntrend: bool,
    isSideways: bool,
    emaTrendAligned: bool)

  /** The percentage change from `start` to `end`. */
  function PercentChange(start: real, end: real): (r: real)
    requires start > 0.0
    ensures r > 0.0 <==> end > start
    ensures r < 0.0 <==> end < start
    ensures Abs(r) > 10.0 <==> Abs(end - start) > 0.1 * start
    ensures Abs(r) > 5.0 <==> Abs(end - start) > 0.05 * start
  {
    PercentCompare(end - start, start, 0.0);
    PercentCompare(end - start, start, 10.0);
    PercentCompare(end - start, start, -10.0);
    PercentCompare(end - start, start, 5.0);
    PercentCompare(end - start, start, -5.0);
    Percent(end - start, start)
  }

  /** An uptrend needs the price above the 50 EMA, the 50 EMA above the
      200 EMA and a higher close than 20 sessions back (the window starts at
      the first close when there are fewer); a downtrend needs all three
      reversed; anything else is sideways. The strength grades the size of
      the 20-session move: above 10% strong, above 5% moderate. */
  function AnalyzeTrend(closes: seq<real>, emas: EmaReading): (r: TrendReading)
    requires |closes| > 0 && forall i :: 0 <= i < |closes| ==> closes[i] > 0.0
    ensures var w := TakeLast(closes, 20); var start, end := w[0], w[|w| - 1];
      && (r.isUptrend <==> emas.aboveEma50 && emas.ema50Above200 && end > start)
      && (r.isDowntrend <==> !emas.aboveEma50 && !emas.ema50Above200 && end < start)
      && (r.strength == Strong <==> Abs(end - start) > 0.1 * start)
      && (r.strength == Moderate <==> 0.05 * start < Abs(end - start) <= 0.1 * start)
    ensures r.isSideways <==> !r.isUptrend && !r.isDowntrend
    ensures !(r.isUptrend && r.isDowntrend)
    ensures r.direction == Up <==> r.isUptrend
    ensures r.direction == Down <==> r.isDowntrend
    ensures r.emaTrendAligned <==> emas.aboveEma50 && emas.ema50Above200
    ensures r.isUptrend ==> r.emaTrendAligned
  {
    var w := TakeLast(closes, 20);
    var start, end := w[0], w[|w| - 1];
    assert start == closes[|closes| - |w|];
    var change := PercentChange(start, end);
    var up := emas.aboveEma50 && emas.ema50Above200 && change > 0.0;
    var down := !emas.aboveEma50 && !emas.ema50Above200 && change < 0.0;
    TrendReading(
      if up then Up else if down then Down else Sideways,
      if Abs(change) > 10.0 then Strong else if Abs(change) > 5.0 then Moderate else Weak,
      Round2(change),
      up,
      down,
      !up && !down,
      emas.aboveEma50 && emas.ema50Above200)
  }

  /** Without a 200 EMA (fewer sessions than its period) there is no uptrend. */
  lemma NoUptrendWithoutEma200(closes: seq<real>, lib: LibrarySeries)
    requires |closes| > 0 && forall i :: 0 <= i < |closes| ==> closes[i] > 0.0
    requires |lib.ema200| == 0
    ensures !AnalyzeTrend(closes, CalculateEmas(closes, lib)).isUptrend
    ensures AnalyzeTrend(closes, CalculateEmas(closes, lib)).direction != Up
  {
    var emas := CalculateEmas(closes, lib);
    assert !emas.ema50Above200;
  }
}
